=== FILE: README.md ===
# secretshare, modelled in Dafny

secretshare passes a file from one person to another through an S3 bucket.
The bucket never sees the plaintext, and the server never sees the key.

A sender runs the command-line client, the desktop client or the browser
client. That client:

- draws a 32-byte AES key;
- derives the storage object id from the key's SHA-256 digest, spelled
  with a base64 encoding without padding;
- asks the secretshare server for two presigned PUT URLs, one for the
  content object and one for the metadata object (`meta/<id>`);
- uploads both as envelopes: a padding-length byte, a 16-byte IV, and the
  AES-CBC ciphertext;
- hands the sender what the recipient needs.

The clients differ in two of these steps:

- **The encoding of ids and keys.** The Go clients use the project's own
  base64 alphabet. The browser uses `btoa`'s standard alphabet with `/`
  turned into `_` and `=` dropped (web/js/secretshare.js:170-176). The two
  alphabets order `y` and `z` the other way round.
- **The hand-off.** The command-line client prints
  `secretshare receive <id> <key>` (client/main.go:300). The desktop client
  shows only the key, in a copy box (guiclient/main.go:388). The browser
  prints `secretshare receive <key>` with no id (web/js/secretshare.js:316).

Both differences are listed under "## Findings" (the two
web/js/secretshare.js rows).

The recipient's client downloads both objects, decrypts the metadata in one
piece and streams the content through a decrypting reader into a file.

The project models that core:

- **The shared library.**
  - The human base64 encoding (`Common`, on top of a byte/sextet codec in
    `Base64`).
  - CBC mode over an arbitrary block cipher (`Cipher`).
  - The streaming `Encrypter` and `Decrypter` readers, call by call.
  - `SendSecret`, `RecvSecret`, the one-shot `decrypt`, key and id
    generation, and the header merging of `uploadEncrypted` (`Api`).
- **The command-line client** (`Clients` for what it shares with the
  desktop client, `Cli` for the rest).
- **The desktop client's send and receive screens** (`Gui`).
- **The server's `/upload` handler and routing** (`Server`).
- **The browser client** (`Web`).
- **Cross-component properties** (`Interop`, `Handoff`).
  - What a browser upload looks like to a Go receiver.
  - What the server's choice of object id does to a receive.
  - Whether the line a sender prints works as the recipient's command.

The outside world is a set of parameters:

- **Cryptographic primitives.** The AES block function is a pair of
  functions of which the second inverts the first (`Cipher.BlockCipher`).
  SHA-256 and the JSON codecs are function parameters.
- **Random sources.** Each is the byte sequence it returned, or `None` for
  an error.
- **Other outcomes.** HTTP replies, file-system outcomes, the user's answer
  to a prompt and the save dialog's choice are plain values.
- **Effects.** Each operation returns the list of external actions it
  takes (POSTs, PUTs, GETs, file creation and writes, cookie stores).
  Properties about traffic are stated on that list.

Several properties link the components:

- **A secret sent comes back** (`Api.SendThenReceive`), as its first
  `Api.Received(size)` bytes: unchanged unless its size is 1 to 16 more than
  a non-zero multiple of 32768.
  - The receiver must use the printed key.
  - The sent file must not be empty.
  - The bucket must hold the uploaded objects under the key's id. That holds
    with a server that presigns that id (`Interop.FixedServerRoundTrip`), and
    fails with the server as written (`Interop.ServerIdMismatch`).
- **Browser uploads.** The browser's envelopes open in the Go receiver only
  when the file does not fill its last block (`Interop.JsContentReadable`,
  `Interop.JsAlignedContentRejected`).
- **Headers without values.** A header with an empty value list in the
  server's reply panics the upload's header merge (`Api.MergeOne`). The
  library's send panics with it (`Api.SendSecret`). So does the
  command-line client (`Cli.FinishSend`), and the desktop client goes down
  (`Gui.SendUiIsLibrarySend`).
- **The browser's configuration check.**
  - It posts to `/ping`, a route the server in `server/main.go` does not
    register (`Server.RouteOf`).
  - So a pasted configuration is never accepted by the browser client
    against this server (`Interop.BrowserConfigNeverAccepted`).

## Model

| member | source | states |
|---|---|---|
| `Common.AlphabetShape` | commonlib/commonlib.go:37-41 | The custom alphabet has 64 distinct symbols, none of them `/`, `=` or a line break; `z` precedes `y` (indices 50 and 51) and `_` is last. |
| `Common.SymbolAt` | commonlib/commonlib.go:41 | The decoder's table sends the symbol at every index back to that index. |
| `Common.SymbolIndexInjective` | commonlib/commonlib.go:41 | No two symbols share a table position. |
| `Common.IndexOf` | commonlib/commonlib.go:41 | Every symbol the decoding table knows sits in the alphabet at the index it maps to. |
| `Common.Spell` | commonlib/commonlib.go:41 | Spelling keeps one symbol per sextet. |
| `Common.EncodeForHuman` | commonlib/commonlib.go:83-86 | The encoding has ceil(8n/6) symbols, all from the alphabet, never `/` or `=` (no padding). |
| `Common.StripLineBreaks` | commonlib/commonlib.go:88-91 | The decoder keeps exactly the characters that are not `\r` or `\n`. |
| `Common.SymbolValues` | commonlib/commonlib.go:88-91 | Lookup succeeds iff every symbol is in the table, and then gives each symbol's sextet. |
| `Common.DecodeForHuman` | commonlib/commonlib.go:88-91 | Decoding succeeds iff every non-line-break character is an alphabet symbol and the symbol count is not 1 modulo 4. |
| `Common.SymbolValuesSpell` | commonlib/commonlib.go:41 | Looking up spelled sextets gives the sextets back. |
| `Common.DecodeEncode` | commonlib/commonlib.go:83-91 | Decoding the encoding of any byte string gives that byte string. |
| `Common.EncodeDecode` | commonlib/commonlib.go:83-91 | On line-break-free, canonical text, re-encoding the decoded bytes gives the text back. |
| `Common.DecodeRejectsForeignSymbol` | commonlib/commonlib.go:88-91 | Any non-alphabet symbol other than a line break makes decoding fail. This includes `/` and `=`. |
| `Common.StripConcat` | commonlib/commonlib.go:88-91 | Line-break stripping distributes over concatenation. |
| `Common.DecodeIgnoresLineBreak` | commonlib/commonlib.go:88-91 | Inserting a line break anywhere leaves the decode result unchanged. |
| `Common.DecodeNotInjective` | commonlib/commonlib.go:88-91 | The decoder ignores stray low bits: "AA" and "AB" both decode to one zero byte. |
| `Common.DigestEncodingLength` | commonlib/commonlib.go:83-86 | 32-byte keys and digests always encode to 43 symbols. |
| `Base64.Group3` | commonlib/commonlib.go:41 | Three bytes become four sextets. |
| `Base64.Group2` | commonlib/commonlib.go:41 | A final pair becomes three sextets whose last two bits are zero. |
| `Base64.Group1` | commonlib/commonlib.go:41 | A final byte becomes two sextets whose last four bits are zero. |
| `Base64.Ungroup4` | commonlib/commonlib.go:41 | Four sextets become three bytes. |
| `Base64.Ungroup3` | commonlib/commonlib.go:41 | Three sextets become two bytes. |
| `Base64.Ungroup2` | commonlib/commonlib.go:41 | Two sextets become one byte. |
| `Base64.GroupRoundTrip` | commonlib/commonlib.go:41 | Ungrouping undoes each grouping. |
| `Base64.UngroupRoundTrip` | commonlib/commonlib.go:41 | Grouping undoes ungrouping when the dropped low bits are zero. |
| `Base64.Sextets` | commonlib/commonlib.go:41 | Bytes split into ceil(8n/6) 6-bit values, never 1 modulo 4 of them. |
| `Base64.Unsextets` | commonlib/commonlib.go:41 | A decodable sextet string gives floor(6k/8) bytes. |
| `Base64.UnsextetsSextets` | commonlib/commonlib.go:41 | Decoding undoes encoding for every byte string. |
| `Base64.SextetsUnsextets` | commonlib/commonlib.go:41 | Encoding undoes decoding exactly on canonical sextet strings. |
| `Base64.SextetsCanonical` | commonlib/commonlib.go:41 | The encoder's output is always canonical. |
| `Cipher.DecryptEncrypt` | commonlib/decrypter.go:60-64 | Block decryption under a key inverts block encryption under it. |
| `Cipher.CbcEncrypt` | commonlib/encrypter.go:92-95 | CBC encryption of whole blocks keeps the length. |
| `Cipher.CbcDecrypt` | commonlib/decrypter.go:92-95 | CBC decryption of whole blocks keeps the length. |
| `Cipher.CbcRoundTrip` | commonlib/api.go:238-239 | CBC decryption under the same key and IV recovers the plaintext. |
| `Cipher.CbcEncryptAppend` | commonlib/encrypter.go:85-98 | Encrypting block by block equals encrypting the concatenation: the second part chains from the last ciphertext block of the first. |
| `Cipher.Pkcs7Pad` | web/js/secretshare.js:229 | Browser padding adds 1 to 16 bytes, up to a whole block, each holding the count, and keeps the plaintext as prefix. |
| `Copying.Copied` | commonlib/api.go:348 | A consumer reading `n` bytes at a time and stopping at the first `io.EOF` gets at most everything, and everything without an early `io.EOF`. A short count is a non-zero multiple of `n` at or past the early offset, which the last full read reaches. |
| `Copying.CopiedLate` | commonlib/api.go:348 | An `io.EOF` at or after the end loses nothing. |
| `Copying.CopiedAll` | commonlib/api.go:348 | With an early `io.EOF`, the consumer gets everything iff one read holds it all, or the last read starts after the early offset. |
| `Copying.CopiedAfterRead` | commonlib/api.go:348 | A full read short of the early offset takes its bytes, and the rest is counted with the offset moved back. |
| `Copying.CopiedAtMultiple` | commonlib/api.go:348 | An early `io.EOF` at a whole number of reads short of the end stops the copy exactly there. |
| `Encrypter.PaddingLen` | commonlib/encrypter.go:43-48 | The padding is under 16 bytes and completes the last block; it is zero iff the size is a multiple of 16. |
| `Encrypter.Fill` | commonlib/encrypter.go:117-122 | The cipher sees the message followed by the padding byte up to a whole block. |
| `Encrypter.FillFirstBlock` | commonlib/encrypter.go:117-122 | Filling touches only the last block. |
| `Encrypter.PendingEmpty` | commonlib/encrypter.go:161-178 | Nothing is left to deliver iff the header went out and no block is loaded. |
| `Encrypter.NewEncrypter` | commonlib/encrypter.go:42-83 | A failed random source, a short IV and a bad key size each fail with their error; otherwise the reader will deliver the padding byte, the IV and the CBC encryption of the filled message, and `TotalSize` is size + 17 + padding. |
| `Encrypter.NeverBadBlockSize` | commonlib/encrypter.go:49-51 | The "block size > 256" error can never happen. |
| `Encrypter.TotalSizeIsStreamLength` | commonlib/encrypter.go:81 | When the source holds the announced bytes, `TotalSize` equals the number of bytes the reader delivers. |
| `Encrypter.ReadBlock` | commonlib/encrypter.go:85-130 | Loading reports end-of-source iff fewer than 16 bytes were left. No block is loaded iff the source was empty. What remains to deliver is unchanged. |
| `Encrypter.Drain` | commonlib/encrypter.go:161-178 | The copy loop keeps the reader valid with the header sent. It raises the end-of-source flag only once the source is used up, leaving at most one block pending. |
| `Encrypter.DrainDelivers` | commonlib/encrypter.go:161-178 | The copy loop hands out min(room, pending) bytes, and those bytes followed by what is still pending equal what was pending. |
| `Encrypter.Read` | commonlib/encrypter.go:132-187 | `ErrShortBuffer` iff the header is unsent and the buffer is under 17 bytes, without side effects. Otherwise min(n, pending) bytes come out in order, and `io.EOF` only once the source is exhausted. |
| `Encrypter.LoadFirstBlock` | commonlib/encrypter.go:136-159 | Writing the header and loading the first block keeps the pending stream. |
| `Encrypter.ReadFixed` | commonlib/encrypter.go:181-186 | The same delivery as `Read`, with `io.EOF` reported exactly when nothing is left. |
| `Encrypter.ReadAgreesWithFixed` | commonlib/encrypter.go:181-186 | `Read` and `ReadFixed` deliver the same bytes and state; the library's `io.EOF` can only be early, never late. |
| `Encrypter.EarlyEof` | commonlib/encrypter.go:161-186 | For a 1 to 15 byte message, the first 17-byte read returns the header with `io.EOF` while 16 of 33 bytes are undelivered. |
| `Encrypter.ReadAllFixed` | commonlib/encrypter.go:132-187 | Reading with `ReadFixed` until `io.EOF` yields the whole envelope for any buffer of at least 17 bytes. |
| `Encrypter.ReadAllIgnoringEof` | commonlib/encrypter.go:132-187 | Reading with the library's `Read` past `io.EOF` until an empty read also yields the whole envelope. |
| `Encrypter.ReadEof` | commonlib/encrypter.go:161-186 | With room for the header, a read of a source ending in a partial block reports `io.EOF` iff it reaches the start of the filled-in last block; a source ending on a block boundary reports `io.EOF` only with nothing left. |
| `Encrypter.ReadToEof` | commonlib/encrypter.go:132-187 | A consumer that stops at the first `io.EOF` gets at most the pending bytes. |
| `Encrypter.ReadToEofPrefix` | commonlib/encrypter.go:132-187 | What that consumer gets is a prefix of the pending bytes, in order. |
| `Encrypter.ReadToEofLength` | commonlib/encrypter.go:161-186 | It gets `Copying.Copied` bytes: everything unless a read reports `io.EOF` early, 16 bytes before the end of a partially filled last block. |
| `Encrypter.CopiedPrefix` | commonlib/encrypter.go:132-187 | The closed form of that consumer's bytes is a prefix of the pending bytes. |
| `Encrypter.ReadToEofIsCopiedPrefix` | commonlib/encrypter.go:132-187 | The consumer gets exactly the closed form, for every buffer of at least 17 bytes. |
| `Encrypter.EnvelopeReadToEof` | commonlib/encrypter.go:42-187 | From a fresh reader such a consumer gets the envelope up to where the copy stops, and the whole envelope iff the message ends on a block boundary, the envelope fits in one read, or the last read starts after the last block's first byte. |
| `Encrypter.Envelope` | commonlib/encrypter.go:53-81 | The envelope is 17 + size + padding bytes long, starting with the padding length and the IV. |
| `Encrypter.EncryptAll` | commonlib/encrypter.go:42-187 | Building a reader and reading it with the library's `Read`, going on past `io.EOF` until an empty read, yields the envelope iff the key size is valid. |
| `Decrypter.ReadBlock` | commonlib/decrypter.go:85-125 | A block loads iff 16 bytes are left; it comes with `io.EOF` exactly when it is the last block of a source that reports `io.EOF` with its last bytes. An empty source is a clean end, a partial block `DataCorruption`. A loaded block followed by the rest decrypts as before. |
| `Decrypter.Drain` | commonlib/decrypter.go:136-158 | The copy loop hands out bytes in order, never past the announced size. It stops with everything ahead delivered when the source is used up, the size is reached or a partial block is corrupt, each with that end; it only remembers an `io.EOF` that came with a block. |
| `Decrypter.DrainAcross` | commonlib/decrypter.go:148-157 | Crossing a block boundary loads the next block and continues the same output; a block loaded with `io.EOF` marks the rest of the call as ending in `io.EOF`. |
| `Decrypter.FutureAcrossBlock` | commonlib/decrypter.go:148-157 | Using up a block moves its rest to the output, and the future is that of the next load. |
| `Decrypter.FutureAfterChunk` | commonlib/decrypter.go:137-147 | Copying bytes of the loaded block moves them to the output. Reaching the announced size ends the stream cleanly. |
| `Decrypter.Read` | commonlib/decrypter.go:127-167 | A read delivers a non-empty prefix of what remains. `io.EOF` leaves the rest for the next state, and means everything was delivered when the source reports `io.EOF` only after its data. An error means the remainder ends in that error. A read delivering nothing drops the loaded block. |
| `Decrypter.NothingLoadedIsWeirdEof` | commonlib/decrypter.go:161-165 | A read with no block loaded returns the "read 0 bytes with no EOF" error. |
| `Decrypter.NewDecrypter` | commonlib/decrypter.go:38-83 | Errors: a source under 17 bytes is `ErrUnexpectedEOF`; a padding byte that does not match the size is `DataCorruption`. Success iff the header matches, the key size is valid and no partial first block is present; the first block is then loaded, its `io.EOF` ignored. |
| `Decrypter.FutureOfNewDecrypter` | commonlib/decrypter.go:77-81 | A fresh reader's whole future is the closed form `DecryptSpec`, whichever way its source reports `io.EOF`. |
| `Decrypter.DrainCount` | commonlib/decrypter.go:136-158 | The copy loop hands out min(room, what is ahead) bytes. It ends with a block load's `io.EOF` pending exactly when that load starts within the room and the output stops short of the end. Running out of room brings that load nearer by the room. |
| `Decrypter.ReadGoesOn` | commonlib/decrypter.go:127-167 | A read that reports nothing takes its share of the count, the rest being counted from the next state. |
| `Decrypter.ReadStops` | commonlib/decrypter.go:127-167 | A read that reports `io.EOF` or an error delivers the future up to the count. It carries the future's end when it got everything, and is otherwise an `io.EOF` that came with a block. |
| `Decrypter.CopyRest` | commonlib/decrypter.go:127-167 | What a stop-at-`io.EOF` consumer gets from a state is its whole future or a strict prefix of it that ends cleanly. |
| `Decrypter.CopyRestStep` | commonlib/decrypter.go:127-167 | After a read that reports nothing, the consumer's result is that read's bytes followed by the result from the next state. |
| `Decrypter.CopyRestStop` | commonlib/decrypter.go:127-167 | A read that reports `io.EOF` or an error is the consumer's whole result. |
| `Decrypter.CopySpec` | commonlib/decrypter.go:38-167 | What a stop-at-`io.EOF` consumer gets from a fresh reader is `DecryptSpec` when the source reports `io.EOF` after its data, and otherwise `DecryptSpec` or a strict clean prefix of it. |
| `Decrypter.CopyOfNewDecrypter` | commonlib/decrypter.go:77-81 | A fresh reader's consumer result is the closed form `CopySpec`. |
| `Decrypter.DecryptAll` | commonlib/decrypter.go:127-167 | Reading to the first error or `io.EOF` with a buffer of any size yields `CopySpec`: `DecryptSpec` when the source reports `io.EOF` only after its data. |
| `Decrypter.RoundTrip` | commonlib/decrypter.go:38-167 | The envelope of a non-empty message decrypts to exactly the message with a clean end. |
| `Decrypter.EmptyMessageFails` | commonlib/decrypter.go:161-165 | The envelope of an empty message reads back as the "read 0 bytes" error. |
| `Decrypter.ReadFixed` | commonlib/decrypter.go:136-166 | A read that delivers bytes leaves the rest ahead; `io.EOF` comes only once everything is delivered, including the last block of a source that reports `io.EOF` with its data; a reader that has delivered the announced size reports `io.EOF`. |
| `Decrypter.DecryptAllFixed` | commonlib/decrypter.go:127-167 | Reading to the end with `ReadFixed` yields `DecryptSpecFixed` with any buffer, whichever way the source reports `io.EOF`. |
| `Decrypter.RoundTripFixed` | commonlib/decrypter.go:127-167 | With `ReadFixed`, every message, the empty one included, round-trips. |
| `Decrypter.FixedDiffersOnlyWhenEmpty` | commonlib/decrypter.go:161-165 | The corrected reader differs from the library's only on a 17-byte envelope of an empty message. |
| `Api.GenerateKey` | commonlib/api.go:23-33 | A failed random source or a short read fails with its error; otherwise the 32 random bytes are the key and its 43-symbol encoding decodes back to it. |
| `Api.DeriveId` | commonlib/api.go:244-249 | The id has 43 symbols, no `/` or `=`, and decodes to the key's digest. |
| `Api.DeriveIdCollision` | commonlib/api.go:244-249 | Two keys share an id only if their digests collide. |
| `Api.Decrypt` | commonlib/api.go:221-242 | A body length that is not whole blocks is `MalformedLength`, a bad key size `InternalError`. Otherwise the result is the body less `padding` bytes. |
| `Api.DecryptEnvelope` | commonlib/api.go:221-242 | The one-shot decryption opens the streaming encrypter's envelope of every message, empty included. |
| `Api.DecryptAgreesWithStream` | commonlib/api.go:221-242 | On envelopes the streaming decrypter reads cleanly, one-shot decryption gives the same bytes. |
| `Api.Capitalize` | commonlib/api.go:49 | Canonicalizing only changes letter case. |
| `Api.CanonicalHeaderKey` | commonlib/api.go:49 | Header keys keep their length, and a name with a non-token character is left as it is. |
| `Api.CanonicalIgnoresCase` | commonlib/api.go:49 | Token header names that differ only in case have the same canonical form. |
| `Api.CanonicalIdempotent` | commonlib/api.go:49 | Canonicalizing twice equals canonicalizing once. |
| `Api.MergeOne` | commonlib/api.go:49-66 | Merging one header panics iff its value list is empty and its canonical name is not yet present: the debug call indexes `v[0]` even with debugging off (commonlib/commonlib.go:71-75). Otherwise a single value replaces its canonical entry, and other counts append to it or install it. No other entry changes. |
| `Api.MergeHeaders` | commonlib/api.go:47-67 | The merge panics iff some header has no values and no earlier header or existing entry has its canonical name. Otherwise the merged keys are the old keys plus the canonical names of the list. |
| `Api.MergeDistinct` | commonlib/api.go:47-67 | With distinct new canonical names, the merge panics iff some header has no values. Otherwise each header gets exactly its values whatever the order, and other entries are kept. |
| `Api.MergeOrderMatters` | commonlib/api.go:48-52 | Two names with one canonical form make the result depend on map iteration order. |
| `Api.MergeEmptyValues` | commonlib/api.go:62-64 | A lone header with no values panics the merge; the same header after a one-value header with the same canonical name appends nothing. |
| `Api.UploadEncrypted` | commonlib/api.go:35-98 | The upload panics iff the encrypter builds and the header merge panics. Otherwise the request carries the merged headers, `Content-Length` = size + 17 + padding, and as body what a 4096-byte reader gets from the encrypter before the first `io.EOF`. Success iff the encrypter builds, the body is as long as announced and the PUT answers 200. |
| `Api.UploadBodyOfFile` | commonlib/api.go:43-96 | A file's upload panics iff the header merge does. Otherwise it announces the whole envelope and sends a prefix of it: all of it iff the size is not 4065 to 4079 more than a multiple of 4096. |
| `Api.UploadWholeSizes` | commonlib/api.go:43 | With 4096-byte reads, the early `io.EOF` cuts an envelope short iff the file's size is 4065 to 4079 more than a multiple of 4096. |
| `Api.UploadCutShort` | commonlib/api.go:43-96 | Unless the header merge panics, a 4065-byte file sends 4096 of its 4097 announced envelope bytes and fails, whatever the service answers. |
| `Api.BaseName` | commonlib/api.go:143 | `filepath.Base` is `.` for an empty path and `/` for slashes only; otherwise it is the non-empty, slash-free end of the path without its trailing slashes, starting after a slash or at the start. |
| `Api.TrimTrailingSlashes` | commonlib/api.go:143 | Trimming keeps a prefix that does not end in `/`, and everything removed is `/`. |
| `Api.LastSegment` | commonlib/api.go:143 | The last segment is a slash-free suffix that is the whole path or follows a `/`. |
| `Api.BaseNameOfJoin` | commonlib/api.go:143 | The base name of `prefix/name` followed by any number of slashes is `name`. |
| `Api.SendPrefixSteps` | commonlib/api.go:129-203 | The steps before the uploads stop with `KeyGenFailed`, `FileOpenFailed` or `ServerFailed` on the matching conditions. They are ready iff key, stat, a 200 reply with a parsed body and the open all succeed, having posted the derived id. |
| `Api.UploadBoth` | commonlib/api.go:204-216 | The content upload uses the reply's first URL and headers; the metadata upload uses the second with `{Base(path), size}`. |
| `Api.SendSecret` | commonlib/api.go:129-219 | The send panics iff the pre-upload steps are ready and one of the two uploads panics. Otherwise it succeeds iff those steps are ready, returning the key string and id; the first action is the POST. |
| `Api.SendSecretFixed` | commonlib/api.go:204-218 | Success iff both uploads build and answer 200, with exactly POST, content PUT and metadata PUT. It panics iff the content upload panics, or the content upload succeeds and the metadata upload panics. |
| `Api.FinishSendFixed` | commonlib/api.go:204-218 | The upload stage fails with `DataUploadFailed` or `MetadataUploadFailed`, panics where an upload it reaches panics, and succeeds iff both uploads do. |
| `Api.SendIgnoresUploadOutcomes` | commonlib/api.go:204-218 | Unless a header merge panics, a refused content upload and an unreachable metadata upload still give a successful send; the corrected send reports `DataUploadFailed`. |
| `Api.SendFixedAgreesOnSuccess` | commonlib/api.go:204-218 | When the corrected send succeeds, the library's send does exactly the same. |
| `Api.OpenMetadata` | commonlib/api.go:282-308 | A failed download is `MetadataDownloadFailed`, a body too short to index panics, a failed decrypt is `DecryptionFailed`, and otherwise the record is what unmarshalling gave. |
| `Api.Download` | commonlib/api.go:343-353 | What `io.Copy` gets from the decrypter over a downloaded body is `DecryptSpec` or a strict prefix of it ending without error. |
| `Api.Received` | commonlib/api.go:348 | The bytes received of a `size`-byte file: all iff the size is not 1 to 16 more than a non-zero multiple of 32768; otherwise that multiple, at most 16 short. |
| `Api.DownloadCount` | commonlib/decrypter.go:112-166 | A 32768-byte copy of a non-empty file whose last block loads with `io.EOF` gets `Received(size)` bytes. |
| `Api.DownloadOfFile` | commonlib/api.go:343-353 | Downloading the envelope of a non-empty file writes its first `Received(size)` bytes without error, so the whole file iff the size is not 1 to 16 more than a non-zero multiple of 32768. |
| `Api.DownloadCutShort` | commonlib/decrypter.go:112-166 | A 32769-byte file is received as its first 32768 bytes, and the receive reports success. |
| `Api.OpenContent` | commonlib/api.go:330-353 | A non-200 download is `DataDownloadFailed`; a failing decrypter is `DecryptionFailed`. Otherwise the file receives what `io.Copy` got from the decrypter, and the receive fails iff that copy ended in an error. |
| `Api.WriteTarget` | commonlib/api.go:310-353 | `RecvFileExists` iff the file exists and overwrite is off; `RecvCreateFailed` iff creation fails. On success the actions end with create, GET and write of the decrypted content. |
| `Api.RecvSecret` | commonlib/api.go:277-354 | The first action is the GET of `meta/<id>`. Success ends with creating `destDir/name`, fetching `<id>` and writing its decryption; the given name wins over the stored one. |
| `Api.OpenSentMetadata` | commonlib/api.go:299-308 | The metadata object a send uploads opens to the sent record. |
| `Api.OpenSentContent` | commonlib/api.go:344-353 | The content object a send uploads opens, and decrypts to the first `Received(size)` bytes of the sent file without error. |
| `Api.RecvSucceeds` | commonlib/api.go:277-354 | Readable metadata, a creatable target and a download that copies cleanly make the receive write the copied bytes to the chosen file. |
| `Api.SentBodies` | commonlib/api.go:204-216 | A successful send uploads the envelopes of the file and of its metadata under the drawn key and IVs. |
| `Api.SendThenReceive` | commonlib/api.go:129-354 | A non-empty file sent and received with the printed key comes back under its name as its first `Received(size)` bytes: unchanged unless its size is 1 to 16 more than a non-zero multiple of 32768. |
| `Clients.CleanUrl` | client/main.go:103-108 | One trailing slash is removed, if present. |
| `Clients.CleanUrlStripsOne` | client/main.go:103-108 | Cleaning undoes one appended slash, and is idempotent unless the URL ends with two slashes. |
| `Clients.TrimSpace` | client/main.go:99 | The result is the middle of the input with white space only on both sides removed, and it neither starts nor ends with white space. |
| `Clients.TrimSpacePadded` | client/main.go:99 | White space around a trimmed text is exactly what trimming removes. |
| `Clients.LoadSecretKey` | client/main.go:85-101 | A non-empty `SECRETSHARE_KEY` wins. Otherwise a readable key file gives its text with surrounding white space trimmed, and an unreadable one fails. |
| `Clients.KeyFileLine` | guiclient/main.go:108-124 | A key file holding the secret and a newline gives the secret; a set variable makes the file irrelevant. |
| `Clients.LoadConfig` | client/main.go:62-83 | A missing file gives the defaults, read and parse failures their errors; a parsed file sets each field it names and leaves the others empty. |
| `Clients.DefaultsOnlyWithoutFile` | client/main.go:64-70 | Defaults are used only when the file is missing. |
| `Cli.SendSteps` | client/main.go:208-279 | The client's steps before the uploads are ready iff the library's would be, with the same key, id and POST. A 401 reply is the authentication failure. |
| `Cli.FinishSend` | client/main.go:129-197 | The send ends normally iff both uploads succeed, printing the receive command. A failed content upload exits before the metadata upload. The client panics at the upload whose header merge panics (client/main.go:159-160), and a metadata panic happens only after the content upload succeeded. |
| `Cli.Send` | client/main.go:199-302 | A missing secret refuses with no actions. Success prints `secretshare receive <id> <key>` for the drawn key, and that key decodes back. |
| `Cli.LibraryCode` | commonlib/api.go:100-111 | Every server-side failure of the client maps to `ServerFailed`. |
| `Cli.SendStepsAgree` | client/main.go:208-279 | The client's pre-upload steps stop where the library's do, with the matching code and the same actions. |
| `Cli.SendAgreesWithLibrary` | client/main.go:199-302 | Once the secret is loaded, the client takes the corrected library send's actions and succeeds in the same worlds, failing at the same upload. It panics iff the corrected library send does. |
| `Cli.FinishAgrees` | client/main.go:129-197 | For the same ready send, the client's uploads and the corrected library's take the same actions, succeed together, fail at the same upload and panic together. |
| `Cli.Decrypt` | client/main.go:304-329 | The client's decrypt panics iff the library's would, and otherwise exits where the library returns an error or gives the same plaintext. |
| `Cli.DecryptEnvelope` | client/main.go:304-329 | The client's decrypt opens every envelope the library builds. |
| `Cli.OpenMetadata` | client/main.go:341-367 | The client opens the metadata iff the library would, to the same record; it panics iff the library's decrypt would. |
| `Cli.SaveContent` | client/main.go:369-416 | An existing file needs a `y` or `Y` answer; any other answer aborts. On success the actions end with create, GET and write into the working directory. |
| `Cli.Receive` | client/main.go:331-417 | Fewer than two arguments panic; an undecodable key is refused. Downloads use the id given on the command line. |
| `Cli.SaveContentAgrees` | client/main.go:369-416 | After the metadata, the client takes the library's steps, the prompt's answer standing for the overwrite flag. |
| `Cli.ReceiveAgreesWithLibrary` | client/main.go:331-417 | With the key's id as argument, the client receives exactly as `RecvSecret` into the working directory. |
| `Cli.Authenticate` | client/main.go:419-430 | With no argument the command panics; otherwise it saves the argument verbatim iff the write succeeds. |
| `Cli.AuthenticateThenLoad` | client/main.go:419-430 | A saved secret is what the next send presents, trimmed, unless `SECRETSHARE_KEY` is set. |
| `Gui.LoadConfig` | guiclient/main.go:54-75 | A missing file leaves every setting empty; otherwise loading is as in the command-line client. |
| `Gui.RequireConfigs` | guiclient/main.go:78-106 | The report lists exactly the requested names whose setting is empty. |
| `Gui.RequireConfigsConcat` | guiclient/main.go:78-106 | The report keeps the request's order. |
| `Gui.RecvOptionsMissing` | guiclient/main.go:397 | The receive screen reports `bucket` before `bucket-region`, each only when empty. |
| `Gui.SendUi` | guiclient/main.go:331-392 | No file chosen ends quietly. A missing setting or an empty or unloadable secret is refused with no traffic. A shown key decodes to the drawn key. |
| `Gui.SendUiIsLibrarySend` | guiclient/main.go:356-388 | An allowed send is the library's `SendSecret` with the configured endpoint and a 240-minute TTL. It shows its key iff that send succeeds, and the program goes down iff that send panics. |
| `Gui.KeyShownAfterFailedUploads` | guiclient/main.go:383-388 | Unless a header merge panics, the screen reports success even when both uploads failed. |
| `Gui.DirName` | guiclient/main.go:409 | The directory part is never empty and is `.` for a bare name. |
| `Gui.LastSegmentOfJoin` | guiclient/main.go:410 | The last segment of `dir/name` is `name`. |
| `Gui.SavePathSplits` | guiclient/main.go:409-410 | `dir/name` splits back into `dir` and `name`. |
| `Gui.ReportReceive` | guiclient/main.go:433-440 | A panic, an error code and success each get their own report; success names the chosen path. |
| `Gui.ReceiveAt` | guiclient/main.go:408-415 | The receive overwrites, so it never reports `RecvFileExists`. A save writes `Dir(path)/Base(path)`. |
| `Gui.RecvUi` | guiclient/main.go:394-443 | The dialog opens iff bucket and region are set and the key decodes. Otherwise nothing happens. When it opens, the receive runs at the chosen path. |
| `Gui.RecvUiIgnoresEndpoint` | guiclient/main.go:397 | The receive screen does not depend on the endpoint setting. |
| `Gui.ReceiveAtSavesWhereChosen` | guiclient/main.go:408-415 | A file saved as `dir/name` is written as `name` in `dir`. |
| `Server.SameAlphabet` | server/main.go:50 | The server's id alphabet is the clients' alphabet. |
| `Server.ConfigPath` | server/main.go:113-116 | The configuration path is the flag's value or, when empty, the default. |
| `Server.EffectiveConfig` | server/main.go:130-132 | An empty listen address becomes all interfaces; nothing else changes. |
| `Server.EffectiveConfigSettles` | server/main.go:130-132 | Applying the default twice changes nothing, and the server listens on all interfaces exactly when the configured address was empty or already "0.0.0.0". |
| `Server.GenerateId` | server/main.go:62-72 | A failed or short random read fails; otherwise the id is 43 symbols without `/` that decode to the random bytes. |
| `Server.ObjectKeysDistinct` | server/main.go:173-189 | For `/`-free ids, content and metadata objects never collide, and distinct ids give distinct objects. |
| `Server.TtlMinutes` | server/main.go:144-162 | The TTL is positive: the requested one if positive, else four hours. |
| `Server.StatusOf` | server/main.go:145-189 | A bad request is 400, a wrong secret 401, anything else 500. |
| `Server.PresignBoth` | server/main.go:173-197 | The reply is 200 with both URLs iff both presigns succeed; it is 500 otherwise, stopping after the first failure. |
| `Server.UploadHandler` | server/main.go:142-198 | Requests: an unreadable one is 400, a wrong secret 401. Success iff id generation and both presigns succeed, presigning the server's random id. |
| `Server.UploadHandlerFixed` | server/main.go:142-198 | The same checks, presigning the object id the client sent. |
| `Server.UploadIgnoresObjectId` | server/main.go:164-171 | The handler's reply does not depend on the object id the client sent. |
| `Server.HandlersAgreeOnRefusals` | server/main.go:145-159 | Both handlers refuse the same requests identically. |
| `Server.RouteOf` | server/main.go:135-142 | `GET /version` and `POST /upload` reach their handlers. A path one trailing slash longer than a route is redirected to it, 301 for `GET` and 307 otherwise (the default of the router `gin.Default()` builds). Everything else is not found. |
| `Server.RedirectReachesHandler` | server/main.go:135-142 | A redirected request reaches a handler after one redirect. |
| `Server.TrailingSlashRoutes` | server/main.go:135-142 | `GET /version/` is redirected with 301, `POST /upload/` with 307; `POST /version/` and `GET /upload` are not found. |
| `Web.PadLen` | web/js/secretshare.js:214-219 | The header byte is 1 to 16, completes the block, and is 16 iff the plaintext is aligned. |
| `Web.PadLenIsPkcs7` | web/js/secretshare.js:210-219 | The header byte is exactly the PKCS #7 padding the browser adds. |
| `Web.SubtleEncrypt` | web/js/secretshare.js:229 | The browser ciphertext is the plaintext length plus `padLen`. |
| `Web.TypedStore` | web/js/secretshare.js:242-244 | A typed-array store past the end is dropped; others set one byte. |
| `Web.AssembleResult` | web/js/secretshare.js:230-244 | The result buffer holds the padding length, the IV and the ciphertext, the overrunning loop notwithstanding. |
| `Web.JsEnvelope` | web/js/secretshare.js:225-249 | The browser envelope is 17 + size + `padLen` bytes. |
| `Web.Encrypt` | web/js/secretshare.js:225-249 | Encryption completes iff the key is 16, 24 or 32 bytes, with the envelope. |
| `Web.StdFromGo` | web/js/secretshare.js:172 | The standard alphabet is the Go one with `y`/`z` swapped and `/` for `_`. |
| `Web.Btoa` | web/js/secretshare.js:172 | `btoa` output is padded to a multiple of 4. |
| `Web.ReplaceAll` | web/js/secretshare.js:174 | A global replace changes exactly the matching characters. |
| `Web.RemoveAll` | web/js/secretshare.js:175 | A global removal leaves none of the character. |
| `Web.JsEncodingSwapsYZ` | web/js/secretshare.js:170-176 | The browser spells the Go encoding with `y` and `z` exchanged. |
| `Web.JsEncodingSymbols` | web/js/secretshare.js:170-176 | The browser encoding has no `/` or `=` and the Go length. |
| `Web.GoDecodesJsWithoutYZ` | web/js/secretshare.js:170-176 | Without `y`/`z`, the Go client decodes the browser encoding correctly. |
| `Web.GoMisreadsJsKey` | web/js/secretshare.js:170-176 | Byte 0xCB is "zw" in Go and "yw" in the browser, which Go reads as 0xCF. |
| `Web.JsEncodeForHumanFixed` | web/js/secretshare.js:170-176 | With `y` and `z` exchanged back, the browser's text decodes in Go to the original bytes. |
| `Web.GenerateKey` | web/js/secretshare.js:181-185 | The key is the 32 random bytes with a 43-symbol encoding free of `/` and `=`; a throwing source gives none. |
| `Web.KeyView` | web/js/secretshare.js:191-195 | The hashed buffer is 32 bytes, the key itself when it has 32. |
| `Web.DeriveId` | web/js/secretshare.js:190-207 | The browser id is the Go id with `y` and `z` exchanged. |
| `Web.ParseTokens` | web/js/secretshare.js:98-121 | After parsing, a pending flag is exactly the last token's flag. |
| `Web.ParseStepConfig` | web/js/secretshare.js:99-121 | One token changes a setting iff it is the value for the flag just seen. |
| `Web.AssignsPrefix` | web/js/secretshare.js:99-121 | Whether a token assigns a setting does not depend on later tokens. |
| `Web.ParseTokensPresent` | web/js/secretshare.js:98-121 | A setting is present iff some token was assigned to it. |
| `Web.ParseTokensLast` | web/js/secretshare.js:98-121 | A present setting holds the last value given to it. |
| `Web.FirstSpace` | web/js/secretshare.js:98 | The first space is found with none before it. |
| `Web.SplitSpaces` | web/js/secretshare.js:98 | Splitting gives at least one space-free piece. |
| `Web.JoinSplit` | web/js/secretshare.js:98 | Joining the pieces with spaces gives the command back. |
| `Web.FirstSpaceOfJoin` | web/js/secretshare.js:98 | In a join, the first space follows the first piece. |
| `Web.SplitJoin` | web/js/secretshare.js:98 | Splitting a join of space-free pieces gives the pieces. |
| `Web.IndexOfKey` | web/js/secretshare.js:148 | Each setting has its place in the required list. |
| `Web.AbsentKeys` | web/js/secretshare.js:148-153 | The absent keys are exactly those missing, in list order. |
| `Web.Missing` | web/js/secretshare.js:148-153 | The missing list is exactly the absent required settings, in their order. |
| `Web.CheckConfig` | web/js/secretshare.js:147-167 | A missing setting fails without a request. Otherwise it POSTs `/ping` and succeeds iff the answer has `pong`. |
| `Web.SetConfig` | web/js/secretshare.js:97-137 | The configuration is stored iff the check succeeds, and is then held and saved to the cookie last. On failure the previous one stays and no cookie is written. |
| `Web.ParseFlagValue` | web/js/secretshare.js:99-121 | An appended flag and value set that setting alone. |
| `Web.SetConfigAcceptsFullCommand` | web/js/secretshare.js:97-121 | A command setting all four flags once yields exactly those settings. |
| `Web.RequestHeaders` | web/js/secretshare.js:257-259 | Each PUT header is sent once, under its name. |
| `Web.UploadEncrypted` | web/js/secretshare.js:254-273 | With a valid key, one PUT of the envelope goes out, succeeding iff 200; otherwise nothing. |
| `Web.UploadBothEncrypted` | web/js/secretshare.js:278-292 | The metadata upload `{filename, filesize}` happens only after the content upload succeeded; success iff both return 200. |
| `Web.UploadFile` | web/js/secretshare.js:301-327 | The upload POSTs the derived id first, and succeeds iff the key, the API call and both uploads do. The line printed is `secretshare receive <key>`. |
| `Interop.JsEnvelopeUnaligned` | web/js/secretshare.js:225-249 | For unaligned plaintexts the browser and Go envelopes are identical. |
| `Interop.JsContentReadable` | commonlib/decrypter.go:38-167 | A non-empty unaligned browser upload decrypts to the file, and a download of it writes the file's first `Received(size)` bytes without error. |
| `Interop.JsAlignedContentRejected` | commonlib/decrypter.go:54-57 | An aligned browser upload has padding byte 16, so the Go decrypter reports corruption and the receive fails with `DecryptionFailed`. |
| `Interop.JsMetadataReadable` | commonlib/api.go:221-242 | The one-shot decrypt opens every browser envelope. |
| `Interop.JsEnvelopeParts` | web/js/secretshare.js:230-244 | A browser envelope is padding length, IV and the CBC encryption of the PKCS #7 padded plaintext. |
| `Interop.PaddingRulesDiffer` | web/js/secretshare.js:214-219 | The browser's and Go's padding lengths agree iff the size is unaligned, and differ by a block otherwise. |
| `Interop.ApplyPuts` | server/main.go:173-189 | After accepted uploads, the store holds exactly the old objects plus those uploaded to. |
| `Interop.ApplySend` | commonlib/api.go:204-216 | A successful send's three actions store the two bodies under their presigned names. |
| `Interop.Fetch` | commonlib/api.go:282-298 | A stored object downloads with 200; a missing one gives the miss reply. |
| `Interop.AsReply` | commonlib/api.go:169-196 | The client sees the server's status and parses only a success body. |
| `Interop.SentRequest` | commonlib/api.go:144-148 | The upload request carries the derived id, the TTL and the secret. |
| `Interop.SendLayout` | commonlib/api.go:156-216 | A successful send posts, then PUTs to the reply's two URLs in order. |
| `Interop.SentKey` | commonlib/api.go:132-136 | The printed key decodes to the drawn bytes and the id is derived from them. |
| `Interop.FixedServerStores` | server/main.go:164-189 | With the corrected server, a send stores both objects under the key's id. |
| `Interop.FixedServerRoundTrip` | server/main.go:164-189 | With the corrected server, a receiver holding only the key gets the file back, as its first `Received(size)` bytes. |
| `Interop.RandomIdStores` | server/main.go:164-171 | With the server as written, the objects go under the server's random id. |
| `Interop.ServerIdMismatch` | server/main.go:164-171 | With the server as written, a receive with the printed key fails with `MetadataDownloadFailed` after one GET, although the send reported success. |
| `Interop.BrowserConfigNeverAccepted` | web/js/secretshare.js:159-164 | `POST /ping` is not routed, so the browser never stores a pasted configuration and keeps the previous one. |
| `Handoff.ReceiveArgs` | client/main.go:334-335 | The arguments read from a pasted line rejoin into that line and are space-free. |
| `Handoff.DecodableHasNoSpace` | commonlib/commonlib.go:88-91 | Decodable text has no space. |
| `Handoff.LineArgs` | client/main.go:334-335 | A line of space-free words gives those words as arguments. |
| `Handoff.CommandPrefix` | client/main.go:300 | Joining puts `secretshare receive ` before the words. |
| `Handoff.ReceiveCommandArgs` | client/main.go:300 | The client's instructions split back into id and key. |
| `Handoff.CliHandoff` | client/main.go:300-417 | A pasted line from a successful send makes `receive` take the library's receive steps for the sent key. |
| `Handoff.JsKeyHasNoSpace` | web/js/secretshare.js:170-176 | The browser's key encoding has no space. |
| `Handoff.JsLineCrashesCli` | web/js/secretshare.js:316 | The browser's line gives `receive` one argument, and the client panics before fetching. |
| `Handoff.JsReceiveLineFixed` | web/js/secretshare.js:316 | A line with the browser's id and key splits into the two arguments `receive` reads. |

## Left out

- **I/O and effects.** Network, file system, environment, standard input,
  cookies, the clock, the random sources and the UI toolkit become
  parameters or action lists. Goroutines, channels and progress bars are not
  modelled; the GUI's calls pass a progress channel the library's
  `SendSecret`/`RecvSecret` signatures do not have.
- **JSON, URL escaping and HTTP framing.** JSON encoding and decoding are
  function parameters. `url.QueryEscape` in the S3 URLs, the
  `Secretshare-Reqid` header and the `curl` debug strings are not modelled.
- **Object names.** Downloads are modelled by object name (`Api.ObjectName`)
  rather than by URL text.
- **The readers' sources and consumers.**
  - Sources are byte sequences read a whole block at a time; short reads
    are not modelled, including a short read of the 17-byte header in
    `NewDecrypter`.
  - A decrypter's source either reports `io.EOF` with its last bytes, as
    an HTTP body of known length does, or only after them (the
    `eofWithData` flag). The receive uses the first.
  - The upload body is what net/http gets from the encrypter through
    `bufio.NewReaderSize(encrypter, 4096)`: 4096-byte reads up to the first
    `io.EOF`.
  - The download is `io.Copy` into an `os.File` with its default
    32768-byte buffer; `ReadFrom` fast paths of the file are not
    modelled.
- **Non-AES block functions.** `aes.NewCipher`'s key-size check is modelled.
  The AES permutation itself is the `Cipher.BlockCipher` parameter.
- **Missing definitions.** Deploy-time defaults (`commonlib.EndpointBaseURL`,
  `Bucket`, `BucketRegion`), `ProgressRecord` and `SourceLocation` are
  referenced but not defined in the files. The defaults are the `defaults`
  parameter of `Clients.LoadConfig`.
- **The `ObjectId` field.** `UploadRequest` in `commonlib/commonlib.go:56-59`
  has no `ObjectId` field, while `commonlib/api.go:147` and
  `client/main.go:229` set one. The model gives the request the field, as
  its users and the browser's `object_id` expect.
- **Version and configuration commands.** `GET /version`, `printVersion`,
  the desktop client's version and configuration screens, and the `config`
  command of the command-line client are out of scope.
- **Browser runtime details.**
  - The browser client's `this` binding inside nested callbacks and the
    unqualified `loadConfig()` are modelled as the intended data flow: the
    configuration is a parameter.
  - The `docCookies` library and the UTF-16 to UTF-8 conversion of the
    metadata are not modelled; the latter is the `marshal` parameter.
- **Command-line error texts.** The messages of each error are not
  modelled; the codes are.
- Cli.Send: the index panic of `c.Args()[0]` when `send` gets no file
  name is not modelled; the file path is a parameter.
- Clients.TrimSpace: Go's handling of invalid UTF-8 is not modelled;
  strings are sequences of code points.
- Gui.DirName: `filepath.Clean` of `.` and `..` elements and doubled
  slashes is not modelled.
- Gui.LoadConfig: the `homedir.Dir` failure and the load error message
  of `load` are not modelled.
- Server.TtlMinutes: the `time.Duration` product of a large TTL can
  overflow in Go; the model keeps the TTL in unbounded minutes. The
  five-minute expiry of the presigned URLs themselves is inside the
  `presign` parameter.
- Handoff.ReceiveArgs: the shell is modelled as splitting at single
  spaces. Quoting and runs of white space are not modelled.
- Interop.JsAlignedContentRejected: the disagreement between the
  browser's always-pad rule and the Go decrypter's header check is
  reported, but no corrected version is modelled. Either side could be
  changed, and the source does not say which was meant.
- Interop.BrowserConfigNeverAccepted: the `/ping` endpoint the browser
  calls is not implemented by the server in these files. How a server
  answering it should behave is not modelled.

## Findings

| source | as written | input that shows it | evidently intended | confidence | as-written member | corrected member |
|---|---|---|---|---|---|---|
| commonlib/encrypter.go:161-186 | `Read` returns `io.EOF` as soon as a block load hits the end of the source, even if the padded last block did not fit in the buffer; net/http reads the upload body 4096 bytes at a time through `bufio` (commonlib/api.go:43) and stops at that `io.EOF` | a 4065-byte file: its 4097-byte envelope's last block starts inside the first 4096-byte read, so 4096 bytes are sent against a `Content-Length` of 4097 and the PUT fails | report `io.EOF` only when nothing is left to deliver, so the whole envelope is uploaded | not executed | `Api.UploadCutShort` | `Encrypter.ReadAllFixed` |
| commonlib/decrypter.go:112-115, 149-166 | a block load that comes with `io.EOF` makes `Read` return `io.EOF` even when the buffer filled before the block was handed out | a 32769-byte file downloaded with `io.Copy`'s 32768-byte buffer: the read that loads the last block fills with its first byte, returns `io.EOF`, and the receive reports success with 32768 bytes written | report `io.EOF` only once the last block is handed out | not executed | `Api.DownloadCutShort` | `Decrypter.DecryptAllFixed` |
| commonlib/decrypter.go:161-165 | a reader whose only content is the header returns "read 0 bytes with no EOF" | a 0-byte file: the envelope is the 17-byte header, and the first `Read` fails | an empty message reads back as empty with `io.EOF` | not executed | `Decrypter.EmptyMessageFails` | `Decrypter.RoundTripFixed` |
| commonlib/api.go:204-216 | the errors of both `uploadEncrypted` calls are discarded, so `SendSecret` reports success | the content PUT answers 403 and the metadata PUT never connects | return `DataUploadFailed` / `MetadataUploadFailed`, which the library declares at `commonlib/api.go:102-105` | not executed | `Api.SendIgnoresUploadOutcomes` | `Api.SendSecretFixed` |
| server/main.go:164-171 | the `/upload` handler presigns a fresh random id and never reads the object id the client derived | any successful send whose 32 random id bytes differ from the key's digest: the receiver looks under `meta/<derived id>` and gets `MetadataDownloadFailed` | presign the objects of the client's object id | not executed | `Interop.ServerIdMismatch` | `Interop.FixedServerRoundTrip` |
| web/js/secretshare.js:316 | the browser prints `secretshare receive <key>` with no object id | any successful browser upload: the pasted line gives the command-line client one argument and `c.Args()[1]` panics | print the id and then the key, as `client/main.go:300` does | not executed | `Handoff.JsLineCrashesCli` | `Handoff.JsReceiveLineFixed` |
| web/js/secretshare.js:170-176 | the browser encodes with the standard base64 alphabet, in which `y` and `z` sit in the opposite order from the Go alphabet | byte 0xCB: Go spells "zw", the browser "yw", which Go decodes as 0xCF | spell with the Go alphabet, so a key from the browser decodes to the same bytes | not executed | `Web.GoMisreadsJsKey` | `Web.JsEncodeForHumanFixed` |

=== FILE: api.dfy ===
/**
 The client library (commonlib/api.go): key generation, object ids, the
 one-shot decryption of small objects, the encrypted upload of one object,
 and the send and receive sequences built from them.

 Everything outside the program is an input: the random bytes the system
 gave, the SHA-256 function, the outcome of every HTTP exchange and file
 operation, and the JSON codec of the metadata record. Each sequence returns
 its result together with the list of external actions it took, in order.
 */
module Api {
  import opened Wrappers
  import opened Common
  import opened Cipher
  import Encrypter
  import Decrypter
  import Copying

  /** A SHA-256 digest. */
  type Digest = d: seq<bv8> | |d| == 32 witness seq(32, _ => 0)

  /** The key length the clients generate: 256 bits. */
  const KeySize: nat := 32

  /**
   Makes a fresh key from the bytes the random source gave (at most the 32
   asked for, `None` if it failed), together with its human encoding.
   */
  function GenerateKey(random: Option<seq<bv8>>): (r: Result<(seq<bv8>, string), StreamError>)
    requires random.Some? ==> |random.value| <= KeySize
    ensures random.None? ==> r == Failure(RandomSourceFailed)
    ensures random.Some? && |random.value| < KeySize ==> r == Failure(NotEnoughKeyRandomness)
    ensures r.Success? <==> random.Some? && |random.value| == KeySize
    ensures r.Success? ==>
              && r.value.0 == random.value && ValidKeyLength(|r.value.0|)
              && |r.value.1| == 43
              && DecodeForHuman(r.value.1) == Success(r.value.0)
  {
    if random.None? then Failure(RandomSourceFailed)
    else if |random.value| < KeySize then Failure(NotEnoughKeyRandomness)
    else
      DecodeEncode(random.value);
      Success((random.value, EncodeForHuman(random.value)))
  }

  /**
   The storage object id of a key: the human encoding of its SHA-256 digest.
   It is 43 symbols long, has no `/` (so it is a single path segment), and
   decodes back to the digest.
   */
  function DeriveId(sha256: seq<bv8> -> Digest, key: seq<bv8>): (id: string)
    ensures |id| == 43
    ensures forall i :: 0 <= i < |id| ==> id[i] != '/' && id[i] != '='
    ensures DecodeForHuman(id) == Success(sha256(key))
  {
    DecodeEncode(sha256(key));
    EncodeForHuman(sha256(key))
  }

  /** Two keys share an object id only if their digests collide. */
  lemma DeriveIdCollision(sha256: seq<bv8> -> Digest, k1: seq<bv8>, k2: seq<bv8>)
    requires DeriveId(sha256, k1) == DeriveId(sha256, k2)
    ensures sha256(k1) == sha256(k2)
  {
    assert Success(sha256(k1)) == DecodeForHuman(DeriveId(sha256, k1));
  }

  /** Why the one-shot decryption gave up. */
  datatype DecryptError =
    | MalformedLength(rawLength: nat)   // the body after the header is not whole blocks
    | InternalError                     // the cipher rejected the key

  /**
   Decrypts a whole envelope held in memory: byte 0 is the padding length,
   bytes 1..16 the IV, the rest whole blocks of ciphertext; the last
   `padding length` bytes of the plaintext are dropped without being checked.
   The library indexes the input unchecked, so it needs the 17 header bytes
   and a padding length no longer than the body when it gets that far.
   */
  function Decrypt(c: BlockCipher, ciphertext: seq<bv8>, key: seq<bv8>): (r: Result<seq<bv8>, DecryptError>)
    requires |ciphertext| >= 17
    requires (|ciphertext| - 17) % 16 == 0 && ValidKeyLength(|key|) ==> ciphertext[0] as int <= |ciphertext| - 17
    ensures (|ciphertext| - 17) % 16 != 0 ==> r == Failure(MalformedLength(|ciphertext| - 17))
    ensures (|ciphertext| - 17) % 16 == 0 && !ValidKeyLength(|key|) ==> r == Failure(InternalError)
    ensures r.Success? <==> (|ciphertext| - 17) % 16 == 0 && ValidKeyLength(|key|)
    ensures r.Success? ==> |r.value| == |ciphertext| - 17 - ciphertext[0] as int
  {
    var paddingLen := ciphertext[0] as int;
    var iv: Block := ciphertext[1..17];
    var raw := ciphertext[17..];
    if |raw| % 16 != 0 then Failure(MalformedLength(|raw|))
    else if !ValidKeyLength(|key|) then Failure(InternalError)
    else
      var plain := CbcDecrypt(c, key, iv, raw);
      Success(plain[..|raw| - paddingLen])
  }

  /** Whether an input is one the one-shot decryption can take without an index panic. */
  predicate DecryptDefined(ciphertext: seq<bv8>, key: seq<bv8>) {
    |ciphertext| >= 17 &&
    ((|ciphertext| - 17) % 16 == 0 && ValidKeyLength(|key|) ==> ciphertext[0] as int <= |ciphertext| - 17)
  }

  /** The one-shot decryption undoes the streaming encrypter for every message, the empty one included. */
  lemma DecryptEnvelope(c: BlockCipher, key: seq<bv8>, iv: Block, data: seq<bv8>)
    requires ValidKeyLength(|key|)
    ensures DecryptDefined(Encrypter.Envelope(c, key, iv, data), key)
    ensures Decrypt(c, Encrypter.Envelope(c, key, iv, data), key) == Success(data)
  {
    var pad := Encrypter.PaddingLen(|data|) as bv8;
    var filled := Encrypter.Fill(data, pad);
    var env := Encrypter.Envelope(c, key, iv, data);
    assert env[1..17] == iv && env[17..] == CbcEncrypt(c, key, iv, filled);
    CbcRoundTrip(c, key, iv, filled);
  }

  /** On every envelope the streaming decrypter reads back cleanly, the one-shot decryption gives the same bytes. */
  lemma DecryptAgreesWithStream(c: BlockCipher, key: seq<bv8>, iv: Block, data: seq<bv8>)
    requires ValidKeyLength(|key|) && |data| > 0
    ensures Decrypt(c, Encrypter.Envelope(c, key, iv, data), key)
            == Success(Decrypter.DecryptSpec(c, Encrypter.Envelope(c, key, iv, data), |data|, key).0)
  {
    DecryptEnvelope(c, key, iv, data);
    Decrypter.RoundTrip(c, key, iv, data);
  }

  /** A header-name character allowed by the token rule of section 3.2.6 of RFC 7230. */
  predicate IsTokenChar(ch: char) {
    || 'a' <= ch <= 'z' || 'A' <= ch <= 'Z' || '0' <= ch <= '9'
    || ch in {'!', '#', '$', '%', '&', '\'', '*', '+', '-', '.', '^', '_', '`', '|', '~'}
  }

  function ToUpper(ch: char): char {
    if 'a' <= ch <= 'z' then (ch as int - 32) as char else ch
  }

  function ToLower(ch: char): char {
    if 'A' <= ch <= 'Z' then (ch as int + 32) as char else ch
  }

  /** Upper-cases the first letter and every letter after a `-`, lower-cases the rest. */
  function Capitalize(k: string, upper: bool): (r: string)
    ensures |r| == |k|
    ensures forall i :: 0 <= i < |k| ==> ToLower(r[i]) == ToLower(k[i])
  {
    if |k| == 0 then []
    else
      var ch := if upper then ToUpper(k[0]) else ToLower(k[0]);
      [ch] + Capitalize(k[1..], k[0] == '-')
  }

  /**
   The canonical form of an HTTP header name, as Go's `http.CanonicalHeaderKey`
   computes it: names made of token characters are capitalized word by word,
   any other name is left as it is.
   */
  function CanonicalHeaderKey(k: string): (r: string)
    ensures |r| == |k|
    ensures (exists i :: 0 <= i < |k| && !IsTokenChar(k[i])) ==> r == k
  {
    if forall i :: 0 <= i < |k| ==> IsTokenChar(k[i]) then Capitalize(k, true) else k
  }

  /** Lower-casing every character. */
  function LowerAll(k: string): (r: string)
    ensures |r| == |k| && forall i :: 0 <= i < |k| ==> r[i] == ToLower(k[i])
  {
    seq(|k|, i requires 0 <= i < |k| => ToLower(k[i]))
  }

  lemma {:induction false} CapitalizeDependsOnLowerOnly(a: string, b: string, upper: bool)
    requires LowerAll(a) == LowerAll(b)
    ensures Capitalize(a, upper) == Capitalize(b, upper)
    decreases |a|
  {
    if |a| > 0 {
      LowerAllTail(a);
      LowerAllTail(b);
      SameLetter(a[0], b[0]);
      CapitalizeDependsOnLowerOnly(a[1..], b[1..], a[0] == '-');
    }
  }

  /** Lower-casing a non-empty string is lower-casing its head and then its tail. */
  lemma LowerAllTail(k: string)
    requires |k| > 0
    ensures LowerAll(k)[0] == ToLower(k[0]) && LowerAll(k[1..]) == LowerAll(k)[1..]
  {
  }

  /** Characters with the same lower case have the same upper case, and only `-` lower-cases to `-`. */
  lemma SameLetter(x: char, y: char)
    requires ToLower(x) == ToLower(y)
    ensures ToUpper(x) == ToUpper(y) && (x == '-') == (y == '-')
  {
  }

  /** Token header names that differ only in letter case have the same canonical form. */
  lemma CanonicalIgnoresCase(a: string, b: string)
    requires forall i :: 0 <= i < |a| ==> IsTokenChar(a[i])
    requires forall i :: 0 <= i < |b| ==> IsTokenChar(b[i])
    requires LowerAll(a) == LowerAll(b)
    ensures CanonicalHeaderKey(a) == CanonicalHeaderKey(b)
  {
    CapitalizeDependsOnLowerOnly(a, b, true);
  }

  lemma {:induction false} CapitalizeIdempotent(k: string, upper: bool)
    ensures Capitalize(Capitalize(k, upper), upper) == Capitalize(k, upper)
    decreases |k|
  {
    if |k| > 0 {
      var r := Capitalize(k, upper);
      assert r[1..] == Capitalize(k[1..], k[0] == '-');
      assert (r[0] == '-') == (k[0] == '-');
      CapitalizeIdempotent(k[1..], k[0] == '-');
    }
  }

  /** Canonicalizing twice is canonicalizing once. */
  lemma CanonicalIdempotent(k: string)
    ensures CanonicalHeaderKey(CanonicalHeaderKey(k)) == CanonicalHeaderKey(k)
  {
    if forall i :: 0 <= i < |k| ==> IsTokenChar(k[i]) {
      var r := Capitalize(k, true);
      forall i | 0 <= i < |r| ensures IsTokenChar(r[i]) {
        assert ToLower(r[i]) == ToLower(k[i]);
      }
      CapitalizeIdempotent(k, true);
    }
  }

  /** The request headers as Go's `http.Header` holds them. */
  type HeaderMap = map<string, seq<string>>

  /**
   Adds one header from the storage service's list to the request headers: a
   single value replaces the entry of the canonical name; several values are
   appended to an existing entry or installed as they are. An empty list is
   appended to an existing entry, but under a new name the debug line's
   argument `v[0]` is evaluated (the arguments of `DEBUGPrintf` are evaluated
   whether or not debugging is on) and the upload panics: `None`.
   */
  function MergeOne(h: HeaderMap, name: string, values: seq<string>): (r: Option<HeaderMap>)
    ensures var ck := CanonicalHeaderKey(name);
            && (r.None? <==> |values| == 0 && ck !in h)
            && (r.Some? ==>
                  && r.value.Keys == h.Keys + {ck}
                  && (|values| == 1 ==> r.value[ck] == values)
                  && (|values| != 1 && ck in h ==> r.value[ck] == h[ck] + values)
                  && (|values| > 1 && ck !in h ==> r.value[ck] == values)
                  && (forall k :: k in h && k != ck ==> r.value[k] == h[k]))
  {
    var ck := CanonicalHeaderKey(name);
    if |values| == 1 then Some(h[ck := [values[0]]])
    else if ck in h then Some(h[ck := h[ck] + values])
    else if |values| == 0 then None
    else Some(h[ck := values])
  }

  /**
   The merge of the list panics at header `i`: its value list is empty and
   its canonical name is neither in the starting map nor one of an earlier
   header's.
   */
  predicate PanicsAt(h: HeaderMap, headers: Header, i: nat)
    requires i < |headers|
  {
    && headers[i].1 == []
    && CanonicalHeaderKey(headers[i].0) !in h
    && forall j :: 0 <= j < i ==> CanonicalHeaderKey(headers[j].0) != CanonicalHeaderKey(headers[i].0)
  }

  /** Some header of the list makes the merge panic. */
  predicate MergePanics(h: HeaderMap, headers: Header) {
    exists i :: 0 <= i < |headers| && PanicsAt(h, headers, i)
  }

  /**
   Adds the headers in the order Go's map iteration visits them. The order is
   an input: Go randomizes it. `None` is the panic of `MergeOne`.
   */
  function MergeHeaders(h: HeaderMap, headers: Header): (r: Option<HeaderMap>)
    ensures r.None? <==> MergePanics(h, headers)
    ensures r.Some? ==> r.value.Keys == h.Keys + set i | 0 <= i < |headers| :: CanonicalHeaderKey(headers[i].0)
    decreases |headers|
  {
    if |headers| == 0 then Some(h)
    else
      match MergeOne(h, headers[0].0, headers[0].1)
      case None =>
        assert PanicsAt(h, headers, 0);
        None
      case Some(h1) =>
        var r := MergeHeaders(h1, headers[1..]);
        NamesCons(headers);
        PanicsCons(h, headers, h1);
        r
  }

  /**
   Once the head is merged without a panic into `h1`, the rest panics from
   `h1` exactly when the whole list panics from `h`.
   */
  lemma PanicsCons(h: HeaderMap, headers: Header, h1: HeaderMap)
    requires |headers| > 0
    requires MergeOne(h, headers[0].0, headers[0].1) == Some(h1)
    ensures MergePanics(h1, headers[1..]) <==> MergePanics(h, headers)
  {
    var rest := headers[1..];
    var ck0 := CanonicalHeaderKey(headers[0].0);
    assert !PanicsAt(h, headers, 0);
    if MergePanics(h1, rest) {
      var i :| 0 <= i < |rest| && PanicsAt(h1, rest, i);
      assert rest[i] == headers[i + 1];
      forall j | 0 <= j < i + 1
        ensures CanonicalHeaderKey(headers[j].0) != CanonicalHeaderKey(headers[i + 1].0)
      {
        if j > 0 { assert headers[j] == rest[j - 1]; }
      }
      assert PanicsAt(h, headers, i + 1);
    }
    if MergePanics(h, headers) {
      var i :| 0 <= i < |headers| && PanicsAt(h, headers, i);
      assert i > 0;
      assert headers[i] == rest[i - 1];
      forall j | 0 <= j < i - 1
        ensures CanonicalHeaderKey(rest[j].0) != CanonicalHeaderKey(rest[i - 1].0)
      {
        assert rest[j] == headers[j + 1];
      }
      assert PanicsAt(h1, rest, i - 1);
    }
  }

  /** The canonical names of a non-empty list are those of its head and of its tail. */
  lemma NamesCons(headers: Header)
    requires |headers| > 0
    ensures (set i | 0 <= i < |headers| :: CanonicalHeaderKey(headers[i].0))
            == {CanonicalHeaderKey(headers[0].0)} + set i | 0 <= i < |headers[1..]| :: CanonicalHeaderKey(headers[1..][i].0)
  {
    var rest := headers[1..];
    forall i | 0 <= i < |rest| ensures rest[i] == headers[i + 1] { }
    forall i | 0 <= i < |headers| && i > 0 ensures headers[i] == rest[i - 1] { }
  }

  /** Canonical names of the headers are pairwise distinct. */
  predicate DistinctNames(headers: Header) {
    forall i, j :: 0 <= i < j < |headers| ==> CanonicalHeaderKey(headers[i].0) != CanonicalHeaderKey(headers[j].0)
  }

  /**
   When the canonical names are distinct and new to the map, the merge panics
   exactly when some header has no value, and otherwise every header ends up
   with exactly its own values, whatever the iteration order.
   */
  lemma {:induction false} MergeDistinct(h: HeaderMap, headers: Header)
    requires DistinctNames(headers)
    requires forall i :: 0 <= i < |headers| ==> CanonicalHeaderKey(headers[i].0) !in h
    ensures MergeHeaders(h, headers).Some? <==> forall i :: 0 <= i < |headers| ==> headers[i].1 != []
    ensures MergeHeaders(h, headers).Some? ==>
              && (forall i :: 0 <= i < |headers| ==>
                    MergeHeaders(h, headers).value[CanonicalHeaderKey(headers[i].0)] == headers[i].1)
              && (forall k :: k in h && (forall i :: 0 <= i < |headers| ==> CanonicalHeaderKey(headers[i].0) != k) ==>
                    MergeHeaders(h, headers).value[k] == h[k])
    decreases |headers|
  {
    DistinctPanics(h, headers);
    if |headers| > 0 && headers[0].1 != [] {
      var h1 := MergeOne(h, headers[0].0, headers[0].1).value;
      var rest := headers[1..];
      assert DistinctNames(rest) by {
        forall i, j | 0 <= i < j < |rest| ensures CanonicalHeaderKey(rest[i].0) != CanonicalHeaderKey(rest[j].0) {
          assert rest[i] == headers[i + 1] && rest[j] == headers[j + 1];
        }
      }
      forall i | 0 <= i < |rest| ensures CanonicalHeaderKey(rest[i].0) !in h1 {
        assert rest[i] == headers[i + 1];
      }
      MergeDistinct(h1, rest);
      assert MergeHeaders(h, headers) == MergeHeaders(h1, rest);
      if MergeHeaders(h1, rest).Some? {
        MergeDistinctStep(h, headers, h1, MergeHeaders(h1, rest).value);
      }
    }
  }

  /** With distinct names new to the map, the merge panics exactly when some value list is empty. */
  lemma DistinctPanics(h: HeaderMap, headers: Header)
    requires DistinctNames(headers)
    requires forall i :: 0 <= i < |headers| ==> CanonicalHeaderKey(headers[i].0) !in h
    ensures MergePanics(h, headers) <==> exists i :: 0 <= i < |headers| && headers[i].1 == []
  {
    if exists i :: 0 <= i < |headers| && headers[i].1 == [] {
      var i :| 0 <= i < |headers| && headers[i].1 == [];
      assert PanicsAt(h, headers, i);
    }
  }

  /** The values of the whole list follow from the head's and the tail's. */
  lemma MergeDistinctStep(h: HeaderMap, headers: Header, h1: HeaderMap, m: HeaderMap)
    requires DistinctNames(headers) && |headers| > 0 && headers[0].1 != []
    requires CanonicalHeaderKey(headers[0].0) !in h
    requires MergeOne(h, headers[0].0, headers[0].1) == Some(h1)
    requires forall i :: 0 <= i < |headers[1..]| ==>
               CanonicalHeaderKey(headers[1..][i].0) in m && m[CanonicalHeaderKey(headers[1..][i].0)] == headers[1..][i].1
    requires forall k :: k in h1 && (forall i :: 0 <= i < |headers[1..]| ==> CanonicalHeaderKey(headers[1..][i].0) != k) ==>
               k in m && m[k] == h1[k]
    ensures forall i :: 0 <= i < |headers| ==>
              CanonicalHeaderKey(headers[i].0) in m && m[CanonicalHeaderKey(headers[i].0)] == headers[i].1
    ensures forall k :: k in h && (forall i :: 0 <= i < |headers| ==> CanonicalHeaderKey(headers[i].0) != k) ==>
              k in m && m[k] == h[k]
  {
    var rest := headers[1..];
    forall i | 0 <= i < |headers|
      ensures CanonicalHeaderKey(headers[i].0) in m && m[CanonicalHeaderKey(headers[i].0)] == headers[i].1
    {
      if i > 0 {
        assert headers[i] == rest[i - 1];
      } else {
        forall j | 0 <= j < |rest| ensures CanonicalHeaderKey(rest[j].0) != CanonicalHeaderKey(headers[0].0) {
          assert rest[j] == headers[j + 1];
        }
      }
    }
    forall k | k in h && (forall i :: 0 <= i < |headers| ==> CanonicalHeaderKey(headers[i].0) != k)
      ensures k in m && m[k] == h[k]
    {
      assert CanonicalHeaderKey(headers[0].0) != k;
      forall j | 0 <= j < |rest| ensures CanonicalHeaderKey(rest[j].0) != k {
        assert rest[j] == headers[j + 1];
      }
    }
  }

  /**
   When two names of the list share a canonical form, the outcome depends on
   the iteration order: single values "1" then "2" under `x-a` and `X-A` leave
   "2", the other order leaves "1".
   */
  lemma MergeOrderMatters()
    ensures var m := MergeHeaders(map[], [("x-a", ["1"]), ("X-A", ["2"])]); m.Some? && "X-A" in m.value && m.value["X-A"] == ["2"]
    ensures var m := MergeHeaders(map[], [("X-A", ["2"]), ("x-a", ["1"])]); m.Some? && "X-A" in m.value && m.value["X-A"] == ["1"]
  {
    CanonicalXA();
  }

  /**
   An empty value list panics under a new name, but merges (changing
   nothing) after another header of the same canonical name.
   */
  lemma MergeEmptyValues()
    ensures MergeHeaders(map[], [("X-A", [])]) == None
    ensures var m := MergeHeaders(map[], [("x-a", ["1"]), ("X-A", [])]);
            m.Some? && m.value.Keys == {"X-A"} && m.value["X-A"] == ["1"]
  {
    CanonicalXA();
    var tail: Header := [("X-A", [])];
    assert [("x-a", ["1"]), ("X-A", [])][1..] == tail;
    assert tail[1..] == [];
    var m1 := map["X-A" := ["1"]];
    assert MergeOne(map[], "x-a", ["1"]) == Some(m1);
    var r2 := MergeOne(m1, "X-A", []);
    assert r2.Some? && r2.value.Keys == m1.Keys && r2.value["X-A"] == m1["X-A"];
  }

  /** `x-a` and `X-A` both canonicalise to `X-A`. */
  lemma CanonicalXA()
    ensures CanonicalHeaderKey("x-a") == "X-A" && CanonicalHeaderKey("X-A") == "X-A"
  {
    assert CanonicalHeaderKey("x-a") == "X-A" by {
      assert forall i :: 0 <= i < 3 ==> IsTokenChar("x-a"[i]);
      assert Capitalize("x-a", true) == "X-A";
    }
    assert CanonicalHeaderKey("X-A") == "X-A" by {
      assert forall i :: 0 <= i < 3 ==> IsTokenChar("X-A"[i]);
      assert Capitalize("X-A", true) == "X-A";
    }
  }

  /** What one HTTP exchange gave: no response at all, or a status code. */
  datatype HttpOutcome = TransportError | Status(code: int)

  /** An upload request as it goes out. */
  datatype PutRequest = PutRequest(url: string, headers: HeaderMap, contentLength: int, body: seq<bv8>)

  /**
   Why an upload failed. `BodyLengthMismatch` is net/http refusing a request
   whose body did not have the announced length; `sent` is the body's length.
   */
  datatype UploadError = EncryptFailed(error: StreamError) | TransportFailed | BadStatus(code: int)
                       | BodyLengthMismatch(sent: nat)

  /**
   The size of the reads the request body is taken with: the buffer of the
   `bufio.Reader` wrapped around the encrypter (commonlib/api.go:43), which
   reads the encrypter a whole buffer at a time.
   */
  const UploadReadSize: nat := 4096

  /**
   The outcome of `uploadEncrypted`: the request sent (if one was built) and
   the error; or the index panic of the header merge, before anything is sent.
   */
  datatype UploadResult =
    | UploadResult(request: Option<PutRequest>, error: Option<UploadError>)
    | UploadPanicked

  /**
   Whether `uploadEncrypted` panics: the encrypter is built (the IV bytes are
   all there and the key has an AES size) and merging the headers panics.
   */
  predicate UploadPanics(ivRandom: Option<seq<bv8>>, key: seq<bv8>, headers: Header) {
    ivRandom.Some? && |ivRandom.value| == 16 && ValidKeyLength(|key|) && MergePanics(map[], headers)
  }

  /**
   Encrypts `data` (announced as `messageSize` bytes) under `key` with the IV
   bytes the random source gave, and sends it to `putUrl` with the storage
   service's headers; `outcome` is what the exchange gave. The body is what
   net/http reads from the encrypter before the first `io.EOF`
   (`Encrypter.ReadToEof`, in the closed form `Encrypter.CopiedPrefix`); a body that
   is not as long as the announced `Content-Length` fails the request
   whatever the service would have answered. It succeeds exactly when the
   encrypter could be built, the body came out whole and the service
   answered 200. Before the request is sent, the headers are merged, and an
   empty value list under a new name panics (`MergeOne`).
   */
  function UploadEncrypted(c: BlockCipher, data: seq<bv8>, messageSize: nat, putUrl: string, headers: Header,
                           key: seq<bv8>, ivRandom: Option<seq<bv8>>, outcome: HttpOutcome): (r: UploadResult)
    requires ivRandom.Some? ==> |ivRandom.value| <= 16
    ensures r.UploadPanicked? <==> UploadPanics(ivRandom, key, headers)
    ensures r.UploadResult? && r.request.None? <==> !(ivRandom.Some? && |ivRandom.value| == 16 && ValidKeyLength(|key|))
    ensures r.UploadResult? ==>
              (r.error == None <==>
                 r.request.Some? && outcome == Status(200) && |r.request.value.body| == r.request.value.contentLength)
    ensures r.UploadResult? && r.request.None? ==>
              r.error == Some(EncryptFailed(Encrypter.NewEncrypter(c, data, messageSize, key, ivRandom).error))
    ensures r.UploadResult? && r.request.Some? && |r.request.value.body| != r.request.value.contentLength ==>
              r.error == Some(BodyLengthMismatch(|r.request.value.body|))
    ensures r.UploadResult? && r.request.Some? ==>
              && r.request.value.url == putUrl
              && MergeHeaders(map[], headers) == Some(r.request.value.headers)
              && r.request.value.contentLength == messageSize + 17 + Encrypter.PaddingLen(messageSize)
              && r.request.value.body
                 == Encrypter.CopiedPrefix(Encrypter.NewEncrypter(c, data, messageSize, key, ivRandom).value, UploadReadSize)
    ensures outcome == TransportError && r.UploadResult? && r.request.Some?
            && |r.request.value.body| == r.request.value.contentLength ==>
              r.error == Some(TransportFailed)
  {
    var made := Encrypter.NewEncrypter(c, data, messageSize, key, ivRandom);
    if made.Failure? then UploadResult(None, Some(EncryptFailed(made.error)))
    else
      match MergeHeaders(map[], headers)
      case None => UploadPanicked
      case Some(merged) =>
        var e := made.value;
        var body := Encrypter.CopiedPrefix(e, UploadReadSize);
        var request := PutRequest(putUrl, merged, e.totalSize, body);
        var error :=
          if |body| != e.totalSize then Some(BodyLengthMismatch(|body|))
          else match outcome
            case TransportError => Some(TransportFailed)
            case Status(code) => if code != 200 then Some(BadStatus(code)) else None;
        UploadResult(Some(request), error)
  }

  /**
   The upload of a file panics exactly when its header merge does.
   Otherwise it sends a prefix of its envelope, announced at the envelope's
   full length: all of it exactly when the file's size is not 4065 to 4079
   more than a multiple of 4096.
   */
  lemma UploadBodyOfFile(c: BlockCipher, data: seq<bv8>, putUrl: string, headers: Header, key: seq<bv8>,
                         iv: Block, outcome: HttpOutcome)
    requires ValidKeyLength(|key|)
    ensures var r := UploadEncrypted(c, data, |data|, putUrl, headers, key, Some(iv), outcome);
            r.UploadPanicked? <==> MergePanics(map[], headers)
    ensures var r := UploadEncrypted(c, data, |data|, putUrl, headers, key, Some(iv), outcome);
            var envelope := Encrypter.Envelope(c, key, iv, data);
            r.UploadResult? ==>
            && r.request.Some? && r.request.value.contentLength == |envelope|
            && |r.request.value.body| <= |envelope| && r.request.value.body == envelope[..|r.request.value.body|]
            && (r.request.value.body == envelope <==> !(4065 <= |data| % 4096 <= 4079))
  {
    var e := Encrypter.NewEncrypter(c, data, |data|, key, Some(iv)).value;
    Encrypter.EnvelopeCopiedPrefix(c, data, key, iv, UploadReadSize);
    UploadWholeSizes(|data|);
  }

  /**
   Which files get through whole: with 4096-byte reads, the early `io.EOF`
   cuts the body short exactly when the last block starts in the last read
   and the file does not end on a block boundary, that is when the file's
   size is 4065 to 4079 more than a multiple of 4096.
   */
  lemma UploadWholeSizes(size: nat)
    ensures var total := 17 + size + Encrypter.PaddingLen(size);
            (size % 16 == 0 || total <= 4096 || (total - 1) % 4096 >= 16) <==> !(4065 <= size % 4096 <= 4079)
  {
    var q := size / 4096;
    var m := size % 4096;
    assert size == 4096 * q + m;
    Copying.ModMultipleAdd(256 * q, m, 16);
    assert size % 16 == m % 16;
    var pad := Encrypter.PaddingLen(size);
    var x := 16 + m + pad;
    var total := 17 + size + pad;
    assert total - 1 == 4096 * q + x;
    Copying.ModMultipleAdd(q, x, 4096);
    if size % 16 != 0 {
      assert m + pad <= 4096;
      if x == 4096 {
        assert 4065 <= m <= 4079;
      } else {
        assert x < 4096 || x == 4112;
      }
    }
  }

  /**
   A 4065-byte file is uploaded one byte short, unless the header merge
   panics first: the read that reaches its last block reports `io.EOF`, so
   net/http stops after 4096 of the 4097 announced bytes and the request
   fails, whatever the service would answer.
   */
  lemma UploadCutShort(c: BlockCipher, data: seq<bv8>, putUrl: string, headers: Header, key: seq<bv8>,
                       iv: Block, outcome: HttpOutcome)
    requires |data| == 4065 && ValidKeyLength(|key|)
    ensures var r := UploadEncrypted(c, data, |data|, putUrl, headers, key, Some(iv), outcome);
            r.UploadPanicked? <==> MergePanics(map[], headers)
    ensures var r := UploadEncrypted(c, data, |data|, putUrl, headers, key, Some(iv), outcome);
            r.UploadResult? ==>
            && r.request.Some? && r.request.value.contentLength == 4097
            && r.request.value.body == Encrypter.Envelope(c, key, iv, data)[..4096]
            && r.error == Some(BodyLengthMismatch(4096))
  {
    var e := Encrypter.NewEncrypter(c, data, |data|, key, Some(iv)).value;
    Encrypter.EnvelopeReadToEof(c, data, key, iv, UploadReadSize);
    Encrypter.EarlyEofOfPartial(e);
    assert Copying.Copied(4097, Some(4081), 4096) == 4096;
  }

  /** The error codes of `SendSecret`. */
  datatype SendErrorCode =
    | MetadataUploadFailed | ConnectionFailed | ServerFailed | DataUploadFailed | EncryptionFailed
    | KeyGenFailed | FileOpenFailed | FileReadFailed | UniverseFailed

  /** How the secretshare server answered the upload request. */
  datatype ServerReply =
    | Unreachable
    | EmptyReply
    | Reply(status: int, body: ReplyBody)

  /** The body of a reply, once read and parsed. */
  datatype ReplyBody = ReadFailed | Malformed | Parsed(response: UploadResponse)

  /** Everything `SendSecret` learns from outside the program. */
  datatype SendWorld = SendWorld(
    keyRandom: Option<seq<bv8>>,      // what the random source gave for the key
    fileSize: Option<nat>,            // the size `os.Stat` reported, `None` if it failed
    reply: ServerReply,
    fileContents: Option<seq<bv8>>,   // the file as opened and read, `None` if opening failed
    dataIvRandom: Option<seq<bv8>>,
    dataOutcome: HttpOutcome,
    metaIvRandom: Option<seq<bv8>>,
    metaOutcome: HttpOutcome)

  /** The random-source replies respect the buffers they were asked to fill. */
  predicate WellFormedSendWorld(w: SendWorld) {
    && (w.keyRandom.Some? ==> |w.keyRandom.value| <= KeySize)
    && (w.dataIvRandom.Some? ==> |w.dataIvRandom.value| <= 16)
    && (w.metaIvRandom.Some? ==> |w.metaIvRandom.value| <= 16)
  }

  /** An external action of a send. */
  datatype SendAction = PostUpload(url: string, request: UploadRequest) | Put(put: PutRequest)

  /**
   The result of a send: the key and id to pass on, or an error code, and the
   actions taken; or a panic in an upload's header merge.
   */
  datatype SendOutcome =
    | SendOutcome(result: Result<(string, string), SendErrorCode>, actions: seq<SendAction>)
    | SendPanicked(actions: seq<SendAction>)

  /** A send that returned the key and the id. */
  predicate Succeeded(o: SendOutcome) {
    o.SendOutcome? && o.result.Success?
  }

  /**
   The last element of a slash-separated path, as Go's `filepath.Base`
   computes it: trailing slashes are ignored, an empty path gives ".", and a
   path of slashes only gives "/".
   */
  function BaseName(path: string): (r: string)
    ensures r != []
    ensures forall i :: 0 <= i < |r| ==> r[i] != '/' || r == "/"
    ensures path == [] ==> r == "."
    ensures path != [] && (forall i :: 0 <= i < |path| ==> path[i] == '/') ==> r == "/"
    ensures (exists i :: 0 <= i < |path| && path[i] != '/') ==>
              && r != "/"
              && |r| <= |TrimTrailingSlashes(path)|
              && r == path[|TrimTrailingSlashes(path)| - |r|..|TrimTrailingSlashes(path)|]
              && (|r| == |TrimTrailingSlashes(path)| || path[|TrimTrailingSlashes(path)| - |r| - 1] == '/')
  {
    if path == [] then "."
    else
      var trimmed := TrimTrailingSlashes(path);
      if trimmed == [] then "/" else LastSegment(trimmed)
  }

  /** `p` without the slashes it ends with. */
  function TrimTrailingSlashes(p: string): (r: string)
    ensures |r| <= |p| && r == p[..|r|]
    ensures r == [] || r[|r| - 1] != '/'
    ensures forall i :: |r| <= i < |p| ==> p[i] == '/'
  {
    if p != [] && p[|p| - 1] == '/' then TrimTrailingSlashes(p[..|p| - 1]) else p
  }

  /** The part of `p` after its last `/`: all of `p` when it has none. */
  function LastSegment(p: string): (r: string)
    ensures |r| <= |p| && r == p[|p| - |r|..]
    ensures forall i :: 0 <= i < |r| ==> r[i] != '/'
    ensures |r| < |p| ==> p[|p| - |r| - 1] == '/'
  {
    if p == [] || p[|p| - 1] == '/' then []
    else LastSegment(p[..|p| - 1]) + [p[|p| - 1]]
  }

  /** Trailing slashes after a name that does not end in one are exactly what is trimmed. */
  lemma TrimAddedSlashes(body: string, trailing: nat)
    requires body != [] && body[|body| - 1] != '/'
    ensures TrimTrailingSlashes(body + seq(trailing, _ => '/')) == body
  {
    var p := body + seq(trailing, _ => '/');
    var t := TrimTrailingSlashes(p);
    assert p[|body| - 1] != '/';
    assert forall i :: |body| <= i < |p| ==> p[i] == '/';
    assert t != [] ==> t[|t| - 1] == p[|t| - 1];
    assert |t| == |body|;
    assert p[..|body|] == body;
  }

  /** The last segment after a slash, or of a path without one, is the name. */
  lemma LastSegmentAfterSlash(prefix: string, name: string)
    requires prefix == [] || prefix[|prefix| - 1] == '/'
    requires name != [] && forall i :: 0 <= i < |name| ==> name[i] != '/'
    ensures LastSegment(prefix + name) == name
  {
    var body := prefix + name;
    var r := LastSegment(body);
    assert forall i :: |prefix| <= i < |body| ==> body[i] == name[i - |prefix|];
    assert |r| >= |name|;
    assert prefix != [] ==> body[|prefix| - 1] == '/';
    assert |r| == |name|;
    assert body[|body| - |r|..] == name;
  }

  /**
   The base name of a path is the name after its last slash, whatever
   precedes the slash and however many slashes follow the name.
   */
  lemma BaseNameOfJoin(prefix: string, name: string, trailing: nat)
    requires prefix == [] || prefix[|prefix| - 1] == '/'
    requires name != [] && forall i :: 0 <= i < |name| ==> name[i] != '/'
    ensures BaseName(prefix + name + seq(trailing, _ => '/')) == name
  {
    var body := prefix + name;
    assert body[|body| - 1] == name[|name| - 1];
    TrimAddedSlashes(body, trailing);
    LastSegmentAfterSlash(prefix, name);
  }

  /** The steps of a send up to the point where the file is uploaded. */
  datatype SendPrefix =
    | Stopped(outcome: SendOutcome)
    | Ready(key: seq<bv8>, keystr: string, id: string, size: nat, response: UploadResponse,
            contents: seq<bv8>, post: SendAction)

  /**
   Generates the key, sizes the file, asks the server for upload URLs and
   opens the file, stopping at the first failure with its error code.
   */
  function SendPrefixSteps(w: SendWorld, sha256: seq<bv8> -> Digest, endpoint: string, secretKey: string,
                           ttl: int): (r: SendPrefix)
    requires WellFormedSendWorld(w)
    ensures w.keyRandom.None? || |w.keyRandom.value| < KeySize ==> r == Stopped(SendOutcome(Failure(KeyGenFailed), []))
    ensures GenerateKey(w.keyRandom).Success? && w.fileSize.None? ==> r == Stopped(SendOutcome(Failure(FileOpenFailed), []))
    ensures r.Stopped? ==> r.outcome.SendOutcome? && r.outcome.result.Failure? && |r.outcome.actions| <= 1
    ensures r.Stopped? && r.outcome.actions != [] ==>
              && GenerateKey(w.keyRandom).Success?
              && r.outcome.actions == [PostUpload(endpoint + "/upload",
                                                  UploadRequest(ttl, secretKey, DeriveId(sha256, GenerateKey(w.keyRandom).value.0)))]
    ensures r.Stopped? && r.outcome.SendOutcome? && r.outcome.result.error == ServerFailed ==>
              w.reply.EmptyReply? || (w.reply.Reply? && (w.reply.status != 200 || !w.reply.body.Parsed?))
    ensures r.Ready? <==>
              && GenerateKey(w.keyRandom).Success? && w.fileSize.Some?
              && w.reply.Reply? && w.reply.status == 200 && w.reply.body.Parsed? && w.fileContents.Some?
    ensures r.Ready? ==>
              && (r.key, r.keystr) == GenerateKey(w.keyRandom).value
              && r.id == DeriveId(sha256, r.key)
              && r.size == w.fileSize.value && r.contents == w.fileContents.value
              && r.response == w.reply.body.response
              && r.post == PostUpload(endpoint + "/upload", UploadRequest(ttl, secretKey, r.id))
  {
    match GenerateKey(w.keyRandom)
    case Failure(_) => Stopped(SendOutcome(Failure(KeyGenFailed), []))
    case Success(generated) =>
      var (key, keystr) := generated;
      RequestUpload(w, key, keystr, DeriveId(sha256, key), endpoint, secretKey, ttl)
  }

  /** The steps of a send once the key and the object id are known. */
  function RequestUpload(w: SendWorld, key: seq<bv8>, keystr: string, id: string, endpoint: string, secretKey: string,
                         ttl: int): (r: SendPrefix)
    ensures w.fileSize.None? ==> r == Stopped(SendOutcome(Failure(FileOpenFailed), []))
    ensures r.Stopped? ==> r.outcome.SendOutcome? && r.outcome.result.Failure? && |r.outcome.actions| <= 1
    ensures r.Stopped? && r.outcome.actions != [] ==>
              r.outcome.actions == [PostUpload(endpoint + "/upload", UploadRequest(ttl, secretKey, id))]
    ensures r.Stopped? && r.outcome.SendOutcome? && r.outcome.result.error == ServerFailed ==>
              w.reply.EmptyReply? || (w.reply.Reply? && (w.reply.status != 200 || !w.reply.body.Parsed?))
    ensures r.Ready? <==>
              w.fileSize.Some? && w.reply.Reply? && w.reply.status == 200 && w.reply.body.Parsed? && w.fileContents.Some?
    ensures r.Ready? ==>
              && r.key == key && r.keystr == keystr && r.id == id
              && r.size == w.fileSize.value && r.contents == w.fileContents.value
              && r.response == w.reply.body.response
              && r.post == PostUpload(endpoint + "/upload", UploadRequest(ttl, secretKey, id))
  {
    if w.fileSize.None? then Stopped(SendOutcome(Failure(FileOpenFailed), []))
    else
      var post := PostUpload(endpoint + "/upload", UploadRequest(ttl, secretKey, id));
      match w.reply
      case Unreachable => Stopped(SendOutcome(Failure(ConnectionFailed), [post]))
      case EmptyReply => Stopped(SendOutcome(Failure(ServerFailed), [post]))
      case Reply(status, body) =>
        if status == 500 || status == 401 || status != 200 then Stopped(SendOutcome(Failure(ServerFailed), [post]))
        else if !body.Parsed? then Stopped(SendOutcome(Failure(ServerFailed), [post]))
        else if w.fileContents.None? then Stopped(SendOutcome(Failure(FileOpenFailed), [post]))
        else Ready(key, keystr, id, w.fileSize.value, body.response, w.fileContents.value, post)
  }

  /** The upload request of an `UploadResult`, as an action list of zero or one element. */
  function PutActions(u: UploadResult): (r: seq<SendAction>)
    ensures |r| <= 1
  {
    if u.UploadResult? && u.request.Some? then [Put(u.request.value)] else []
  }

  /** Whether an upload went out with a body as long as it announced. */
  predicate WholeBody(u: UploadResult) {
    u.UploadResult? && u.request.Some? && |u.request.value.body| == u.request.value.contentLength
  }

  /** The content and the metadata uploads of a send, as the library issues them. */
  function UploadBoth(c: BlockCipher, w: SendWorld, marshal: FileMetadata -> seq<bv8>, key: seq<bv8>,
                      size: nat, response: UploadResponse, contents: seq<bv8>, filePath: string): (r: (UploadResult, UploadResult))
    requires WellFormedSendWorld(w)
    ensures r.0 == UploadEncrypted(c, contents, size, response.putUrl, response.headers, key, w.dataIvRandom, w.dataOutcome)
    ensures var metaBytes := marshal(FileMetadata(BaseName(filePath), size));
            r.1 == UploadEncrypted(c, metaBytes, |metaBytes|, response.metaPutUrl, response.metaHeaders, key,
                                   w.metaIvRandom, w.metaOutcome)
  {
    var metaBytes := marshal(FileMetadata(BaseName(filePath), size));
    (UploadEncrypted(c, contents, size, response.putUrl, response.headers, key, w.dataIvRandom, w.dataOutcome),
     UploadEncrypted(c, metaBytes, |metaBytes|, response.metaPutUrl, response.metaHeaders, key,
                     w.metaIvRandom, w.metaOutcome))
  }

  /**
   Sends a file as the library does: after the server handed out the upload
   URLs, the content and then the metadata are uploaded, and the key and id
   are returned whatever the two uploads gave, unless one of them panics.
   */
  function SendSecret(c: BlockCipher, w: SendWorld, sha256: seq<bv8> -> Digest, marshal: FileMetadata -> seq<bv8>,
                      endpoint: string, secretKey: string, filePath: string, ttl: int): (r: SendOutcome)
    requires WellFormedSendWorld(w)
    ensures var p := SendPrefixSteps(w, sha256, endpoint, secretKey, ttl);
            r.SendPanicked? <==> p.Ready? && SendPanics(w, p)
    ensures r.SendOutcome? ==> (r.result.Success? <==> SendPrefixSteps(w, sha256, endpoint, secretKey, ttl).Ready?)
    ensures r.SendPanicked? || Succeeded(r) ==>
              var p := SendPrefixSteps(w, sha256, endpoint, secretKey, ttl);
              && (r.SendOutcome? ==> r.result.value == (p.keystr, p.id))
              && 1 <= |r.actions| <= 3 && r.actions[0] == p.post
  {
    var p := SendPrefixSteps(w, sha256, endpoint, secretKey, ttl);
    if p.Stopped? then p.outcome
    else
      var uploads := UploadBoth(c, w, marshal, p.key, p.size, p.response, p.contents, filePath);
      if uploads.0.UploadPanicked? then SendPanicked([p.post])
      else if uploads.1.UploadPanicked? then SendPanicked([p.post] + PutActions(uploads.0))
      else SendOutcome(Success((p.keystr, p.id)), [p.post] + PutActions(uploads.0) + PutActions(uploads.1))
  }

  /**
   Whether one of the library's two uploads panics, once the server handed
   out the URLs: the content upload, or else the metadata upload.
   */
  predicate SendPanics(w: SendWorld, p: SendPrefix)
    requires p.Ready?
  {
    || UploadPanics(w.dataIvRandom, p.key, p.response.headers)
    || UploadPanics(w.metaIvRandom, p.key, p.response.metaHeaders)
  }

  /**
   Sends a file as the declared error codes intend: a failed content upload
   gives `DataUploadFailed` and no metadata upload, a failed metadata upload
   gives `MetadataUploadFailed`. The header merge is as written, so an upload
   that is started can still panic.
   */
  function SendSecretFixed(c: BlockCipher, w: SendWorld, sha256: seq<bv8> -> Digest, marshal: FileMetadata -> seq<bv8>,
                           endpoint: string, secretKey: string, filePath: string, ttl: int): (r: SendOutcome)
    requires WellFormedSendWorld(w)
    ensures r.SendPanicked? || Succeeded(r) ==> SendPrefixSteps(w, sha256, endpoint, secretKey, ttl).Ready?
    ensures Succeeded(r) ==>
              var p := SendPrefixSteps(w, sha256, endpoint, secretKey, ttl);
              && r.result.value == (p.keystr, p.id)
              && |r.actions| == 3 && r.actions[0] == p.post
              && r.actions[1].Put? && r.actions[1].put.url == p.response.putUrl
              && r.actions[2].Put? && r.actions[2].put.url == p.response.metaPutUrl
    ensures SendPrefixSteps(w, sha256, endpoint, secretKey, ttl).Ready? ==>
              var p := SendPrefixSteps(w, sha256, endpoint, secretKey, ttl);
              var uploads := UploadBoth(c, w, marshal, p.key, p.size, p.response, p.contents, filePath);
              && (Succeeded(r) <==> w.dataOutcome == Status(200) && w.metaOutcome == Status(200)
                                    && w.dataIvRandom.Some? && |w.dataIvRandom.value| == 16
                                    && w.metaIvRandom.Some? && |w.metaIvRandom.value| == 16
                                    && WholeBody(uploads.0) && WholeBody(uploads.1))
              && (r.SendPanicked? <==> FixedSendPanics(uploads))
  {
    var p := SendPrefixSteps(w, sha256, endpoint, secretKey, ttl);
    if p.Stopped? then p.outcome else FinishSendFixed(c, w, marshal, p, filePath)
  }

  /** The uploads of `SendSecretFixed`, once the server handed out the URLs: each failure stops the send with its code. */
  function FinishSendFixed(c: BlockCipher, w: SendWorld, marshal: FileMetadata -> seq<bv8>, p: SendPrefix,
                           filePath: string): (r: SendOutcome)
    requires WellFormedSendWorld(w) && p.Ready?
    ensures Succeeded(r) ==>
              && r.result.value == (p.keystr, p.id)
              && |r.actions| == 3 && r.actions[0] == p.post
              && r.actions[1].Put? && r.actions[1].put.url == p.response.putUrl
              && r.actions[2].Put? && r.actions[2].put.url == p.response.metaPutUrl
    ensures var uploads := UploadBoth(c, w, marshal, p.key, p.size, p.response, p.contents, filePath);
            Succeeded(r) <==> w.dataOutcome == Status(200) && w.metaOutcome == Status(200)
                              && w.dataIvRandom.Some? && |w.dataIvRandom.value| == 16
                              && w.metaIvRandom.Some? && |w.metaIvRandom.value| == 16
                              && ValidKeyLength(|p.key|) && WholeBody(uploads.0) && WholeBody(uploads.1)
    ensures var uploads := UploadBoth(c, w, marshal, p.key, p.size, p.response, p.contents, filePath);
            r.SendPanicked? <==> FixedSendPanics(uploads)
    ensures r.SendPanicked? ==> 1 <= |r.actions| <= 2 && r.actions[0] == p.post
    ensures r.SendOutcome? && r.result.Failure? ==>
              r.result.error == DataUploadFailed || r.result.error == MetadataUploadFailed
  {
    FixedOutcome(p, UploadBoth(c, w, marshal, p.key, p.size, p.response, p.contents, filePath))
  }

  /** How the corrected send ends, given its two upload results. */
  function FixedOutcome(p: SendPrefix, uploads: (UploadResult, UploadResult)): (r: SendOutcome)
    requires p.Ready?
    ensures Succeeded(r) <==> && uploads.0.UploadResult? && uploads.0.error.None?
                              && uploads.1.UploadResult? && uploads.1.error.None?
    ensures r.SendPanicked? <==> FixedSendPanics(uploads)
    ensures Succeeded(r) ==>
              r.result.value == (p.keystr, p.id) && r.actions == [p.post] + PutActions(uploads.0) + PutActions(uploads.1)
    ensures r.SendPanicked? ==> 1 <= |r.actions| <= 2 && r.actions[0] == p.post
    ensures r.SendOutcome? && r.result.Failure? ==>
              r.result.error == DataUploadFailed || r.result.error == MetadataUploadFailed
  {
    if uploads.0.UploadPanicked? then SendPanicked([p.post])
    else if uploads.0.error.Some? then SendOutcome(Failure(DataUploadFailed), [p.post] + PutActions(uploads.0))
    else if uploads.1.UploadPanicked? then SendPanicked([p.post] + PutActions(uploads.0))
    else
      var actions := [p.post] + PutActions(uploads.0) + PutActions(uploads.1);
      if uploads.1.error.Some? then SendOutcome(Failure(MetadataUploadFailed), actions)
      else SendOutcome(Success((p.keystr, p.id)), actions)
  }

  /**
   Whether the corrected send panics: in the content upload, or in the
   metadata upload, which it starts only once the content upload succeeded.
   */
  predicate FixedSendPanics(uploads: (UploadResult, UploadResult)) {
    || uploads.0.UploadPanicked?
    || (uploads.0.UploadResult? && uploads.0.error.None? && uploads.1.UploadPanicked?)
  }

  /**
   The library reports success even when both uploads failed: once the
   server handed out the URLs, the outcome of the uploads does not matter,
   as long as neither panics.
   */
  lemma SendIgnoresUploadOutcomes(c: BlockCipher, w: SendWorld, sha256: seq<bv8> -> Digest,
                                  marshal: FileMetadata -> seq<bv8>, endpoint: string, secretKey: string,
                                  filePath: string, ttl: int)
    requires WellFormedSendWorld(w)
    requires SendPrefixSteps(w, sha256, endpoint, secretKey, ttl).Ready?
    requires w.dataOutcome == Status(403) && w.metaOutcome == TransportError
    ensures var p := SendPrefixSteps(w, sha256, endpoint, secretKey, ttl);
            !SendPanics(w, p) ==> Succeeded(SendSecret(c, w, sha256, marshal, endpoint, secretKey, filePath, ttl))
    ensures var p := SendPrefixSteps(w, sha256, endpoint, secretKey, ttl);
            !UploadPanics(w.dataIvRandom, p.key, p.response.headers) ==>
              var r := SendSecretFixed(c, w, sha256, marshal, endpoint, secretKey, filePath, ttl);
              r.SendOutcome? && r.result == Failure(DataUploadFailed)
  {
  }

  /** Both send variants agree whenever both uploads succeed. */
  lemma SendFixedAgreesOnSuccess(c: BlockCipher, w: SendWorld, sha256: seq<bv8> -> Digest,
                                 marshal: FileMetadata -> seq<bv8>, endpoint: string, secretKey: string,
                                 filePath: string, ttl: int)
    requires WellFormedSendWorld(w)
    requires Succeeded(SendSecretFixed(c, w, sha256, marshal, endpoint, secretKey, filePath, ttl))
    ensures SendSecretFixed(c, w, sha256, marshal, endpoint, secretKey, filePath, ttl)
            == SendSecret(c, w, sha256, marshal, endpoint, secretKey, filePath, ttl)
  {
  }

  /** The error codes of `RecvSecret`. */
  datatype RecvErrorCode =
    | MetadataDownloadFailed | MalformedMetadata | RecvFileExists | RecvCreateFailed | DataDownloadFailed
    | DecryptionFailed

  /** What a download gave: no response, or a status and the body (`None` if reading it failed). */
  datatype GetReply = GetUnreachable | GetReply(status: int, body: Option<seq<bv8>>)

  /** A stored object: region, bucket and object name. */
  datatype ObjectName = ObjectName(region: string, bucket: string, name: string)

  /** A file the receive writes: directory and file name. */
  datatype FilePath = FilePath(dir: string, name: string)

  /** An external action of a receive. */
  datatype RecvAction =
    | Get(obj: ObjectName)
    | RemoveFile(path: FilePath)
    | CreateFile(path: FilePath)
    | WriteFile(path: FilePath, data: seq<bv8>)

  /** Everything `RecvSecret` learns from outside the program. */
  datatype RecvWorld = RecvWorld(metaGet: GetReply, fileExists: bool, createOk: bool, dataGet: GetReply)

  /**
   The result of a receive: the metadata and error code the library returns,
   with the actions taken; or an index panic in the one-shot decryption.
   */
  datatype RecvOutcome =
    | Finished(meta: Option<FileMetadata>, error: Option<RecvErrorCode>, actions: seq<RecvAction>)
    | Panicked(actions: seq<RecvAction>)

  /** A download that answered 200 and whose body could be read. */
  predicate Downloaded(reply: GetReply) {
    reply.GetReply? && reply.status == 200 && reply.body.Some?
  }

  /** How far the metadata got: an error code, a panic, or the parsed record. */
  datatype MetaStage = MetaFailed(code: RecvErrorCode) | MetaPanicked | MetaReady(meta: FileMetadata)

  /**
   Decrypts the downloaded metadata object in one piece and parses it. A
   failed download gives `MetadataDownloadFailed`, a failed decryption
   `DecryptionFailed` and a failed parse `MalformedMetadata`.
   */
  function OpenMetadata(c: BlockCipher, reply: GetReply, unmarshal: seq<bv8> -> Option<FileMetadata>,
                        key: seq<bv8>): (r: MetaStage)
    ensures !Downloaded(reply) <==> r == MetaFailed(MetadataDownloadFailed)
    ensures r == MetaPanicked <==> Downloaded(reply) && !DecryptDefined(reply.body.value, key)
    ensures r == MetaFailed(DecryptionFailed) <==>
              Downloaded(reply) && DecryptDefined(reply.body.value, key) && Decrypt(c, reply.body.value, key).Failure?
    ensures r.MetaReady? ==>
              && Downloaded(reply) && DecryptDefined(reply.body.value, key)
              && Decrypt(c, reply.body.value, key).Success?
              && unmarshal(Decrypt(c, reply.body.value, key).value) == Some(r.meta)
  {
    if !Downloaded(reply) then MetaFailed(MetadataDownloadFailed)
    else if !DecryptDefined(reply.body.value, key) then MetaPanicked
    else
      match Decrypt(c, reply.body.value, key)
      case Failure(_) => MetaFailed(DecryptionFailed)
      case Success(metaBytes) =>
        match unmarshal(metaBytes)
        case None => MetaFailed(MalformedMetadata)
        case Some(meta) => MetaReady(meta)
  }

  /**
   The size of the buffer `io.Copy` reads the decrypter with (commonlib/api.go:348):
   the file does not take the reader over, so the copy reads 32 KiB at a time.
   */
  const CopyBufferSize: nat := 32768

  /**
   What `io.Copy` gets from a decrypter over a downloaded body. The body of a
   response with a known length reports `io.EOF` together with its last
   bytes, so the last block loads with `io.EOF`.
   */
  function Download(c: BlockCipher, body: seq<bv8>, filesize: nat, key: seq<bv8>): (r: (seq<bv8>, Option<StreamError>))
    ensures var spec := Decrypter.DecryptSpec(c, body, filesize, key);
            r == spec || (r.1 == None && |r.0| < |spec.0| && r.0 == spec.0[..|r.0|])
  {
    Decrypter.CopySpec(c, body, filesize, key, true, CopyBufferSize)
  }

  /**
   How many bytes of a `size`-byte file `io.Copy` writes from the
   decrypter: all of them unless the size is 1 to 16 more than a non-zero
   multiple of the copy buffer, when the copy stops at that multiple.
   */
  function Received(size: nat): (r: nat)
    ensures r <= size
    ensures r < size ==> 0 < r && r % CopyBufferSize == 0 && size - r <= 16
    ensures r == size <==> !(size > CopyBufferSize && 1 <= size % CopyBufferSize <= 16)
  {
    if size > CopyBufferSize && (size - 1) % CopyBufferSize < 16 then size - 1 - (size - 1) % CopyBufferSize else size
  }

  /**
   The count behind `Received`: the last block of a non-empty file's
   envelope starts `size + padding - 16` bytes into the plaintext, and a file
   of more than one block has its `io.EOF` load there.
   */
  lemma DownloadCount(size: nat)
    requires size > 0
    ensures Copying.Copied(size, if size > 16 then Some(size + Encrypter.PaddingLen(size) - 16) else None, CopyBufferSize)
            == Received(size)
  {
    var pad := Encrypter.PaddingLen(size);
    if size > CopyBufferSize {
      var q := (size - 1) / CopyBufferSize;
      var m := (size - 1) % CopyBufferSize;
      assert size - 1 == CopyBufferSize * q + m;
      Copying.ModMultipleAdd(2048 * q, m, 16);
      assert (size - 1) % 16 == m % 16;
      assert 16 - pad == (size - 1) % 16 + 1;
      Copying.CopiedAll(size, size + pad - 16, CopyBufferSize);
      if m < 16 {
        assert size + pad - 16 == q * CopyBufferSize;
        Copying.CopiedAtMultiple(size, q, CopyBufferSize);
      }
    }
  }

  /**
   Downloading the envelope of a non-empty file writes the first
   `Received(size)` bytes of the file and ends without error: the whole file
   exactly when its size is not 1 to 16 more than a non-zero multiple of
   32768.
   */
  lemma DownloadOfFile(c: BlockCipher, key: seq<bv8>, iv: Block, data: seq<bv8>)
    requires ValidKeyLength(|key|) && |data| > 0
    ensures Decrypter.NewDecrypter(c, Encrypter.Envelope(c, key, iv, data), |data|, key, true).Success?
    ensures Download(c, Encrypter.Envelope(c, key, iv, data), |data|, key) == (data[..Received(|data|)], None)
    ensures Download(c, Encrypter.Envelope(c, key, iv, data), |data|, key).0 == data
            <==> !(|data| > CopyBufferSize && 1 <= |data| % CopyBufferSize <= 16)
  {
    Decrypter.RoundTrip(c, key, iv, data);
    DownloadCount(|data|);
    assert data[..|data|] == data;
  }

  /**
   A 32769-byte file is received one byte short: the 32 KiB read that loads
   its last block fills up with the block's first byte, the load's `io.EOF`
   ends the copy, and the receive reports success.
   */
  lemma DownloadCutShort(c: BlockCipher, key: seq<bv8>, iv: Block, data: seq<bv8>)
    requires ValidKeyLength(|key|) && |data| == 32769
    ensures Download(c, Encrypter.Envelope(c, key, iv, data), |data|, key) == (data[..32768], None)
  {
    DownloadOfFile(c, key, iv, data);
  }

  /** What the content download gave: the bytes written to the file (if any were) and the error. */
  datatype ContentStage = ContentStage(written: Option<seq<bv8>>, error: Option<RecvErrorCode>)

  /**
   Downloads the content and copies it through the streaming decrypter into
   the file: whatever the decrypter delivered before an error is written. A
   download that did not answer 200 gives `DataDownloadFailed`; a body that
   could not be read fails inside the decrypter, as `DecryptionFailed`.
   */
  function OpenContent(c: BlockCipher, reply: GetReply, filesize: nat, key: seq<bv8>): (r: ContentStage)
    ensures reply.GetUnreachable? || reply.status != 200 ==> r == ContentStage(None, Some(DataDownloadFailed))
    ensures reply.GetReply? && reply.status == 200 && reply.body.None? ==> r == ContentStage(None, Some(DecryptionFailed))
    ensures Downloaded(reply) && Decrypter.NewDecrypter(c, reply.body.value, filesize, key, true).Failure? ==>
              r == ContentStage(None, Some(DecryptionFailed))
    ensures r.written.Some? <==> Downloaded(reply) && Decrypter.NewDecrypter(c, reply.body.value, filesize, key, true).Success?
    ensures r.written.Some? ==>
              && r.written.value == Download(c, reply.body.value, filesize, key).0
              && (r.error == None <==> Download(c, reply.body.value, filesize, key).1 == None)
              && (r.error == None || r.error == Some(DecryptionFailed))
  {
    if reply.GetUnreachable? || reply.status != 200 then ContentStage(None, Some(DataDownloadFailed))
    else if reply.body.None? || Decrypter.NewDecrypter(c, reply.body.value, filesize, key, true).Failure? then
      ContentStage(None, Some(DecryptionFailed))
    else
      var spec := Download(c, reply.body.value, filesize, key);
      ContentStage(Some(spec.0), if spec.1.None? then None else Some(DecryptionFailed))
  }

  /**
   The part of a receive after the metadata opened: refuses to overwrite an
   existing file unless told to, removes it otherwise, creates the file,
   then fetches the content and decrypts it into the file.
   */
  function WriteTarget(c: BlockCipher, w: RecvWorld, meta: FileMetadata, key: seq<bv8>, getMeta: RecvAction,
                       target: FilePath, content: ObjectName, overwrite: bool): (r: RecvOutcome)
    ensures r.Finished? && |r.actions| > 0 && r.actions[0] == getMeta
    ensures r.error == Some(RecvFileExists) <==> w.fileExists && !overwrite
    ensures r.error == Some(RecvFileExists) ==> r.meta == Some(meta) && |r.actions| == 1
    ensures r.error == Some(RecvCreateFailed) <==> (!w.fileExists || overwrite) && !w.createOk
    ensures r.error == None ==>
              && r.meta == Some(meta) && |r.actions| >= 4
              && r.actions[|r.actions| - 3] == CreateFile(target)
              && r.actions[|r.actions| - 2] == Get(content)
              && Downloaded(w.dataGet)
              && Download(c, w.dataGet.body.value, meta.filesize, key).1 == None
              && r.actions[|r.actions| - 1] == WriteFile(target, Download(c, w.dataGet.body.value, meta.filesize, key).0)
  {
    if w.fileExists && !overwrite then Finished(Some(meta), Some(RecvFileExists), [getMeta])
    else
      var removed := if w.fileExists then [RemoveFile(target)] else [];
      if !w.createOk then Finished(None, Some(RecvCreateFailed), [getMeta] + removed)
      else
        var created := [getMeta] + removed + [CreateFile(target), Get(content)];
        var stage := OpenContent(c, w.dataGet, meta.filesize, key);
        var actions := if stage.written.Some? then created + [WriteFile(target, stage.written.value)] else created;
        if stage.error.Some? then Finished(None, stage.error, actions)
        else Finished(Some(meta), None, actions)
  }

  /**
   Receives a secret: fetches and decrypts the metadata, picks the target
   file (the given name overrides the stored one), refuses to overwrite an
   existing file unless told to, then fetches the content and decrypts it into
   the file.
   */
  function RecvSecret(c: BlockCipher, w: RecvWorld, sha256: seq<bv8> -> Digest,
                      unmarshal: seq<bv8> -> Option<FileMetadata>, bucket: string, region: string,
                      key: seq<bv8>, destDir: string, newName: Option<string>, overwrite: bool): (r: RecvOutcome)
    ensures |r.actions| > 0 && r.actions[0] == Get(ObjectName(region, bucket, "meta/" + DeriveId(sha256, key)))
    ensures !Downloaded(w.metaGet) ==> r == Finished(None, Some(MetadataDownloadFailed), r.actions) && |r.actions| == 1
    ensures r.Finished? && r.error == Some(RecvFileExists) ==> w.fileExists && !overwrite && r.meta.Some? && |r.actions| == 1
    ensures r.Finished? && r.error == None ==>
              && r.meta.Some? && |r.actions| >= 4
              && var target := FilePath(destDir, if newName.Some? then newName.value else r.meta.value.filename);
              && r.actions[|r.actions| - 3] == CreateFile(target)
              && r.actions[|r.actions| - 2] == Get(ObjectName(region, bucket, DeriveId(sha256, key)))
              && Downloaded(w.dataGet)
              && Download(c, w.dataGet.body.value, r.meta.value.filesize, key).1 == None
              && r.actions[|r.actions| - 1] ==
                 WriteFile(target, Download(c, w.dataGet.body.value, r.meta.value.filesize, key).0)
  {
    RecvById(c, w, unmarshal, bucket, region, key, DeriveId(sha256, key), destDir, newName, overwrite)
  }

  /** `RecvSecret` once the object id has been derived from the key. */
  function RecvById(c: BlockCipher, w: RecvWorld, unmarshal: seq<bv8> -> Option<FileMetadata>, bucket: string,
                    region: string, key: seq<bv8>, id: string, destDir: string, newName: Option<string>,
                    overwrite: bool): (r: RecvOutcome)
    ensures |r.actions| > 0 && r.actions[0] == Get(ObjectName(region, bucket, "meta/" + id))
    ensures !Downloaded(w.metaGet) ==> r == Finished(None, Some(MetadataDownloadFailed), r.actions) && |r.actions| == 1
    ensures r.Finished? && r.error == Some(RecvFileExists) ==> w.fileExists && !overwrite && r.meta.Some? && |r.actions| == 1
    ensures r.Finished? && r.error == None ==>
              && r.meta.Some? && |r.actions| >= 4
              && var target := FilePath(destDir, if newName.Some? then newName.value else r.meta.value.filename);
              && r.actions[|r.actions| - 3] == CreateFile(target)
              && r.actions[|r.actions| - 2] == Get(ObjectName(region, bucket, id))
              && Downloaded(w.dataGet)
              && Download(c, w.dataGet.body.value, r.meta.value.filesize, key).1 == None
              && r.actions[|r.actions| - 1] ==
                 WriteFile(target, Download(c, w.dataGet.body.value, r.meta.value.filesize, key).0)
  {
    var getMeta := Get(ObjectName(region, bucket, "meta/" + id));
    match OpenMetadata(c, w.metaGet, unmarshal, key)
    case MetaPanicked => Panicked([getMeta])
    case MetaFailed(code) => Finished(None, Some(code), [getMeta])
    case MetaReady(meta) =>
      var target := FilePath(destDir, if newName.Some? then newName.value else meta.filename);
      var r := WriteTarget(c, w, meta, key, getMeta, target, ObjectName(region, bucket, id), overwrite);
      assert r.error == None ==> r.meta == Some(meta);
      r
  }

  /** The metadata object a send uploads opens, on the receiving side, to the record that was sent. */
  lemma OpenSentMetadata(c: BlockCipher, key: seq<bv8>, iv: Block, meta: FileMetadata,
                         marshal: FileMetadata -> seq<bv8>, unmarshal: seq<bv8> -> Option<FileMetadata>)
    requires ValidKeyLength(|key|) && unmarshal(marshal(meta)) == Some(meta)
    ensures OpenMetadata(c, GetReply(200, Some(Encrypter.Envelope(c, key, iv, marshal(meta)))), unmarshal, key) == MetaReady(meta)
  {
    DecryptEnvelope(c, key, iv, marshal(meta));
  }

  /**
   The content object a send uploads decrypts, on the receiving side, to the
   first `Received` bytes of the file that was sent.
   */
  lemma OpenSentContent(c: BlockCipher, key: seq<bv8>, iv: Block, contents: seq<bv8>)
    requires ValidKeyLength(|key|) && |contents| > 0
    ensures Decrypter.NewDecrypter(c, Encrypter.Envelope(c, key, iv, contents), |contents|, key, true).Success?
    ensures Download(c, Encrypter.Envelope(c, key, iv, contents), |contents|, key) == (contents[..Received(|contents|)], None)
  {
    DownloadOfFile(c, key, iv, contents);
  }

  /**
   A receive whose metadata opens, that may create the file, and whose
   content download decrypts cleanly finishes without error and writes the
   decrypted content to the chosen file.
   */
  lemma RecvSucceeds(c: BlockCipher, w: RecvWorld, sha256: seq<bv8> -> Digest,
                     unmarshal: seq<bv8> -> Option<FileMetadata>, bucket: string, region: string,
                     key: seq<bv8>, destDir: string, newName: Option<string>, overwrite: bool,
                     meta: FileMetadata, contents: seq<bv8>)
    requires OpenMetadata(c, w.metaGet, unmarshal, key) == MetaReady(meta)
    requires w.createOk && (!w.fileExists || overwrite)
    requires Downloaded(w.dataGet) && Decrypter.NewDecrypter(c, w.dataGet.body.value, meta.filesize, key, true).Success?
    requires Download(c, w.dataGet.body.value, meta.filesize, key) == (contents, None)
    ensures var got := RecvSecret(c, w, sha256, unmarshal, bucket, region, key, destDir, newName, overwrite);
            && got.Finished? && got.error == None && got.meta == Some(meta)
            && got.actions[|got.actions| - 1] ==
               WriteFile(FilePath(destDir, if newName.Some? then newName.value else meta.filename), contents)
  {
  }

  /**
   What a successful send uploaded: the envelope of the file under the
   generated key, then the envelope of its metadata record.
   */
  lemma SentBodies(c: BlockCipher, sw: SendWorld, sha256: seq<bv8> -> Digest, marshal: FileMetadata -> seq<bv8>,
                   endpoint: string, secretKey: string, filePath: string, ttl: int)
    requires WellFormedSendWorld(sw)
    requires Succeeded(SendSecretFixed(c, sw, sha256, marshal, endpoint, secretKey, filePath, ttl))
    requires sw.fileContents.Some? && sw.fileSize == Some(|sw.fileContents.value|)
    ensures var sent := SendSecretFixed(c, sw, sha256, marshal, endpoint, secretKey, filePath, ttl);
            && sw.keyRandom.Some? && ValidKeyLength(|sw.keyRandom.value|)
            && DecodeForHuman(sent.result.value.0) == Success(sw.keyRandom.value)
            && sent.result.value.1 == DeriveId(sha256, sw.keyRandom.value)
            && sw.dataIvRandom.Some? && |sw.dataIvRandom.value| == 16
            && sw.metaIvRandom.Some? && |sw.metaIvRandom.value| == 16
            && |sent.actions| == 3 && sent.actions[1].Put? && sent.actions[2].Put?
            && sent.actions[1].put.body == Encrypter.Envelope(c, sw.keyRandom.value, sw.dataIvRandom.value, sw.fileContents.value)
            && sent.actions[2].put.body
               == Encrypter.Envelope(c, sw.keyRandom.value, sw.metaIvRandom.value,
                                     marshal(FileMetadata(BaseName(filePath), |sw.fileContents.value|)))
  {
    var p := SendPrefixSteps(sw, sha256, endpoint, secretKey, ttl);
    assert SendSecretFixed(c, sw, sha256, marshal, endpoint, secretKey, filePath, ttl)
           == FinishSendFixed(c, sw, marshal, p, filePath);
    FinishedUploads(c, sw, marshal, p, filePath);
  }

  /** The bodies of the two uploads of a fixed send that succeeded: both envelopes, whole. */
  lemma FinishedUploads(c: BlockCipher, w: SendWorld, marshal: FileMetadata -> seq<bv8>, p: SendPrefix, filePath: string)
    requires WellFormedSendWorld(w) && p.Ready? && p.size == |p.contents|
    requires Succeeded(FinishSendFixed(c, w, marshal, p, filePath))
    ensures var sent := FinishSendFixed(c, w, marshal, p, filePath);
            && w.dataIvRandom.Some? && |w.dataIvRandom.value| == 16
            && w.metaIvRandom.Some? && |w.metaIvRandom.value| == 16
            && |sent.actions| == 3 && sent.actions[1].Put? && sent.actions[2].Put?
            && sent.actions[1].put.body == Encrypter.Envelope(c, p.key, w.dataIvRandom.value, p.contents)
            && sent.actions[2].put.body
               == Encrypter.Envelope(c, p.key, w.metaIvRandom.value, marshal(FileMetadata(BaseName(filePath), p.size)))
  {
    var uploads := UploadBoth(c, w, marshal, p.key, p.size, p.response, p.contents, filePath);
    assert uploads.0.error == None && uploads.1.error == None;
    var metaBytes := marshal(FileMetadata(BaseName(filePath), p.size));
    UploadBodyOfFile(c, p.contents, p.response.putUrl, p.response.headers, p.key, w.dataIvRandom.value, w.dataOutcome);
    UploadBodyOfFile(c, metaBytes, p.response.metaPutUrl, p.response.metaHeaders, p.key, w.metaIvRandom.value,
                     w.metaOutcome);
  }

  /**
   A file sent and then received with the key the sender printed comes back
   under its own name or the one given, provided storage hands back the
   uploaded bodies, the metadata codec round-trips and the file is not
   empty. What comes back is the first `Received` bytes: the whole file
   unless its size is 1 to 16 more than a non-zero multiple of 32768.
   */
  lemma SendThenReceive(c: BlockCipher, sw: SendWorld, sha256: seq<bv8> -> Digest,
                        marshal: FileMetadata -> seq<bv8>, unmarshal: seq<bv8> -> Option<FileMetadata>,
                        endpoint: string, secretKey: string, filePath: string, ttl: int,
                        rw: RecvWorld, bucket: string, region: string, destDir: string,
                        newName: Option<string>, overwrite: bool)
    requires WellFormedSendWorld(sw)
    requires Succeeded(SendSecretFixed(c, sw, sha256, marshal, endpoint, secretKey, filePath, ttl))
    requires sw.fileContents.Some? && sw.fileSize == Some(|sw.fileContents.value|) && |sw.fileContents.value| > 0
    requires var meta := FileMetadata(BaseName(filePath), |sw.fileContents.value|); unmarshal(marshal(meta)) == Some(meta)
    requires var sent := SendSecretFixed(c, sw, sha256, marshal, endpoint, secretKey, filePath, ttl);
             && |sent.actions| == 3 && sent.actions[1].Put? && sent.actions[2].Put?
             && rw.metaGet == GetReply(200, Some(sent.actions[2].put.body))
             && rw.dataGet == GetReply(200, Some(sent.actions[1].put.body))
             && rw.createOk && (!rw.fileExists || overwrite)
    ensures var sent := SendSecretFixed(c, sw, sha256, marshal, endpoint, secretKey, filePath, ttl);
            && sw.keyRandom.Some?
            && DecodeForHuman(sent.result.value.0) == Success(sw.keyRandom.value)
            && DeriveId(sha256, sw.keyRandom.value) == sent.result.value.1
            && var got := RecvSecret(c, rw, sha256, unmarshal, bucket, region, sw.keyRandom.value, destDir, newName, overwrite);
            && got.Finished? && got.error == None
            && got.meta == Some(FileMetadata(BaseName(filePath), |sw.fileContents.value|))
            && got.actions[|got.actions| - 1] ==
               WriteFile(FilePath(destDir, if newName.Some? then newName.value else BaseName(filePath)),
                         sw.fileContents.value[..Received(|sw.fileContents.value|)])
  {
    SentBodies(c, sw, sha256, marshal, endpoint, secretKey, filePath, ttl);
    ReceiveWhatWasSent(c, SendSecretFixed(c, sw, sha256, marshal, endpoint, secretKey, filePath, ttl), sw, sha256,
                       marshal, unmarshal, filePath, rw, bucket, region, destDir, newName, overwrite);
  }

  /** `SendThenReceive` for any send outcome with the bodies `SentBodies` describes. */
  lemma ReceiveWhatWasSent(c: BlockCipher, sent: SendOutcome, sw: SendWorld, sha256: seq<bv8> -> Digest,
                           marshal: FileMetadata -> seq<bv8>, unmarshal: seq<bv8> -> Option<FileMetadata>,
                           filePath: string, rw: RecvWorld, bucket: string, region: string, destDir: string,
                           newName: Option<string>, overwrite: bool)
    requires sw.fileContents.Some? && |sw.fileContents.value| > 0
    requires var meta := FileMetadata(BaseName(filePath), |sw.fileContents.value|); unmarshal(marshal(meta)) == Some(meta)
    requires && sw.keyRandom.Some? && ValidKeyLength(|sw.keyRandom.value|)
             && sw.dataIvRandom.Some? && |sw.dataIvRandom.value| == 16
             && sw.metaIvRandom.Some? && |sw.metaIvRandom.value| == 16
             && |sent.actions| == 3 && sent.actions[1].Put? && sent.actions[2].Put?
             && sent.actions[1].put.body == Encrypter.Envelope(c, sw.keyRandom.value, sw.dataIvRandom.value, sw.fileContents.value)
             && sent.actions[2].put.body
                == Encrypter.Envelope(c, sw.keyRandom.value, sw.metaIvRandom.value,
                                      marshal(FileMetadata(BaseName(filePath), |sw.fileContents.value|)))
    requires && rw.metaGet == GetReply(200, Some(sent.actions[2].put.body))
             && rw.dataGet == GetReply(200, Some(sent.actions[1].put.body))
             && rw.createOk && (!rw.fileExists || overwrite)
    ensures var got := RecvSecret(c, rw, sha256, unmarshal, bucket, region, sw.keyRandom.value, destDir, newName, overwrite);
            && got.Finished? && got.error == None
            && got.meta == Some(FileMetadata(BaseName(filePath), |sw.fileContents.value|))
            && got.actions[|got.actions| - 1] ==
               WriteFile(FilePath(destDir, if newName.Some? then newName.value else BaseName(filePath)),
                         sw.fileContents.value[..Received(|sw.fileContents.value|)])
  {
    RecvEnvelopes(c, rw, sha256, marshal, unmarshal, bucket, region, sw.keyRandom.value, sw.dataIvRandom.value,
                  sw.metaIvRandom.value, FileMetadata(BaseName(filePath), |sw.fileContents.value|),
                  sw.fileContents.value, destDir, newName, overwrite);
  }

  /** The receive half of `SendThenReceive`: storage hands back the two envelopes a send uploads. */
  lemma RecvEnvelopes(c: BlockCipher, rw: RecvWorld, sha256: seq<bv8> -> Digest,
                      marshal: FileMetadata -> seq<bv8>, unmarshal: seq<bv8> -> Option<FileMetadata>,
                      bucket: string, region: string, key: seq<bv8>, dataIv: Block, metaIv: Block,
                      meta: FileMetadata, contents: seq<bv8>, destDir: string, newName: Option<string>, overwrite: bool)
    requires ValidKeyLength(|key|) && |contents| > 0 && meta.filesize == |contents|
    requires unmarshal(marshal(meta)) == Some(meta)
    requires rw.metaGet == GetReply(200, Some(Encrypter.Envelope(c, key, metaIv, marshal(meta))))
    requires rw.dataGet == GetReply(200, Some(Encrypter.Envelope(c, key, dataIv, contents)))
    requires rw.createOk && (!rw.fileExists || overwrite)
    ensures var got := RecvSecret(c, rw, sha256, unmarshal, bucket, region, key, destDir, newName, overwrite);
            && got.Finished? && got.error == None && got.meta == Some(meta)
            && got.actions[|got.actions| - 1] ==
               WriteFile(FilePath(destDir, if newName.Some? then newName.value else meta.filename), contents[..Received(|contents|)])
  {
    OpenSentMetadata(c, key, metaIv, meta, marshal, unmarshal);
    OpenSentContent(c, key, dataIv, contents);
    RecvSucceeds(c, rw, sha256, unmarshal, bucket, region, key, destDir, newName, overwrite, meta, contents[..Received(|contents|)]);
  }
}

=== FILE: base64.dfy ===
/**
 The bit-level core of base64 (section 4 of RFC 4648): bytes are regrouped into
 6-bit values ("sextets"), three bytes to four sextets, with a final partial
 group of one or two bytes giving two or three sextets and zero-filled low bits.
 Which character stands for which sextet, and whether `=` padding follows
 (section 3.2), is decided by the encodings built on top of this module.
 */
module Base64 {

  /** Every element is a 6-bit value. */
  ghost predicate AllSextets(s: seq<bv8>) {
    forall i :: 0 <= i < |s| ==> s[i] < 64
  }

  /** Number of sextets needed for `n` bytes without padding: ceil(8n / 6). */
  function EncodedLength(n: nat): nat {
    (4 * n + 2) / 3
  }

  /** Three bytes become four sextets. */
  function Group3(a: bv8, b: bv8, c: bv8): (s: seq<bv8>)
    ensures |s| == 4 && AllSextets(s)
  {
    [a >> 2, ((a & 3) << 4) | (b >> 4), ((b & 15) << 2) | (c >> 6), c & 63]
  }

  /** A final pair of bytes becomes three sextets, the last two bits zero-filled. */
  function Group2(a: bv8, b: bv8): (s: seq<bv8>)
    ensures |s| == 3 && AllSextets(s) && s[2] & 3 == 0
  {
    [a >> 2, ((a & 3) << 4) | (b >> 4), (b & 15) << 2]
  }

  /** A final single byte becomes two sextets, the last four bits zero-filled. */
  function Group1(a: bv8): (s: seq<bv8>)
    ensures |s| == 2 && AllSextets(s) && s[1] & 15 == 0
  {
    [a >> 2, (a & 3) << 4]
  }

  /** Four sextets become three bytes. */
  function Ungroup4(s0: bv8, s1: bv8, s2: bv8, s3: bv8): (b: seq<bv8>)
    ensures |b| == 3
  {
    [(s0 << 2) | (s1 >> 4), (s1 << 4) | (s2 >> 2), (s2 << 6) | s3]
  }

  /** Three sextets become two bytes; the low two bits of the last are dropped. */
  function Ungroup3(s0: bv8, s1: bv8, s2: bv8): (b: seq<bv8>)
    ensures |b| == 2
  {
    [(s0 << 2) | (s1 >> 4), (s1 << 4) | (s2 >> 2)]
  }

  /** Two sextets become one byte; the low four bits of the last are dropped. */
  function Ungroup2(s0: bv8, s1: bv8): (b: seq<bv8>)
    ensures |b| == 1
  {
    [(s0 << 2) | (s1 >> 4)]
  }

  lemma GroupRoundTrip(a: bv8, b: bv8, c: bv8)
    ensures var s := Group3(a, b, c); Ungroup4(s[0], s[1], s[2], s[3]) == [a, b, c]
    ensures var s := Group2(a, b); Ungroup3(s[0], s[1], s[2]) == [a, b]
    ensures var s := Group1(a); Ungroup2(s[0], s[1]) == [a]
  {
  }

  lemma UngroupRoundTrip(s0: bv8, s1: bv8, s2: bv8, s3: bv8)
    requires s0 < 64 && s1 < 64 && s2 < 64 && s3 < 64
    ensures var b := Ungroup4(s0, s1, s2, s3); Group3(b[0], b[1], b[2]) == [s0, s1, s2, s3]
    ensures s2 & 3 == 0 ==> var b := Ungroup3(s0, s1, s2); Group2(b[0], b[1]) == [s0, s1, s2]
    ensures s1 & 15 == 0 ==> var b := Ungroup2(s0, s1); Group1(b[0]) == [s0, s1]
  {
  }

  /** Splits bytes into sextets, most significant bits first. */
  function Sextets(b: seq<bv8>): (s: seq<bv8>)
    ensures |s| == EncodedLength(|b|)
    ensures |s| % 4 != 1
    ensures AllSextets(s)
    decreases |b|
  {
    if |b| == 0 then []
    else if |b| == 1 then Group1(b[0])
    else if |b| == 2 then Group2(b[0], b[1])
    else Group3(b[0], b[1], b[2]) + Sextets(b[3..])
  }

  /**
   Reassembles bytes from sextets, ignoring the low bits of a final partial
   group the way a non-strict decoder does. A sextet count of 4k+1 cannot
   come from any byte string, and the decoders reject it before calling this.
   */
  function Unsextets(s: seq<bv8>): (b: seq<bv8>)
    requires |s| % 4 != 1
    ensures |b| == 3 * |s| / 4
    decreases |s|
  {
    if |s| == 0 then []
    else if |s| == 2 then Ungroup2(s[0], s[1])
    else if |s| == 3 then Ungroup3(s[0], s[1], s[2])
    else
      var rest := Unsextets(s[4..]);
      assert 3 * |s| / 4 == 3 + 3 * |s[4..]| / 4;
      Ungroup4(s[0], s[1], s[2], s[3]) + rest
  }

  /**
   A sextet string is canonical when the unused low bits of a final partial
   group are zero, which is what `Sextets` always produces.
   */
  ghost predicate Canonical(s: seq<bv8>) {
    && |s| % 4 != 1
    && AllSextets(s)
    && (|s| % 4 == 2 ==> s[|s| - 1] & 15 == 0)
    && (|s| % 4 == 3 ==> s[|s| - 1] & 3 == 0)
  }

  /** Decoding undoes encoding for every byte string. */
  lemma {:induction false} UnsextetsSextets(b: seq<bv8>)
    ensures Unsextets(Sextets(b)) == b
    decreases |b|
  {
    if |b| == 1 {
      GroupRoundTrip(b[0], 0, 0);
    } else if |b| == 2 {
      GroupRoundTrip(b[0], b[1], 0);
    } else if |b| >= 3 {
      UnsextetsSextets(b[3..]);
      GroupRoundTrip(b[0], b[1], b[2]);
      var s := Sextets(b);
      assert s[..4] == Group3(b[0], b[1], b[2]);
      assert s[4..] == Sextets(b[3..]);
      assert b == b[..3] + b[3..];
    }
  }

  /** Encoding undoes decoding exactly on canonical sextet strings. */
  lemma {:induction false} SextetsUnsextets(s: seq<bv8>)
    requires Canonical(s)
    ensures Sextets(Unsextets(s)) == s
    decreases |s|
  {
    if |s| == 2 {
      assert s == [s[0], s[1]];
      var u := Ungroup2(s[0], s[1]);
      assert Group1(u[0]) == s by { UngroupRoundTrip(s[0], s[1], 0, 0); }
    } else if |s| == 3 {
      assert s == [s[0], s[1], s[2]];
      var u := Ungroup3(s[0], s[1], s[2]);
      assert Group2(u[0], u[1]) == s by { UngroupRoundTrip(s[0], s[1], s[2], 0); }
    } else if |s| >= 4 {
      CanonicalTail(s);
      SextetsUnsextets(s[4..]);
      var u := Ungroup4(s[0], s[1], s[2], s[3]);
      var rest := Unsextets(s[4..]);
      assert Unsextets(s) == u + rest;
      SextetsPrepend(u, rest);
      var g := Group3(u[0], u[1], u[2]);
      assert g == s[..4] by {
        UngroupRoundTrip(s[0], s[1], s[2], s[3]);
        assert s[..4] == [s[0], s[1], s[2], s[3]];
      }
      SplitAt(s, 4, g, Sextets(rest));
    }
  }

  /** A sequence is its prefix followed by the rest. */
  lemma SplitAt<T>(s: seq<T>, k: nat, front: seq<T>, back: seq<T>)
    requires k <= |s| && front == s[..k] && back == s[k..]
    ensures front + back == s
  {
  }

  /** Dropping a leading group of four keeps a sextet string canonical. */
  lemma CanonicalTail(s: seq<bv8>)
    requires Canonical(s) && |s| >= 4
    ensures Canonical(s[4..])
    ensures s[0] < 64 && s[1] < 64 && s[2] < 64 && s[3] < 64
  {
    var t := s[4..];
    assert forall i :: 0 <= i < |t| ==> t[i] == s[i + 4];
    assert |t| > 0 ==> t[|t| - 1] == s[|s| - 1];
  }

  /** Encoding a string of three or more bytes starts with the full group of its first three. */
  lemma SextetsPrepend(x: seq<bv8>, rest: seq<bv8>)
    requires |x| == 3
    ensures Sextets(x + rest) == Group3(x[0], x[1], x[2]) + Sextets(rest)
  {
    var b := x + rest;
    assert b[0] == x[0] && b[1] == x[1] && b[2] == x[2];
    assert b[3..] == rest;
  }

  /** The output of the encoder is always canonical. */
  lemma {:induction false} SextetsCanonical(b: seq<bv8>)
    ensures Canonical(Sextets(b))
    decreases |b|
  {
    if |b| >= 3 {
      SextetsCanonical(b[3..]);
      CanonicalPrepend(Group3(b[0], b[1], b[2]), Sextets(b[3..]));
    }
  }

  /** A full group of four sextets in front keeps a sextet string canonical. */
  lemma CanonicalPrepend(head: seq<bv8>, tail: seq<bv8>)
    requires |head| == 4 && AllSextets(head) && Canonical(tail)
    ensures Canonical(head + tail)
  {
    var s := head + tail;
    assert forall i :: 0 <= i < |s| ==> s[i] == if i < 4 then head[i] else tail[i - 4];
    assert |tail| > 0 ==> s[|s| - 1] == tail[|tail| - 1];
  }
}

=== FILE: cipher.dfy ===
/**
 The block-cipher layer both clients build on: an abstract 128-bit block
 cipher (AES in the programs) used in cipher block chaining mode (section 6.2
 of NIST SP 800-38A).

 The cipher itself is a parameter: any pair of functions in which decryption
 undoes encryption under the same key. Nothing below depends on which cipher
 it is, only on that inverse property.
 */
module Cipher {

  /** The AES block size in bytes. */
  const BlockSize: nat := 16

  /** One cipher block. */
  type Block = b: seq<bv8> | |b| == 16 witness seq(16, _ => 0)

  /** An encryption function with its inverse, both keyed by a byte string. */
  datatype BlockCipherPair = BlockCipherPair(
    encrypt: (seq<bv8>, Block) -> Block,
    decrypt: (seq<bv8>, Block) -> Block)

  /** Decryption inverts encryption under every key. */
  ghost predicate Inverts(c: BlockCipherPair) {
    forall k: seq<bv8>, b: Block :: c.decrypt(k, c.encrypt(k, b)) == b
  }

  /** A block cipher: a pair of functions of which the second inverts the first. */
  type BlockCipher = c: BlockCipherPair | Inverts(c)
    witness BlockCipherPair((k, b) => b, (k, b) => b)

  /** The defining property of a block cipher, as a lemma to call. */
  lemma DecryptEncrypt(c: BlockCipher, key: seq<bv8>, b: Block)
    ensures c.decrypt(key, c.encrypt(key, b)) == b
  {
    assert Inverts(c);
  }

  /** AES accepts keys of 128, 192 or 256 bits and rejects every other length. */
  predicate ValidKeyLength(n: nat) {
    n == 16 || n == 24 || n == 32
  }

  /** Bytewise exclusive or of two blocks. */
  function Xor(a: Block, b: Block): (r: Block)
    ensures forall i :: 0 <= i < 16 ==> r[i] == a[i] ^ b[i]
  {
    seq(16, i requires 0 <= i < 16 => a[i] ^ b[i])
  }

  /** Exclusive or with the same block twice is the identity. */
  lemma XorTwice(a: Block, b: Block)
    ensures Xor(Xor(a, b), b) == a
    ensures Xor(b, Xor(b, a)) == a
  {
    assert Xor(Xor(a, b), b) == a by {
      forall i | 0 <= i < 16 ensures Xor(Xor(a, b), b)[i] == a[i] {
        XorByte(a[i], b[i]);
      }
    }
    assert Xor(b, Xor(b, a)) == a by {
      forall i | 0 <= i < 16 ensures Xor(b, Xor(b, a))[i] == a[i] {
        XorByte(a[i], b[i]);
      }
    }
  }

  lemma XorByte(x: bv8, y: bv8)
    ensures (x ^ y) ^ y == x && y ^ (y ^ x) == x
  {
  }

  /** Encrypts whole blocks in CBC mode, chaining from `prev` (the IV for the first block). */
  function CbcEncrypt(c: BlockCipher, key: seq<bv8>, prev: Block, p: seq<bv8>): (r: seq<bv8>)
    requires |p| % 16 == 0
    ensures |r| == |p|
    decreases |p|
  {
    if |p| == 0 then []
    else
      var x := c.encrypt(key, Xor(prev, p[..16]));
      x + CbcEncrypt(c, key, x, p[16..])
  }

  /** Decrypts whole blocks in CBC mode, chaining from `prev`. */
  function CbcDecrypt(c: BlockCipher, key: seq<bv8>, prev: Block, ct: seq<bv8>): (r: seq<bv8>)
    requires |ct| % 16 == 0
    ensures |r| == |ct|
    decreases |ct|
  {
    if |ct| == 0 then []
    else
      var x: Block := ct[..16];
      Xor(c.decrypt(key, x), prev) + CbcDecrypt(c, key, x, ct[16..])
  }

  /** The ciphertext block that the next block chains from after `ct`. */
  function LastBlock(prev: Block, ct: seq<bv8>): Block
    requires |ct| % 16 == 0
  {
    if |ct| == 0 then prev else ct[|ct| - 16..]
  }

  /** CBC decryption under the same key and IV recovers the plaintext. */
  lemma {:induction false} CbcRoundTrip(c: BlockCipher, key: seq<bv8>, iv: Block, p: seq<bv8>)
    requires |p| % 16 == 0
    ensures CbcDecrypt(c, key, iv, CbcEncrypt(c, key, iv, p)) == p
    decreases |p|
  {
    if |p| > 0 {
      var ct := CbcEncrypt(c, key, iv, p);
      var x := c.encrypt(key, Xor(iv, p[..16]));
      assert ct[..16] == x;
      assert ct[16..] == CbcEncrypt(c, key, x, p[16..]);
      CbcRoundTrip(c, key, x, p[16..]);
      XorTwice(p[..16], iv);
      assert Xor(iv, p[..16]) == Xor(p[..16], iv) by {
        forall i | 0 <= i < 16 ensures Xor(iv, p[..16])[i] == Xor(p[..16], iv)[i] {
          XorCommutes(iv[i], p[i]);
        }
      }
      var p0: Block := p[..16];
      DecryptEncrypt(c, key, Xor(iv, p0));
      assert c.decrypt(key, x) == Xor(iv, p0);
      assert Xor(c.decrypt(key, x), iv) == p0;
      assert CbcDecrypt(c, key, iv, ct) == Xor(c.decrypt(key, x), iv) + CbcDecrypt(c, key, x, ct[16..]);
      assert p == p[..16] + p[16..];
    }
  }

  lemma XorCommutes(x: bv8, y: bv8)
    ensures x ^ y == y ^ x
  {
  }

  /** CBC encryption of a concatenation chains the second part from the last block of the first. */
  lemma {:induction false} CbcEncryptAppend(c: BlockCipher, key: seq<bv8>, prev: Block, a: seq<bv8>, b: seq<bv8>)
    requires |a| % 16 == 0 && |b| % 16 == 0
    ensures CbcEncrypt(c, key, prev, a + b) ==
            CbcEncrypt(c, key, prev, a) + CbcEncrypt(c, key, LastBlock(prev, CbcEncrypt(c, key, prev, a)), b)
    decreases |a|
  {
    if |a| == 0 {
      assert a + b == b;
    } else {
      var x := c.encrypt(key, Xor(prev, a[..16]));
      assert (a + b)[..16] == a[..16];
      assert (a + b)[16..] == a[16..] + b;
      CbcEncryptAppend(c, key, x, a[16..], b);
      var ca := CbcEncrypt(c, key, prev, a);
      assert ca == x + CbcEncrypt(c, key, x, a[16..]);
      if |a| > 16 {
        assert LastBlock(prev, ca) == LastBlock(x, CbcEncrypt(c, key, x, a[16..]));
      } else {
        assert a[16..] == [];
        assert LastBlock(prev, ca) == x;
      }
    }
  }

  /**
   PKCS #7 padding as the browser's crypto library applies it: always between
   1 and 16 bytes, each holding the number of bytes added.
   */
  function Pkcs7Pad(p: seq<bv8>): (r: seq<bv8>)
    ensures |r| % 16 == 0 && |p| < |r| <= |p| + 16
    ensures r[..|p|] == p
    ensures forall i :: |p| <= i < |r| ==> r[i] as int == |r| - |p|
  {
    var k := 16 - |p| % 16;
    p + seq(k, _ => k as bv8)
  }
}

=== FILE: cli.dfy ===
/**
 The command-line client (client/main.go): `secretshare send <file>` and
 `secretshare receive <id> <key>`.

 The client repeats the library's steps with its own error messages, and
 ends the process outright when an upload, a download status or the
 metadata decryption goes wrong. The key generation, the id derivation and
 the upload itself are the library's (client/main.go:110-127 and 129-197
 repeat commonlib/api.go:23-33, 244-249 and 35-98 line for line), so the
 model uses `Api`'s definitions of them. The world is an input, as in `Api`.
 */
module Cli {
  import opened Wrappers
  import opened Common
  import opened Cipher
  import Encrypter
  import Decrypter
  import Api
  import opened Clients

  // ---------------------------------------------------------------------------
  // Send
  // ---------------------------------------------------------------------------

  /** Why `send` returned an error, one case per message the client prints. */
  datatype SendError =
    | KeyLoadFailed
    | KeyGenFailed(error: StreamError)
    | FileStatFailed
    | ConnectFailed
    | EmptyServerReply
    | ServerInternalError
    | AuthenticationFailed
    | BadServerStatus(code: int)
    | ResponseReadFailed
    | MalformedResponse
    | FileReadFailed

  /** The two uploads of a send. */
  datatype UploadStage = ContentUpload | MetadataUpload

  /**
   How `send` ended: it completed, returned an error, the upload helper
   ended the process with exit status 1, or the upload helper's header merge
   panicked (`Api.MergeOne`).
   */
  datatype SendEnd =
    | Sent | Refused(error: SendError) | ExitedDuring(stage: UploadStage, cause: Api.UploadError)
    | PanickedDuring(stage: UploadStage)

  /** The end of a send, its external actions, and the receive command it printed (if it printed one). */
  datatype SendRun = SendRun(end: SendEnd, actions: seq<Api.SendAction>, instructions: Option<string>)

  /** The command line the client prints for the recipient: id, then key. */
  function ReceiveCommand(id: string, keystr: string): string {
    "secretshare receive " + id + " " + keystr
  }

  /** The steps of a send up to the uploads. */
  datatype SendPrefix =
    | Stopped(error: SendError, actions: seq<Api.SendAction>)
    | Ready(key: seq<bv8>, keystr: string, id: string, size: nat, response: UploadResponse,
            contents: seq<bv8>, post: Api.SendAction)

  /**
   Generates the key, sizes the file, asks the server for the upload URLs and
   opens the file, stopping with the client's own message at the first failure.
   */
  function SendSteps(w: Api.SendWorld, sha256: seq<bv8> -> Api.Digest, endpoint: string, secretKey: string,
                     ttl: int): (r: SendPrefix)
    requires Api.WellFormedSendWorld(w)
    ensures r.Stopped? ==> |r.actions| <= 1 && !r.error.KeyLoadFailed?
    ensures r.Ready? <==>
              && Api.GenerateKey(w.keyRandom).Success? && w.fileSize.Some?
              && w.reply.Reply? && w.reply.status == 200 && w.reply.body.Parsed? && w.fileContents.Some?
    ensures r.Ready? ==>
              && (r.key, r.keystr) == Api.GenerateKey(w.keyRandom).value
              && r.id == Api.DeriveId(sha256, r.key)
              && r.post == Api.PostUpload(endpoint + "/upload", UploadRequest(ttl, secretKey, r.id))
    ensures (r.Stopped? && r.error == AuthenticationFailed) <==>
              w.fileSize.Some? && Api.GenerateKey(w.keyRandom).Success? && w.reply.Reply? && w.reply.status == 401
  {
    match Api.GenerateKey(w.keyRandom)
    case Failure(e) => Stopped(KeyGenFailed(e), [])
    case Success(generated) =>
      var (key, keystr) := generated;
      AskServer(w, key, keystr, Api.DeriveId(sha256, key), endpoint, secretKey, ttl)
  }

  /** The client's steps once the key and the object id are known. */
  function AskServer(w: Api.SendWorld, key: seq<bv8>, keystr: string, id: string, endpoint: string, secretKey: string,
                     ttl: int): (r: SendPrefix)
    ensures r.Stopped? ==> |r.actions| <= 1 && !r.error.KeyLoadFailed?
    ensures r.Ready? <==>
              w.fileSize.Some? && w.reply.Reply? && w.reply.status == 200 && w.reply.body.Parsed? && w.fileContents.Some?
    ensures r.Ready? ==>
              && r.key == key && r.keystr == keystr && r.id == id
              && r.post == Api.PostUpload(endpoint + "/upload", UploadRequest(ttl, secretKey, id))
    ensures (r.Stopped? && r.error == AuthenticationFailed) <==>
              w.fileSize.Some? && w.reply.Reply? && w.reply.status == 401
  {
    if w.fileSize.None? then Stopped(FileStatFailed, [])
    else
      var post := Api.PostUpload(endpoint + "/upload", UploadRequest(ttl, secretKey, id));
      match w.reply
      case Unreachable => Stopped(ConnectFailed, [post])
      case EmptyReply => Stopped(EmptyServerReply, [post])
      case Reply(status, body) =>
        if status == 500 then Stopped(ServerInternalError, [post])
        else if status == 401 then Stopped(AuthenticationFailed, [post])
        else if status != 200 then Stopped(BadServerStatus(status), [post])
        else
          match body
          case ReadFailed => Stopped(ResponseReadFailed, [post])
          case Malformed => Stopped(MalformedResponse, [post])
          case Parsed(response) =>
            if w.fileContents.None? then Stopped(FileReadFailed, [post])
            else Ready(key, keystr, id, w.fileSize.value, response, w.fileContents.value, post)
  }

  /**
   The uploads of a send: the content, then (only if the process is still
   running) the metadata; then the receive command is printed.
   */
  function FinishSend(c: BlockCipher, w: Api.SendWorld, marshal: FileMetadata -> seq<bv8>, p: SendPrefix,
                      filePath: string): (r: SendRun)
    requires Api.WellFormedSendWorld(w) && p.Ready?
    ensures var uploads := Api.UploadBoth(c, w, marshal, p.key, p.size, p.response, p.contents, filePath);
            r.end.Sent? <==> w.dataOutcome == Api.Status(200) && w.metaOutcome == Api.Status(200)
                             && w.dataIvRandom.Some? && |w.dataIvRandom.value| == 16
                             && w.metaIvRandom.Some? && |w.metaIvRandom.value| == 16
                             && ValidKeyLength(|p.key|) && Api.WholeBody(uploads.0) && Api.WholeBody(uploads.1)
    ensures var uploads := Api.UploadBoth(c, w, marshal, p.key, p.size, p.response, p.contents, filePath);
            && (r.end.PanickedDuring? <==> Api.FixedSendPanics(uploads))
            && (r.end.PanickedDuring? ==> (r.end.stage == ContentUpload <==> uploads.0.UploadPanicked?))
    ensures (r.end.ExitedDuring? || r.end.PanickedDuring?) && r.end.stage == MetadataUpload ==>
              w.dataOutcome == Api.Status(200)
    ensures r.end.Sent? ==> r.instructions == Some(ReceiveCommand(p.id, p.keystr)) && |r.actions| == 3
    ensures !r.end.Sent? ==> r.instructions == None
    ensures !r.end.Refused?
  {
    var uploads := Api.UploadBoth(c, w, marshal, p.key, p.size, p.response, p.contents, filePath);
    if uploads.0.UploadPanicked? then SendRun(PanickedDuring(ContentUpload), [p.post], None)
    else if uploads.0.error.Some? then
      SendRun(ExitedDuring(ContentUpload, uploads.0.error.value), [p.post] + Api.PutActions(uploads.0), None)
    else if uploads.1.UploadPanicked? then
      SendRun(PanickedDuring(MetadataUpload), [p.post] + Api.PutActions(uploads.0), None)
    else
      var actions := [p.post] + Api.PutActions(uploads.0) + Api.PutActions(uploads.1);
      if uploads.1.error.Some? then SendRun(ExitedDuring(MetadataUpload, uploads.1.error.value), actions, None)
      else SendRun(Sent, actions, Some(ReceiveCommand(p.id, p.keystr)))
  }

  /**
   `secretshare send <file>`: loads the shared secret, then sends the file to
   the endpoint given on the command line (one trailing slash removed) and
   prints the command that receives it.
   */
  function Send(c: BlockCipher, w: Api.SendWorld, env: string, keyFile: Option<string>,
                sha256: seq<bv8> -> Api.Digest, marshal: FileMetadata -> seq<bv8>,
                endpointFlag: string, filePath: string, ttl: int): (r: SendRun)
    requires Api.WellFormedSendWorld(w)
    ensures LoadSecretKey(env, keyFile).Failure? ==> r == SendRun(Refused(KeyLoadFailed), [], None)
    ensures r.instructions.Some? <==> r.end.Sent?
    ensures r.end.Sent? ==>
              && w.keyRandom.Some?
              && r.instructions.value == ReceiveCommand(Api.DeriveId(sha256, w.keyRandom.value), EncodeForHuman(w.keyRandom.value))
              && DecodeForHuman(EncodeForHuman(w.keyRandom.value)) == Success(w.keyRandom.value)
    ensures (r.end.ExitedDuring? || r.end.PanickedDuring?) && r.end.stage == MetadataUpload ==>
              w.dataOutcome == Api.Status(200)
  {
    match LoadSecretKey(env, keyFile)
    case Failure(_) => SendRun(Refused(KeyLoadFailed), [], None)
    case Success(secretKey) =>
      var p := SendSteps(w, sha256, CleanUrl(endpointFlag), secretKey, ttl);
      if p.Stopped? then SendRun(Refused(p.error), p.actions, None)
      else FinishSend(c, w, marshal, p, filePath)
  }

  /** The library's error code for each of the client's send errors after the secret is loaded. */
  function LibraryCode(e: SendError): (r: Api.SendErrorCode)
    requires !e.KeyLoadFailed?
    ensures r == Api.ServerFailed <==>
              e.EmptyServerReply? || e.ServerInternalError? || e.AuthenticationFailed? || e.BadServerStatus?
              || e.ResponseReadFailed? || e.MalformedResponse?
  {
    match e
    case KeyGenFailed(_) => Api.KeyGenFailed
    case FileStatFailed => Api.FileOpenFailed
    case ConnectFailed => Api.ConnectionFailed
    case EmptyServerReply => Api.ServerFailed
    case ServerInternalError => Api.ServerFailed
    case AuthenticationFailed => Api.ServerFailed
    case BadServerStatus(_) => Api.ServerFailed
    case ResponseReadFailed => Api.ServerFailed
    case MalformedResponse => Api.ServerFailed
    case FileReadFailed => Api.FileOpenFailed
  }

  /** The client's steps before the uploads stop where the library's do, with the matching code. */
  lemma SendStepsAgree(w: Api.SendWorld, sha256: seq<bv8> -> Api.Digest, endpoint: string, secretKey: string, ttl: int)
    requires Api.WellFormedSendWorld(w)
    ensures var p := SendSteps(w, sha256, endpoint, secretKey, ttl);
            var q := Api.SendPrefixSteps(w, sha256, endpoint, secretKey, ttl);
            && (p.Ready? <==> q.Ready?)
            && (p.Stopped? ==> q.outcome == Api.SendOutcome(Failure(LibraryCode(p.error)), p.actions))
            && (p.Ready? ==> p == Ready(q.key, q.keystr, q.id, q.size, q.response, q.contents, q.post))
  {
    match Api.GenerateKey(w.keyRandom)
    case Failure(_) =>
    case Success(generated) =>
      AskServerAgrees(w, generated.0, generated.1, Api.DeriveId(sha256, generated.0), endpoint, secretKey, ttl);
  }

  /** The client's prefix and the library's agree: same stopping point, matching code, same values when ready. */
  predicate Matches(p: SendPrefix, q: Api.SendPrefix) {
    && (p.Ready? <==> q.Ready?)
    && (p.Stopped? ==> !p.error.KeyLoadFailed? && q.outcome == Api.SendOutcome(Failure(LibraryCode(p.error)), p.actions))
    && (p.Ready? ==> p == Ready(q.key, q.keystr, q.id, q.size, q.response, q.contents, q.post))
  }

  /** Once the key and id are known, the client's remaining steps and the library's agree. */
  lemma AskServerAgrees(w: Api.SendWorld, key: seq<bv8>, keystr: string, id: string, endpoint: string, secretKey: string,
                        ttl: int)
    ensures Matches(AskServer(w, key, keystr, id, endpoint, secretKey, ttl),
                    Api.RequestUpload(w, key, keystr, id, endpoint, secretKey, ttl))
  {
  }

  /**
   Once the secret is loaded, the client sends exactly as the library is
   meant to (`Api.SendSecretFixed`): the same actions, success in the same
   worlds, an upload failure at the same upload, and the printed command
   names the id and the key the library returns.
   */
  lemma SendAgreesWithLibrary(c: BlockCipher, w: Api.SendWorld, env: string, keyFile: Option<string>,
                              sha256: seq<bv8> -> Api.Digest, marshal: FileMetadata -> seq<bv8>,
                              endpointFlag: string, filePath: string, ttl: int, secretKey: string)
    requires Api.WellFormedSendWorld(w)
    requires LoadSecretKey(env, keyFile) == Success(secretKey)
    ensures var run := Send(c, w, env, keyFile, sha256, marshal, endpointFlag, filePath, ttl);
            var lib := Api.SendSecretFixed(c, w, sha256, marshal, CleanUrl(endpointFlag), secretKey, filePath, ttl);
            && run.actions == lib.actions
            && (run.end.Sent? <==> Api.Succeeded(lib))
            && (run.end.Sent? ==> run.instructions == Some(ReceiveCommand(lib.result.value.1, lib.result.value.0)))
            && (run.end.Refused? ==> lib == Api.SendOutcome(Failure(LibraryCode(run.end.error)), run.actions))
            && (run.end.ExitedDuring? ==>
                  lib == Api.SendOutcome(Failure(if run.end.stage == ContentUpload then Api.DataUploadFailed
                                                 else Api.MetadataUploadFailed), run.actions))
            && (run.end.PanickedDuring? <==> lib.SendPanicked?)
  {
    var endpoint := CleanUrl(endpointFlag);
    SendStepsAgree(w, sha256, endpoint, secretKey, ttl);
    var q := Api.SendPrefixSteps(w, sha256, endpoint, secretKey, ttl);
    if q.Ready? {
      FinishAgrees(c, w, marshal, SendSteps(w, sha256, endpoint, secretKey, ttl), q, filePath);
    }
  }

  /** The uploads of a ready send: the client's and the corrected library's end alike. */
  lemma FinishAgrees(c: BlockCipher, w: Api.SendWorld, marshal: FileMetadata -> seq<bv8>, p: SendPrefix,
                     q: Api.SendPrefix, filePath: string)
    requires Api.WellFormedSendWorld(w) && q.Ready? && p == Ready(q.key, q.keystr, q.id, q.size, q.response, q.contents, q.post)
    ensures var run := FinishSend(c, w, marshal, p, filePath);
            var lib := Api.FinishSendFixed(c, w, marshal, q, filePath);
            && run.actions == lib.actions
            && (run.end.Sent? <==> Api.Succeeded(lib))
            && (run.end.Sent? ==> run.instructions == Some(ReceiveCommand(lib.result.value.1, lib.result.value.0)))
            && (run.end.ExitedDuring? ==>
                  lib == Api.SendOutcome(Failure(if run.end.stage == ContentUpload then Api.DataUploadFailed
                                                 else Api.MetadataUploadFailed), run.actions))
            && (run.end.PanickedDuring? <==> lib.SendPanicked?)
  {
  }

  // ---------------------------------------------------------------------------
  // Metadata decryption
  // ---------------------------------------------------------------------------

  /** What the client's one-shot decryption gave: the plaintext, an exit with status 1, or an index panic. */
  datatype DecryptRun = Plain(bytes: seq<bv8>) | DecryptExited | DecryptPanicked

  /**
   The client's `decrypt`: the library's layout (padding length, IV, CBC
   blocks), but a length that is not a whole number of blocks and a rejected
   key end the process instead of returning an error. Reading the header of
   a body shorter than 17 bytes, or cutting more padding than there are
   bytes, panics.
   */
  function Decrypt(c: BlockCipher, ciphertext: seq<bv8>, key: seq<bv8>): (r: DecryptRun)
    ensures r.DecryptPanicked? <==> !Api.DecryptDefined(ciphertext, key)
    ensures r.Plain? ==> Api.Decrypt(c, ciphertext, key) == Success(r.bytes)
    ensures r.DecryptExited? ==> Api.Decrypt(c, ciphertext, key).Failure?
  {
    if |ciphertext| < 17 then DecryptPanicked
    else
      var paddingLen := ciphertext[0] as int;
      var iv: Block := ciphertext[1..17];
      var raw := ciphertext[17..];
      if |raw| % 16 != 0 then DecryptExited
      else if !ValidKeyLength(|key|) then DecryptExited
      else if paddingLen > |raw| then DecryptPanicked
      else Plain(CbcDecrypt(c, key, iv, raw)[..|raw| - paddingLen])
  }

  /** The client's decryption reads back the library's envelope of every message. */
  lemma DecryptEnvelope(c: BlockCipher, key: seq<bv8>, iv: Block, data: seq<bv8>)
    requires ValidKeyLength(|key|)
    ensures Decrypt(c, Encrypter.Envelope(c, key, iv, data), key) == Plain(data)
  {
    Api.DecryptEnvelope(c, key, iv, data);
  }

  // ---------------------------------------------------------------------------
  // Receive
  // ---------------------------------------------------------------------------

  /** Why `receive` returned an error, one case per message the client prints. */
  datatype RecvError =
    | InvalidKey
    | MetadataUnreachable
    | MetadataReadFailed
    | MalformedMetadata
    | AnswerReadFailed
    | DownloadAborted
    | CreateFailed
    | DataUnreachable
    | DecryptInitFailed
    | SaveFailed

  /**
   How `receive` ended: the file was saved, an error was returned, the
   process exited with status 1, or it panicked (an argument missing, or the
   metadata decryption indexing out of range).
   */
  datatype RecvEnd = Received(meta: FileMetadata) | RecvRefused(error: RecvError) | RecvExited | RecvPanicked

  /** The end of a receive and its external actions. */
  datatype RecvRun = RecvRun(end: RecvEnd, actions: seq<Api.RecvAction>)

  /** The directory the client saves into: the working directory. */
  const WorkingDir: string := "."

  /** Whether the answer to the overwrite prompt allows overwriting. */
  predicate Confirms(answer: Option<string>) {
    answer == Some("y\n") || answer == Some("Y\n")
  }

  /** How far the metadata got. */
  datatype MetaStage = MetaStopped(end: RecvEnd) | MetaOpened(meta: FileMetadata)

  /** Downloads and opens the metadata object, stopping as the client does on each failure. */
  function OpenMetadata(c: BlockCipher, reply: Api.GetReply, unmarshal: seq<bv8> -> Option<FileMetadata>,
                        key: seq<bv8>): (r: MetaStage)
    ensures r.MetaStopped? ==> !r.end.Received?
    ensures r == MetaStopped(RecvPanicked) <==> Api.Downloaded(reply) && !Api.DecryptDefined(reply.body.value, key)
    ensures r.MetaOpened? <==> Api.OpenMetadata(c, reply, unmarshal, key).MetaReady?
    ensures r.MetaOpened? ==> Api.OpenMetadata(c, reply, unmarshal, key) == Api.MetaReady(r.meta)
  {
    match reply
    case GetUnreachable => MetaStopped(RecvRefused(MetadataUnreachable))
    case GetReply(status, body) =>
      if status != 200 then MetaStopped(RecvExited)
      else if body.None? then MetaStopped(RecvRefused(MetadataReadFailed))
      else
        match Decrypt(c, body.value, key)
        case DecryptPanicked => MetaStopped(RecvPanicked)
        case DecryptExited => MetaStopped(RecvExited)
        case Plain(bytes) =>
          match unmarshal(bytes)
          case None => MetaStopped(RecvRefused(MalformedMetadata))
          case Some(meta) => MetaOpened(meta)
  }

  /**
   After the metadata: asks before overwriting an existing file, creates the
   file in the working directory, downloads the content and decrypts it into
   the file.
   */
  function SaveContent(c: BlockCipher, w: Api.RecvWorld, answer: Option<string>, meta: FileMetadata, key: seq<bv8>,
                       getMeta: Api.RecvAction, content: Api.ObjectName): (r: RecvRun)
    ensures |r.actions| > 0 && r.actions[0] == getMeta
    ensures r.end.RecvRefused? && r.end.error == DownloadAborted <==> w.fileExists && answer.Some? && !Confirms(answer)
    ensures r.end.Received? ==>
              var target := Api.FilePath(WorkingDir, meta.filename);
              && r.end.meta == meta && |r.actions| >= 4
              && r.actions[|r.actions| - 3] == Api.CreateFile(target)
              && r.actions[|r.actions| - 2] == Api.Get(content)
              && Api.Downloaded(w.dataGet)
              && Api.Download(c, w.dataGet.body.value, meta.filesize, key).1 == None
              && r.actions[|r.actions| - 1] == Api.WriteFile(target, Api.Download(c, w.dataGet.body.value, meta.filesize, key).0)
  {
    var target := Api.FilePath(WorkingDir, meta.filename);
    if w.fileExists && answer.None? then RecvRun(RecvRefused(AnswerReadFailed), [getMeta])
    else if w.fileExists && !Confirms(answer) then RecvRun(RecvRefused(DownloadAborted), [getMeta])
    else
      var removed := if w.fileExists then [Api.RemoveFile(target)] else [];
      if !w.createOk then RecvRun(RecvRefused(CreateFailed), [getMeta] + removed)
      else
        var created := [getMeta] + removed + [Api.CreateFile(target), Api.Get(content)];
        match w.dataGet
        case GetUnreachable => RecvRun(RecvRefused(DataUnreachable), created)
        case GetReply(status, body) =>
          if status != 200 then RecvRun(RecvExited, created)
          else if body.None? || Decrypter.NewDecrypter(c, body.value, meta.filesize, key, true).Failure? then
            RecvRun(RecvRefused(DecryptInitFailed), created)
          else
            var spec := Api.Download(c, body.value, meta.filesize, key);
            var actions := created + [Api.WriteFile(target, spec.0)];
            if spec.1.None? then RecvRun(Received(meta), actions) else RecvRun(RecvRefused(SaveFailed), actions)
  }

  /**
   `secretshare receive <id> <key>`: decodes the key, then downloads the
   metadata and the content of the object id given on the command line.
   */
  function Receive(c: BlockCipher, w: Api.RecvWorld, answer: Option<string>,
                   unmarshal: seq<bv8> -> Option<FileMetadata>, bucket: string, region: string,
                   args: seq<string>): (r: RecvRun)
    ensures |args| < 2 ==> r == RecvRun(RecvPanicked, [])
    ensures |args| >= 2 && DecodeForHuman(args[1]).Failure? ==> r == RecvRun(RecvRefused(InvalidKey), [])
    ensures r.actions != [] ==> r.actions[0] == Api.Get(Api.ObjectName(region, bucket, "meta/" + args[0]))
    ensures r.end.Received? ==>
              && |r.actions| >= 4
              && r.actions[|r.actions| - 2] == Api.Get(Api.ObjectName(region, bucket, args[0]))
              && r.actions[|r.actions| - 1].WriteFile?
              && r.actions[|r.actions| - 1].path == Api.FilePath(WorkingDir, r.end.meta.filename)
  {
    if |args| < 2 then RecvRun(RecvPanicked, [])
    else
      var id := args[0];
      match DecodeForHuman(args[1])
      case Failure(_) => RecvRun(RecvRefused(InvalidKey), [])
      case Success(key) =>
        var getMeta := Api.Get(Api.ObjectName(region, bucket, "meta/" + id));
        match OpenMetadata(c, w.metaGet, unmarshal, key)
        case MetaStopped(end) => RecvRun(end, [getMeta])
        case MetaOpened(meta) => SaveContent(c, w, answer, meta, key, getMeta, Api.ObjectName(region, bucket, id))
  }

  /** After the metadata, the client takes the library's steps, the prompt's answer standing for the overwrite flag. */
  lemma SaveContentAgrees(c: BlockCipher, w: Api.RecvWorld, answer: Option<string>, meta: FileMetadata, key: seq<bv8>,
                          getMeta: Api.RecvAction, content: Api.ObjectName)
    ensures var run := SaveContent(c, w, answer, meta, key, getMeta, content);
            var lib := Api.WriteTarget(c, w, meta, key, getMeta, Api.FilePath(WorkingDir, meta.filename), content, Confirms(answer));
            && run.actions == lib.actions
            && (run.end.Received? <==> lib.error == None)
            && run.end != RecvPanicked
  {
    if !(w.fileExists && !Confirms(answer)) && w.createOk {
      DownloadAgrees(c, w, meta, key);
    }
  }

  /** The download step of `SaveContent` writes what the library's content stage writes, and fails when it fails. */
  lemma DownloadAgrees(c: BlockCipher, w: Api.RecvWorld, meta: FileMetadata, key: seq<bv8>)
    ensures var stage := Api.OpenContent(c, w.dataGet, meta.filesize, key);
            && (stage.written.Some? <==>
                  Api.Downloaded(w.dataGet) && Decrypter.NewDecrypter(c, w.dataGet.body.value, meta.filesize, key, true).Success?)
            && (stage.written.Some? ==> stage.written.value == Api.Download(c, w.dataGet.body.value, meta.filesize, key).0)
            && (stage.error == None <==>
                  stage.written.Some? && Api.Download(c, w.dataGet.body.value, meta.filesize, key).1 == None)
  {
  }

  /**
   Given the id derived from the key, the client receives as the library
   does with the working directory as destination and the prompt's answer as
   the overwrite flag: the same actions, and a saved file exactly when the
   library reports no error; the library panics exactly when the client does.
   */
  lemma ReceiveAgreesWithLibrary(c: BlockCipher, w: Api.RecvWorld, answer: Option<string>,
                                 sha256: seq<bv8> -> Api.Digest, unmarshal: seq<bv8> -> Option<FileMetadata>,
                                 bucket: string, region: string, key: seq<bv8>, keystr: string)
    requires DecodeForHuman(keystr) == Success(key)
    ensures var run := Receive(c, w, answer, unmarshal, bucket, region, [Api.DeriveId(sha256, key), keystr]);
            var lib := Api.RecvSecret(c, w, sha256, unmarshal, bucket, region, key, WorkingDir, None, Confirms(answer));
            && run.actions == lib.actions
            && (run.end.Received? <==> lib.Finished? && lib.error == None)
            && (run.end == RecvPanicked <==> lib.Panicked?)
  {
    var stage := OpenMetadata(c, w.metaGet, unmarshal, key);
    if stage.MetaOpened? {
      ReceiveOpenedAgrees(c, w, answer, sha256, unmarshal, bucket, region, key, keystr, stage.meta);
    } else {
      ReceiveStoppedAgrees(c, w, answer, sha256, unmarshal, bucket, region, key, keystr);
    }
  }

  /** `ReceiveAgreesWithLibrary` once the metadata opened: both go on to the content. */
  lemma ReceiveOpenedAgrees(c: BlockCipher, w: Api.RecvWorld, answer: Option<string>,
                            sha256: seq<bv8> -> Api.Digest, unmarshal: seq<bv8> -> Option<FileMetadata>,
                            bucket: string, region: string, key: seq<bv8>, keystr: string, meta: FileMetadata)
    requires DecodeForHuman(keystr) == Success(key) && OpenMetadata(c, w.metaGet, unmarshal, key) == MetaOpened(meta)
    ensures var run := Receive(c, w, answer, unmarshal, bucket, region, [Api.DeriveId(sha256, key), keystr]);
            var lib := Api.RecvSecret(c, w, sha256, unmarshal, bucket, region, key, WorkingDir, None, Confirms(answer));
            && run.actions == lib.actions
            && (run.end.Received? <==> lib.Finished? && lib.error == None)
            && (run.end == RecvPanicked <==> lib.Panicked?)
  {
    var id := Api.DeriveId(sha256, key);
    var getMeta := Api.Get(Api.ObjectName(region, bucket, "meta/" + id));
    var content := Api.ObjectName(region, bucket, id);
    assert Receive(c, w, answer, unmarshal, bucket, region, [id, keystr]) == SaveContent(c, w, answer, meta, key, getMeta, content);
    assert Api.RecvSecret(c, w, sha256, unmarshal, bucket, region, key, WorkingDir, None, Confirms(answer))
           == Api.WriteTarget(c, w, meta, key, getMeta, Api.FilePath(WorkingDir, meta.filename), content, Confirms(answer));
    SaveContentAgrees(c, w, answer, meta, key, getMeta, content);
  }

  /** `ReceiveAgreesWithLibrary` when the metadata did not open: both stop after the one download. */
  lemma ReceiveStoppedAgrees(c: BlockCipher, w: Api.RecvWorld, answer: Option<string>,
                             sha256: seq<bv8> -> Api.Digest, unmarshal: seq<bv8> -> Option<FileMetadata>,
                             bucket: string, region: string, key: seq<bv8>, keystr: string)
    requires DecodeForHuman(keystr) == Success(key) && !OpenMetadata(c, w.metaGet, unmarshal, key).MetaOpened?
    ensures var run := Receive(c, w, answer, unmarshal, bucket, region, [Api.DeriveId(sha256, key), keystr]);
            var lib := Api.RecvSecret(c, w, sha256, unmarshal, bucket, region, key, WorkingDir, None, Confirms(answer));
            && run.actions == lib.actions
            && (run.end.Received? <==> lib.Finished? && lib.error == None)
            && (run.end == RecvPanicked <==> lib.Panicked?)
  {
    assert !Api.OpenMetadata(c, w.metaGet, unmarshal, key).MetaReady?;
  }

  // ---------------------------------------------------------------------------
  // authenticate
  // ---------------------------------------------------------------------------

  /** How `secretshare authenticate` ended. */
  datatype AuthEnd = CredentialsSaved | CredentialsNotSaved | AuthPanicked

  /**
   `secretshare authenticate`: writes its argument, as it is, to the key
   file. `writeOk` is whether the write succeeded; the second component is
   what the key file then holds (`None`: nothing known to be written).
   */
  function Authenticate(args: seq<string>, writeOk: bool): (r: (AuthEnd, Option<string>))
    ensures |args| == 0 <==> r.0 == AuthPanicked
    ensures r.0 == CredentialsSaved <==> |args| > 0 && writeOk
    ensures r.0 == CredentialsSaved ==> r.1 == Some(args[0])
    ensures r.0 != CredentialsSaved ==> r.1 == None
  {
    if |args| == 0 then (AuthPanicked, None)
    else if writeOk then (CredentialsSaved, Some(args[0]))
    else (CredentialsNotSaved, None)
  }

  /**
   A secret saved with `authenticate` is the one the next send presents when
   `SECRETSHARE_KEY` is unset, less any white space around it; a set
   variable still wins.
   */
  lemma AuthenticateThenLoad(psk: string, env: string)
    ensures var saved := Authenticate([psk], true).1;
            && LoadSecretKey("", saved) == Success(TrimSpace(psk))
            && (Trimmed(psk) ==> LoadSecretKey("", saved) == Success(psk))
            && (env != "" ==> LoadSecretKey(env, saved) == Success(env))
  {
    if Trimmed(psk) {
      TrimSpacePadded("", psk, "");
      assert "" + psk + "" == psk;
    }
  }
}

=== FILE: clients.dfy ===
/**
 The helpers both Go clients (client/main.go and guiclient/main.go) carry
 their own identical copies of: trimming the endpoint URL, loading the
 server's shared secret, and loading the `.secretsharerc` configuration.

 The environment variable, the key file and the configuration file are
 inputs; JSON decoding of the configuration is a parameter.
 */
module Clients {
  import opened Wrappers

  // ---------------------------------------------------------------------------
  // Endpoint URL
  // ---------------------------------------------------------------------------

  /** Whether a string ends with `/`. */
  predicate EndsWithSlash(s: string) {
    |s| > 0 && s[|s| - 1] == '/'
  }

  /** The endpoint URL with one trailing `/` removed, if it has one. */
  function CleanUrl(url: string): (r: string)
    ensures EndsWithSlash(url) ==> r + "/" == url
    ensures !EndsWithSlash(url) ==> r == url
  {
    if EndsWithSlash(url) then url[..|url| - 1] else url
  }

  /**
   Exactly one slash goes: a URL with a slash added comes back as it was, and
   cleaning twice changes nothing more unless the URL ended with two slashes.
   */
  lemma CleanUrlStripsOne(url: string)
    ensures CleanUrl(url + "/") == url
    ensures CleanUrl(CleanUrl(url)) == CleanUrl(url) <==> !(EndsWithSlash(url) && EndsWithSlash(url[..|url| - 1]))
  {
    assert (url + "/")[..|url|] == url;
  }

  // ---------------------------------------------------------------------------
  // Whitespace
  // ---------------------------------------------------------------------------

  /** The white space Go's `unicode.IsSpace` names one by one: ASCII white space, NEL, NBSP and the single Unicode separators. */
  const SpaceChars: set<char> := {
    '\t', '\n', '\U{B}', '\U{C}', '\r', ' ', '\U{85}', '\U{A0}', '\U{1680}',
    '\U{2028}', '\U{2029}', '\U{202F}', '\U{205F}', '\U{3000}'
  }

  /** Go's `unicode.IsSpace`: one of `SpaceChars` or in the range U+2000 to U+200A. */
  predicate IsSpace(ch: char) {
    ch in SpaceChars || '\U{2000}' <= ch <= '\U{200A}'
  }

  /** Whether every character of `s` is white space. */
  predicate AllSpace(s: string) {
    forall i :: 0 <= i < |s| ==> IsSpace(s[i])
  }

  /** The first index at or after `i` that does not hold white space (`|s|` when there is none). */
  function SkipSpace(s: string, i: nat): (n: nat)
    requires i <= |s|
    ensures i <= n <= |s|
    ensures forall k :: i <= k < n ==> IsSpace(s[k])
    ensures n < |s| ==> !IsSpace(s[n])
    decreases |s| - i
  {
    if i < |s| && IsSpace(s[i]) then SkipSpace(s, i + 1) else i
  }

  /** Scanning back from `j` but not below `lo`: the end of the text once trailing white space is dropped. */
  function SkipSpaceBack(s: string, lo: nat, j: nat): (n: nat)
    requires lo <= j <= |s|
    ensures lo <= n <= j
    ensures forall k :: n <= k < j ==> IsSpace(s[k])
    ensures n > lo ==> !IsSpace(s[n - 1])
  {
    if j > lo && IsSpace(s[j - 1]) then SkipSpaceBack(s, lo, j - 1) else j
  }

  /** Go's `strings.TrimSpace`: `s` without leading and trailing white space. */
  function TrimSpace(s: string): (r: string)
    ensures var lead := SkipSpace(s, 0);
            && lead + |r| <= |s| && r == s[lead..lead + |r|]
            && AllSpace(s[..lead]) && AllSpace(s[lead + |r|..])
    ensures r != [] ==> !IsSpace(r[0]) && !IsSpace(r[|r| - 1])
  {
    var start := SkipSpace(s, 0);
    var stop := SkipSpaceBack(s, start, |s|);
    assert AllSpace(s[..start]);
    assert AllSpace(s[stop..]);
    s[start..stop]
  }

  /** Whether `t` has no white space at either end. */
  predicate Trimmed(t: string) {
    t != [] ==> !IsSpace(t[0]) && !IsSpace(t[|t| - 1])
  }

  /** White space around a trimmed text is exactly what `TrimSpace` removes. */
  lemma TrimSpacePadded(a: string, t: string, b: string)
    requires AllSpace(a) && AllSpace(b) && Trimmed(t)
    ensures TrimSpace(a + t + b) == t
  {
    var s := a + t + b;
    var stop := |a| + |t|;
    assert forall k :: 0 <= k < |a| ==> s[k] == a[k];
    assert forall k :: stop <= k < |s| ==> s[k] == b[k - stop];
    if t == [] {
      assert SkipSpace(s, 0) == |s|;
    } else {
      assert s[|a|] == t[0] && s[stop - 1] == t[|t| - 1];
      assert SkipSpace(s, 0) == |a|;
      assert SkipSpaceBack(s, |a|, |s|) == stop;
      assert s[|a|..stop] == t;
    }
  }

  // ---------------------------------------------------------------------------
  // Shared secret
  // ---------------------------------------------------------------------------

  /** Why the shared secret could not be loaded. */
  datatype KeyLoadError = KeyFileUnreadable

  /**
   The secret the clients present to the server: `SECRETSHARE_KEY` when it is
   set and non-empty, otherwise the key file's text with surrounding white
   space removed. `keyFile` is `None` when the file could not be opened or read.
   */
  function LoadSecretKey(env: string, keyFile: Option<string>): (r: Result<string, KeyLoadError>)
    ensures env != "" ==> r == Success(env)
    ensures env == "" ==> (r.Success? <==> keyFile.Some?)
    ensures env == "" && keyFile.Some? ==> r == Success(TrimSpace(keyFile.value))
    ensures env == "" && keyFile.Some? ==> Trimmed(r.value) && |r.value| <= |keyFile.value|
  {
    if env != "" then Success(env)
    else if keyFile.None? then Failure(KeyFileUnreadable)
    else Success(TrimSpace(keyFile.value))
  }

  /** A key file holding the secret followed by a line break gives the secret; the variable wins over any file. */
  lemma KeyFileLine(env: string, secret: string, keyFile: Option<string>)
    requires Trimmed(secret)
    ensures LoadSecretKey("", Some(secret + "\n")) == Success(secret)
    ensures env != "" ==> LoadSecretKey(env, keyFile) == LoadSecretKey(env, None)
  {
    assert AllSpace("") && AllSpace("\n");
    TrimSpacePadded("", secret, "\n");
    assert "" + secret + "\n" == secret + "\n";
  }

  // ---------------------------------------------------------------------------
  // Configuration file
  // ---------------------------------------------------------------------------

  /** The client configuration: server endpoint, storage region and bucket. */
  datatype ClientConfig = ClientConfig(endpointBaseUrl: string, bucketRegion: string, bucket: string)

  /** The configuration before anything is loaded: Go's zero value. */
  const Unset: ClientConfig := ClientConfig("", "", "")

  /** What the configuration file gave: nothing, an open or read error, or its bytes. */
  datatype ConfigFile = NoConfigFile | ConfigUnreadable | ConfigText(bytes: seq<bv8>)

  /** The fields a JSON configuration object sets; a field it does not mention is `None`. */
  datatype JsonConfig = JsonConfig(endpointBaseUrl: Option<string>, bucketRegion: Option<string>, bucket: Option<string>)

  /** Why loading the configuration failed. */
  datatype ConfigError = ConfigReadFailed | ConfigMalformed

  /** A field after decoding JSON into it: the value the JSON gave, or the one it had. */
  function Overlay(given: Option<string>, current: string): (r: string)
    ensures given.Some? ==> r == given.value
    ensures given.None? ==> r == current
  {
    if given.Some? then given.value else current
  }

  /**
   Loads `.secretsharerc`: a missing file gives `defaults`; otherwise the JSON
   is decoded over the unset configuration, so the fields it leaves out stay
   empty. `unmarshal` is the JSON decoder (`None` on malformed input).
   */
  function LoadConfig(file: ConfigFile, defaults: ClientConfig,
                      unmarshal: seq<bv8> -> Option<JsonConfig>): (r: Result<ClientConfig, ConfigError>)
    ensures file.NoConfigFile? ==> r == Success(defaults)
    ensures file.ConfigUnreadable? ==> r == Failure(ConfigReadFailed)
    ensures file.ConfigText? ==> (r == Failure(ConfigMalformed) <==> unmarshal(file.bytes).None?)
    ensures file.ConfigText? && r.Success? ==>
              var j := unmarshal(file.bytes).value;
              && (j.endpointBaseUrl.Some? ==> r.value.endpointBaseUrl == j.endpointBaseUrl.value)
              && (j.bucketRegion.Some? ==> r.value.bucketRegion == j.bucketRegion.value)
              && (j.bucket.Some? ==> r.value.bucket == j.bucket.value)
              && (j.endpointBaseUrl.None? ==> r.value.endpointBaseUrl == "")
              && (j.bucketRegion.None? ==> r.value.bucketRegion == "")
              && (j.bucket.None? ==> r.value.bucket == "")
  {
    match file
    case NoConfigFile => Success(defaults)
    case ConfigUnreadable => Failure(ConfigReadFailed)
    case ConfigText(bytes) =>
      match unmarshal(bytes)
      case None => Failure(ConfigMalformed)
      case Some(j) =>
        Success(ClientConfig(Overlay(j.endpointBaseUrl, Unset.endpointBaseUrl),
                             Overlay(j.bucketRegion, Unset.bucketRegion),
                             Overlay(j.bucket, Unset.bucket)))
  }

  /**
   The defaults only stand in for a missing file: a file whose JSON sets no
   field gives the unset configuration, whatever the defaults.
   */
  lemma DefaultsOnlyWithoutFile(bytes: seq<bv8>, defaults: ClientConfig, unmarshal: seq<bv8> -> Option<JsonConfig>)
    requires unmarshal(bytes) == Some(JsonConfig(None, None, None))
    ensures LoadConfig(ConfigText(bytes), defaults, unmarshal) == Success(Unset)
    ensures LoadConfig(NoConfigFile, defaults, unmarshal) == Success(Unset) <==> defaults == Unset
  {
  }
}

=== FILE: common.dfy ===
/**
 The shared library of the Go programs (commonlib/commonlib.go): the error
 values of the streaming cipher, the wire records exchanged with the server,
 and the "human" text encoding of keys and object ids.

 The human encoding is base64 without `=` padding (sections 3.2 and 4 of
 RFC 4648) over a custom alphabet: the standard one with `/` replaced by `_`
 (so that the text is a single S3 path segment) and, unlike the standard one,
 with `z` before `y`.
 */
module Common {
  import opened Wrappers
  import Base64

  /** The error values declared by the shared library. */
  datatype StreamError =
    | BadBlockSize
    | ShortRead
    | NotEnoughKeyRandomness
    | NotEnoughIVRandomness
    | DataCorruption
    | EncrypterWeirdEOF
    | DecrypterWeirdEOF
      // errors of the Go standard library that the stream code passes on
    | RandomSourceFailed
    | KeySize
    | ShortBuffer
    | UnexpectedEOF

  /** The error a Go `Read` call reports next to its byte count: `io.EOF` or a failure. */
  datatype IoError = EOF | Error(error: StreamError)

  /**
   The request body of the server's `/upload` call: the lifetime in minutes,
   the shared secret, and the object id the sender derived. The structure in
   commonlib/commonlib.go declares only the first two fields, but every sender
   fills in the third, and the server never reads it.
   */
  datatype UploadRequest = UploadRequest(ttl: int, secretKey: string, objectId: string)

  /**
   The header set the server hands out for an upload: each header name with
   its values, listed in the order the client's map iteration visits them
   (Go randomizes that order, so it is an input here).
   */
  type Header = seq<(string, seq<string>)>

  /** The reply of the server's `/upload` call. */
  datatype UploadResponse = UploadResponse(
    id: string,
    putUrl: string,
    headers: Header,
    metaPutUrl: string,
    metaHeaders: Header)

  /** What is stored, encrypted, next to the content. */
  datatype FileMetadata = FileMetadata(filename: string, filesize: nat)

  /** `count` consecutive characters starting at `first`. */
  function CharRange(first: char, count: nat): (r: seq<char>)
    requires first as int + count <= 0xD800
    ensures |r| == count
    ensures forall i :: 0 <= i < count ==> r[i] as int == first as int + i
  {
    seq(count, i requires 0 <= i < count => (first as int + i) as char)
  }

  /**
   The 64 symbols of the human encoding, in sextet order: "A".."Z", "a".."x",
   then "z" and "y" (in that order), "0".."9", "+" and "_".
   */
  const Alphabet: seq<char> := CharRange('A', 26) + CharRange('a', 24) + "zy" + CharRange('0', 10) + "+_"

  /** The position of a symbol in `Alphabet`, or -1 for a symbol outside it. */
  function SymbolIndex(c: char): (r: int)
    ensures -1 <= r < 64
  {
    if 'A' <= c <= 'Z' then c as int - 'A' as int
    else if 'a' <= c <= 'x' then 26 + c as int - 'a' as int
    else if c == 'z' then 50
    else if c == 'y' then 51
    else if '0' <= c <= '9' then 52 + c as int - '0' as int
    else if c == '+' then 62
    else if c == '_' then 63
    else -1
  }

  /** The symbol-to-sextet table the decoder builds from `Alphabet`. */
  function SymbolValue(c: char): Option<bv8> {
    var k := SymbolIndex(c);
    if k < 0 then None else Some(k as bv8)
  }

  /** The decoding table maps the symbol at every index back to that index. */
  lemma SymbolAt(i: nat)
    requires i < 64
    ensures |Alphabet| == 64
    ensures SymbolIndex(Alphabet[i]) == i
    ensures SymbolValue(Alphabet[i]) == Some(i as bv8)
  {
    var u, l, d := CharRange('A', 26), CharRange('a', 24), CharRange('0', 10);
    assert Alphabet == u + l + "zy" + d + "+_";
    if i < 26 { assert Alphabet[i] == u[i]; }
    else if i < 50 { assert Alphabet[i] == l[i - 26]; }
    else if i < 52 { assert Alphabet[i] == "zy"[i - 50]; }
    else if i < 62 { assert Alphabet[i] == d[i - 52]; }
    else { assert Alphabet[i] == "+_"[i - 62]; }
  }

  /** No two symbols share a position. */
  lemma SymbolIndexInjective(a: char, b: char)
    requires 0 <= SymbolIndex(a) == SymbolIndex(b)
    ensures a == b
  {
  }

  /** Every symbol the decoding table knows sits in the alphabet at the index it maps to. */
  lemma IndexOf(c: char)
    requires SymbolValue(c).Some?
    ensures |Alphabet| == 64
    ensures SymbolValue(c).value < 64 && Alphabet[SymbolValue(c).value as int] == c
  {
    var k := SymbolIndex(c);
    SymbolAt(k);
    SymbolIndexInjective(c, Alphabet[k]);
    SmallByte(k);
  }

  /** A value below 64 survives the round trip through a byte. */
  lemma SmallByte(k: int)
    requires 0 <= k < 64
    ensures (k as bv8) as int == k
  {
  }

  /**
   The alphabet has 64 distinct symbols, none of them `/`, `=`, or a line
   break; index 50 is `z` and index 51 is `y`.
   */
  lemma AlphabetShape()
    ensures |Alphabet| == 64
    ensures forall i, j :: 0 <= i < j < 64 ==> Alphabet[i] != Alphabet[j]
    ensures forall i :: 0 <= i < 64 ==> Alphabet[i] !in {'/', '=', '\n', '\r'}
    ensures Alphabet[50] == 'z' && Alphabet[51] == 'y' && Alphabet[63] == '_'
  {
    forall i, j | 0 <= i < j < 64 ensures Alphabet[i] != Alphabet[j] {
      SymbolAt(i);
      SymbolAt(j);
    }
    forall i | 0 <= i < 64 ensures Alphabet[i] !in {'/', '=', '\n', '\r'} {
      SymbolAt(i);
    }
    SymbolAt(50);
    SymbolAt(51);
    SymbolAt(63);
  }

  /** Spells sextets with `Alphabet`. */
  function Spell(s: seq<bv8>): (r: string)
    requires Base64.AllSextets(s)
    ensures |r| == |s|
  {
    seq(|s|, i requires 0 <= i < |s| => Alphabet[s[i] as int])
  }

  /** Encodes binary data for copying by hand (no `=` padding). */
  function EncodeForHuman(data: seq<bv8>): (r: string)
    ensures |r| == Base64.EncodedLength(|data|)
    ensures forall i :: 0 <= i < |r| ==> r[i] in Alphabet && r[i] != '/' && r[i] != '='
  {
    var s := Base64.Sextets(data);
    AlphabetShape();
    Spell(s)
  }

  /** The decoder skips carriage returns and line feeds wherever they occur. */
  function StripLineBreaks(s: string): (r: string)
    ensures |r| <= |s|
    ensures forall c :: c in r <==> c in s && c != '\n' && c != '\r'
  {
    if |s| == 0 then []
    else if s[|s| - 1] == '\n' || s[|s| - 1] == '\r' then StripLineBreaks(s[..|s| - 1])
    else StripLineBreaks(s[..|s| - 1]) + [s[|s| - 1]]
  }

  /** Looks every symbol up in the decoding table; `None` if one is missing. */
  function SymbolValues(s: string): (r: Option<seq<bv8>>)
    ensures r.Some? <==> forall i :: 0 <= i < |s| ==> SymbolValue(s[i]).Some?
    ensures r.Some? ==> |r.value| == |s| && Base64.AllSextets(r.value)
    ensures r.Some? ==> forall i :: 0 <= i < |s| ==> r.value[i] == SymbolValue(s[i]).value
  {
    if |s| == 0 then Some([])
    else
      match SymbolValue(s[|s| - 1])
      case None => None
      case Some(v) =>
        IndexOf(s[|s| - 1]);
        match SymbolValues(s[..|s| - 1])
        case None => None
        case Some(vs) => Some(vs + [v])
  }

  /** The single decoding error: a symbol outside the alphabet, or a length of 4k+1. */
  datatype CorruptInput = CorruptInput

  /** Decodes the human encoding back to binary data. */
  function DecodeForHuman(human: string): (r: Result<seq<bv8>, CorruptInput>)
    ensures r.Success? <==>
              && (forall c :: c in human && c != '\n' && c != '\r' ==> SymbolValue(c).Some?)
              && |StripLineBreaks(human)| % 4 != 1
  {
    var text := StripLineBreaks(human);
    match SymbolValues(text)
    case None =>
      var j :| 0 <= j < |text| && SymbolValue(text[j]).None?;
      assert text[j] in human;
      Failure(CorruptInput)
    case Some(s) =>
      assert forall c :: c in text ==> c in human;
      if |s| % 4 == 1 then Failure(CorruptInput) else Success(Base64.Unsextets(s))
  }

  /** Looking up spelled sextets gives the sextets back. */
  lemma SymbolValuesSpell(s: seq<bv8>)
    requires Base64.AllSextets(s)
    ensures SymbolValues(Spell(s)) == Some(s)
  {
    var text := Spell(s);
    forall i | 0 <= i < |text| ensures SymbolValue(text[i]) == Some(s[i]) {
      SymbolAt(s[i] as int);
    }
    var r := SymbolValues(text);
    assert r.Some?;
    assert r.value == s;
  }

  /** Decoding the encoding of any byte string gives back that byte string. */
  lemma DecodeEncode(data: seq<bv8>)
    ensures DecodeForHuman(EncodeForHuman(data)) == Success(data)
  {
    var s := Base64.Sextets(data);
    var text := EncodeForHuman(data);
    assert text == Spell(s);
    StripNothing(text);
    SymbolValuesSpell(s);
    Base64.UnsextetsSextets(data);
  }

  lemma {:induction false} StripNothing(s: string)
    requires forall i :: 0 <= i < |s| ==> s[i] != '\n' && s[i] != '\r'
    ensures StripLineBreaks(s) == s
  {
    if |s| > 0 {
      StripNothing(s[..|s| - 1]);
      assert s == s[..|s| - 1] + [s[|s| - 1]];
    }
  }

  /**
   Encoding the decoding of accepted text gives back that text exactly when
   the text is line-break free and its final symbol carries no stray low bits;
   in particular distinct 43-symbol texts can decode to the same key.
   */
  lemma EncodeDecode(human: string)
    requires DecodeForHuman(human).Success?
    requires forall i :: 0 <= i < |human| ==> human[i] != '\n' && human[i] != '\r'
    requires Base64.Canonical(SymbolValues(human).value)
    ensures EncodeForHuman(DecodeForHuman(human).value) == human
  {
    StripNothing(human);
    var s := SymbolValues(human).value;
    Base64.SextetsUnsextets(s);
    forall i | 0 <= i < |human| ensures EncodeForHuman(DecodeForHuman(human).value)[i] == human[i] {
      IndexOf(human[i]);
    }
  }

  /** Any symbol outside the alphabet other than a line break, `/` and `=` among them, is rejected. */
  lemma DecodeRejectsForeignSymbol(human: string, i: nat)
    requires i < |human|
    requires human[i] !in Alphabet && human[i] != '\n' && human[i] != '\r'
    ensures DecodeForHuman(human).Failure?
  {
    if SymbolValue(human[i]).Some? {
      IndexOf(human[i]);
    }
  }

  /** Stripping distributes over concatenation. */
  lemma {:induction false} StripConcat(x: string, y: string)
    ensures StripLineBreaks(x + y) == StripLineBreaks(x) + StripLineBreaks(y)
    decreases |y|
  {
    if |y| > 0 {
      var y' := y[..|y| - 1];
      assert (x + y)[..|x + y| - 1] == x + y';
      StripConcat(x, y');
    } else {
      assert x + y == x;
    }
  }

  /** A line break anywhere in the text leaves the decoded result unchanged. */
  lemma DecodeIgnoresLineBreak(before: string, brk: char, after: string)
    requires brk == '\n' || brk == '\r'
    ensures DecodeForHuman(before + [brk] + after) == DecodeForHuman(before + after)
  {
    StripConcat(before, [brk]);
    StripConcat(before + [brk], after);
    StripConcat(before, after);
    assert StripLineBreaks([brk]) == [] by {
      assert [brk][..0] == [];
    }
    assert forall c :: c in before + [brk] + after && c != '\n' && c != '\r' <==> c in before + after && c != '\n' && c != '\r';
  }

  /**
   The decoder ignores the unused low bits of a final partial group, so
   distinct texts decode to the same bytes: "AA" and "AB" both give one zero byte.
   */
  lemma DecodeNotInjective()
    ensures DecodeForHuman("AA") == DecodeForHuman("AB") == Success([0])
  {
    StripNothing("AA");
    StripNothing("AB");
    assert SymbolValue('A') == Some(0) && SymbolValue('B') == Some(1);
    assert "AA"[0] == 'A' && "AA"[1] == 'A' && "AB"[1] == 'B';
    var aa, ab := SymbolValues("AA"), SymbolValues("AB");
    assert aa.Some? && |aa.value| == 2 && aa.value[0] == 0 && aa.value[1] == 0;
    assert aa.value == [0, 0];
    assert ab.Some? && |ab.value| == 2 && ab.value[0] == 0 && ab.value[1] == 1;
    assert ab.value == [0, 1];
  }

  /** Keys and SHA-256 digests (32 bytes) always encode to 43 symbols. */
  lemma DigestEncodingLength(data: seq<bv8>)
    requires |data| == 32
    ensures |EncodeForHuman(data)| == 43
  {
  }
}

=== FILE: copying.dfy ===
/**
 Copying a reader to its end the way Go's consumers do. `io.Copy`, and the
 body writer of net/http, read with a buffer of fixed size and stop at the
 first read that returns `io.EOF`, keeping the bytes that read returned and
 never reading again. A reader that reports `io.EOF` in a read that still
 leaves bytes behind loses those bytes.
 */
module Copying {
  import opened Wrappers

  /**
   How many of the `total` bytes a reader holds a consumer gets when it reads
   `n` bytes at a time and the reader reports `io.EOF` in the read that
   reaches offset `early` (`None`: only once everything is delivered). The
   first read reaches offsets 0 to `n`, the second `n + 1` to `2n`, and so on.
   */
  function Copied(total: nat, early: Option<nat>, n: nat): (r: nat)
    requires n > 0
    ensures r <= total
    ensures early.None? ==> r == total
    ensures r < total ==> && early.Some? && r >= n && r % n == 0
                          && (r == n || r - n < early.value) && early.value <= r
    decreases total
  {
    if total <= n then total
    else if early.Some? && early.value <= n then n
    else
      var rest := Copied(total - n, if early.Some? then Some(early.value - n) else None, n);
      ModStep(n + rest, n);
      n + rest
  }

  /** A full read that does not reach the early offset leaves the rest to copy. */
  lemma CopiedStep(total: nat, early: nat, n: nat)
    requires 0 < n < early && n <= total
    ensures Copied(total, Some(early), n) == n + Copied(total - n, Some(early - n), n)
  {
  }

  /** A reader whose early `io.EOF` comes at or after its end loses nothing. */
  lemma {:induction false} CopiedLate(total: nat, early: nat, n: nat)
    requires n > 0 && early >= total
    ensures Copied(total, Some(early), n) == total
    decreases total
  {
    if total > n {
      CopiedLate(total - n, early - n, n);
    }
  }

  /**
   The consumer gets everything exactly when the whole reader fits in one
   read, or the last read, the one that reaches offset `total - 1`, starts
   after the early offset.
   */
  lemma {:induction false} CopiedAll(total: nat, early: nat, n: nat)
    requires n > 0 && early < total
    ensures Copied(total, Some(early), n) == total <==> total <= n || (total - 1) % n >= total - early
    decreases total
  {
    if total <= n {
    } else if early <= n {
      assert Copied(total, Some(early), n) == n;
      ModStep(total - 1, n);
      ModAtMost(total - 1 - n, n);
      assert (total - 1) % n < total - early;
    } else {
      var rest := Copied(total - n, Some(early - n), n);
      assert Copied(total, Some(early), n) == n + rest;
      CopiedAll(total - n, early - n, n);
      ModStep(total - 1, n);
      if total - n <= n {
        ModBelow(total - 1 - n, n);
      }
    }
  }

  /**
   How one read of `got` bytes that reports nothing moves the count on: the
   `left` bytes after it remain, and an early `io.EOF` ahead is `got` bytes
   nearer, which can only be when the read filled its buffer of `n` bytes.
   */
  predicate ShiftedEarly(total: nat, got: nat, left: nat, early: Option<nat>, early2: Option<nat>, n: nat) {
    && got + left == total
    && (early.None? ==> early2.None?)
    && (early.Some? ==> got == n && n < early.value && early2 == Some(early.value - n))
  }

  /** After such a read, the consumer's count is that read plus the count of the rest. */
  lemma CopiedAfterRead(total: nat, got: nat, left: nat, early: Option<nat>, early2: Option<nat>, n: nat)
    requires n > 0 && ShiftedEarly(total, got, left, early, early2, n)
    ensures got + Copied(left, early2, n) == Copied(total, early, n)
  {
    if early.Some? {
      CopiedStep(total, early.value, n);
    }
  }

  /** An early `io.EOF` at a whole number of reads, short of the end, ends the copy right there. */
  lemma {:induction false} CopiedAtMultiple(total: nat, q: nat, n: nat)
    requires n > 0 && q > 0 && q * n < total
    ensures Copied(total, Some(q * n), n) == q * n
    decreases q
  {
    if q > 1 {
      assert q * n - n == (q - 1) * n;
      CopiedAtMultiple(total - n, q - 1, n);
      CopiedStep(total, q * n, n);
    }
  }

  lemma ModBelow(x: nat, n: nat)
    requires x < n
    ensures x % n == x
  {
  }

  lemma {:induction false} ModMultipleAdd(q: nat, x: nat, n: nat)
    requires n > 0
    ensures (n * q + x) % n == x % n
  {
    if q > 0 {
      ModStep(n * q + x, n);
      assert n * q + x - n == n * (q - 1) + x;
      ModMultipleAdd(q - 1, x, n);
    }
  }

  lemma ModStep(x: nat, n: nat)
    requires 0 < n <= x
    ensures x % n == (x - n) % n
  {
    var k := (x - n) / n - x / n + 1;
    assert k * n == x % n - (x - n) % n;
    MultipleWithinBound(k, n);
  }

  lemma MultipleWithinBound(k: int, n: int)
    requires n > 0 && -n < k * n < n
    ensures k == 0
  {
    assert k >= 1 ==> k * n >= n;
    assert k <= -1 ==> k * n <= -n;
  }

  lemma ModAtMost(x: nat, n: nat)
    requires n > 0
    ensures x % n <= x
  {
    assert n * (x / n) >= 0;
  }
}

=== FILE: decrypter.dfy ===
/**
 The streaming decrypter (commonlib/decrypter.go): a reader that takes a
 secretshare envelope apart again. It checks the padding-length header
 against the announced message size, decrypts block by block in CBC mode,
 and stops as soon as the announced number of bytes has been delivered, so
 that the fill of the last block is never handed out.

 The envelope source is the sequence of bytes not yet read from it, and a
 block read gets its 16 bytes whenever they are there. Sources differ in when
 they report `io.EOF`: a `bytes.Buffer` only on the read after its last
 byte, an HTTP response body with a known length together with its last
 bytes. The reader's flag `eofWithData` says which kind it reads.
 */
module Decrypter {
  import opened Wrappers
  import opened Common
  import opened Cipher
  import Encrypter
  import Copying

  /** The longest prefix of `s` made of whole blocks. */
  function FullBlocks(s: seq<bv8>): (r: seq<bv8>)
    ensures |r| % 16 == 0 && |s| - 16 < |r| <= |s| && r == s[..|r|]
  {
    s[..|s| - |s| % 16]
  }

  /** The reader's state. */
  datatype Decrypter = Decrypter(
    cipher: BlockCipher,
    key: seq<bv8>,
    stream: seq<bv8>,           // envelope bytes not yet read
    eofWithData: bool,          // the source reports `io.EOF` with its last bytes
    paddingLen: bv8,
    chain: Block,               // the CBC chaining value: the IV, then the last ciphertext block
    nextBlock: Option<Block>,   // the decrypted block being handed out
    blockPos: nat,              // bytes of `nextBlock` already handed out
    messageSize: nat,
    totalRead: nat)

  /** Consistency of a reachable state. */
  predicate Valid(d: Decrypter) {
    d.blockPos <= 16 && (d.nextBlock.Some? ==> d.blockPos < 16)
  }

  /**
   What loading a block found. `Loaded(eof)`: a whole block, with `eof` when
   the source reported `io.EOF` together with it.
   */
  datatype BlockOutcome = Loaded(eof: bool) | AtEnd | Truncated

  /**
   Reads and decrypts the next block. An envelope that ends on a block
   boundary gives `AtEnd`; one that ends inside a block gives `Truncated`
   (the library's data-corruption error). Only `Loaded` leaves a block
   loaded, and its `io.EOF` comes with the last block of a source that
   reports it with its last bytes.
   */
  function ReadBlock(d: Decrypter): (r: (Decrypter, BlockOutcome))
    ensures Valid(r.0) && r.0.blockPos == 0 && r.0.eofWithData == d.eofWithData
    ensures r.0.messageSize == d.messageSize && r.0.totalRead == d.totalRead
    ensures r.1.Loaded? <==> |d.stream| >= 16
    ensures r.1 == AtEnd <==> d.stream == []
    ensures r.0.nextBlock.Some? <==> r.1.Loaded?
    ensures r.1.Loaded? ==>
              && r.1.eof == (d.eofWithData && |d.stream| == 16)
              && r.0.stream == d.stream[16..]
              && r.0.nextBlock.value + CbcDecrypt(r.0.cipher, r.0.key, r.0.chain, FullBlocks(r.0.stream))
                 == CbcDecrypt(d.cipher, d.key, d.chain, FullBlocks(d.stream))
              && |r.0.stream| % 16 == |d.stream| % 16
              && r.0.cipher == d.cipher && r.0.key == d.key
  {
    var s := d.stream;
    if |s| == 0 then
      (d.(nextBlock := None, blockPos := 0), AtEnd)
    else if |s| < 16 then
      (d.(nextBlock := None, blockPos := 0, stream := []), Truncated)
    else
      var x: Block := s[..16];
      var plain := Xor(d.cipher.decrypt(d.key, x), d.chain);
      assert FullBlocks(s) == x + FullBlocks(s[16..]);
      (d.(nextBlock := Some(plain), blockPos := 0, chain := x, stream := s[16..]), Loaded(d.eofWithData && |s| == 16))
  }

  /**
   Everything a caller would receive from this state if every block were
   handed out before the end is reported, with the error that ends it
   (`None` for a clean `io.EOF`). A reader with no block loaded only ever
   reports the library's "read 0 bytes with no EOF" error.
   */
  function Future(d: Decrypter): (seq<bv8>, Option<StreamError>)
    requires Valid(d)
  {
    if d.nextBlock.None? then ([], Some(DecrypterWeirdEOF))
    else
      var avail := d.nextBlock.value[d.blockPos..] + CbcDecrypt(d.cipher, d.key, d.chain, FullBlocks(d.stream));
      if d.totalRead < d.messageSize && d.messageSize - d.totalRead <= |avail| then
        (avail[..d.messageSize - d.totalRead], None)
      else if |d.stream| % 16 != 0 then (avail, Some(DataCorruption))
      else (avail, None)
  }

  /** A reader with a block loaded has something ahead. */
  lemma FutureNonEmpty(d: Decrypter)
    requires Valid(d) && d.nextBlock.Some?
    ensures |Future(d).0| > 0
  {
  }

  /** Why the copying loop of `Read` stopped. */
  datatype Stop =
    | Running(eofSeen: bool)  // the buffer filled or nothing was loaded; `eofSeen`: a block came with `io.EOF`
    | Exhausted               // the envelope ended on a block boundary
    | SizeReached             // the announced message size was reached
    | Corrupted               // the envelope ended inside a block

  /**
   The copying loop of `Read`: hands out up to `room` bytes, never past the
   announced message size, loading the next block whenever the current one
   is used up. A block that comes with `io.EOF` is handed out like any other;
   the loop only remembers the `io.EOF`.
   */
  function Drain(d: Decrypter, room: nat): (r: (seq<bv8>, Decrypter, Stop))
    requires Valid(d)
    ensures Valid(r.1) && r.1.eofWithData == d.eofWithData
    ensures r.2.Running? ==>
              && (d.nextBlock.Some? ==> r.1.nextBlock.Some?)
              && Future(d) == (r.0 + Future(r.1).0, Future(r.1).1)
    ensures r.2 == Running(true) ==> d.eofWithData && d.nextBlock.Some?
    ensures !r.2.Running? ==> r.0 == Future(d).0 && r.0 != [] && r.1.nextBlock.None?
    ensures r.2 == Exhausted || r.2 == SizeReached ==> Future(d).1 == None
    ensures r.2 == Corrupted ==> Future(d).1 == Some(DataCorruption)
    ensures room > 0 && d.nextBlock.Some? ==> |r.0| > 0
    decreases room, 1
  {
    if room == 0 || d.nextBlock.None? then
      assert [] + Future(d).0 == Future(d).0;
      ([], d, Running(false))
    else
      var blk := d.nextBlock.value;
      var k0 := Encrypter.Min(room, 16 - d.blockPos);
      var limited := d.totalRead < d.messageSize && d.messageSize - d.totalRead <= k0;
      var k := if limited then d.messageSize - d.totalRead else k0;
      var chunk := blk[d.blockPos..d.blockPos + k];
      var d1 := d.(blockPos := d.blockPos + k, totalRead := d.totalRead + k);
      if limited then
        FutureAfterChunk(d, k);
        (chunk, d1.(nextBlock := None), SizeReached)
      else if d.blockPos + k == 16 then
        DrainAcross(d, room, k)
      else
        FutureAfterChunk(d, k);
        (chunk, d1, Running(false))
  }

  /** `Drain` once the copy of `k` bytes used up the current block: loads the next block and goes on. */
  function DrainAcross(d: Decrypter, room: nat, k: nat): (r: (seq<bv8>, Decrypter, Stop))
    requires Valid(d) && d.nextBlock.Some? && 0 < k <= room && d.blockPos + k == 16
    requires !(d.totalRead < d.messageSize && d.messageSize - d.totalRead <= k)
    ensures Valid(r.1) && r.1.eofWithData == d.eofWithData
    ensures r.2.Running? ==>
              && r.1.nextBlock.Some?
              && Future(d) == (r.0 + Future(r.1).0, Future(r.1).1)
    ensures r.2 == Running(true) ==> d.eofWithData
    ensures !r.2.Running? ==> r.0 == Future(d).0 && r.0 != [] && r.1.nextBlock.None?
    ensures r.2 == Exhausted || r.2 == SizeReached ==> Future(d).1 == None
    ensures r.2 == Corrupted ==> Future(d).1 == Some(DataCorruption)
    ensures |r.0| > 0
    decreases room, 0
  {
    var chunk := d.nextBlock.value[d.blockPos..d.blockPos + k];
    var d1 := d.(blockPos := d.blockPos + k, totalRead := d.totalRead + k);
    var loaded := ReadBlock(d1);
    FutureAcrossBlock(d, k);
    match loaded.1
    case Loaded(eof) =>
      var rest := Drain(loaded.0, room - k);
      Encrypter.Regroup(chunk, rest.0, Future(rest.1).0);
      (chunk + rest.0, rest.1, if eof && rest.2 == Running(false) then Running(true) else rest.2)
    case AtEnd => (chunk, loaded.0, Exhausted)
    case Truncated => (chunk, loaded.0, Corrupted)
  }

  /**
   Using up the loaded block, short of the size limit, moves its rest from
   the future to the output; what follows is the future after the next load.
   */
  lemma FutureAcrossBlock(d: Decrypter, k: nat)
    requires Valid(d) && d.nextBlock.Some? && 0 < k && d.blockPos + k == 16
    requires !(d.totalRead < d.messageSize && d.messageSize - d.totalRead <= k)
    ensures
      var chunk := d.nextBlock.value[d.blockPos..d.blockPos + k];
      var loaded := ReadBlock(d.(blockPos := d.blockPos + k, totalRead := d.totalRead + k));
      && (loaded.1.Loaded? ==> Future(d) == (chunk + Future(loaded.0).0, Future(loaded.0).1))
      && (loaded.1 == AtEnd ==> Future(d) == (chunk, None))
      && (loaded.1 == Truncated ==> Future(d) == (chunk, Some(DataCorruption)))
  {
    FutureAfterChunk(d, k);
    var chunk := d.nextBlock.value[d.blockPos..d.blockPos + k];
    if |d.stream| < 16 {
      assert FullBlocks(d.stream) == [];
      assert chunk + [] == chunk;
    }
  }

  /** Handing out `k` bytes of the loaded block, short of the size limit, moves them from the future to the output. */
  lemma FutureAfterChunk(d: Decrypter, k: nat)
    requires Valid(d) && d.nextBlock.Some? && 0 < k <= 16 - d.blockPos
    ensures
      var d1 := d.(blockPos := d.blockPos + k, totalRead := d.totalRead + k);
      var chunk := d.nextBlock.value[d.blockPos..d.blockPos + k];
      && (d.totalRead < d.messageSize && d.messageSize - d.totalRead == k ==> Future(d) == (chunk, None))
      && (!(d.totalRead < d.messageSize && d.messageSize - d.totalRead <= k) && d.blockPos + k < 16 ==>
            Future(d) == (chunk + Future(d1).0, Future(d1).1))
      && (!(d.totalRead < d.messageSize && d.messageSize - d.totalRead <= k) && d.blockPos + k == 16 ==>
            var tail := CbcDecrypt(d.cipher, d.key, d.chain, FullBlocks(d.stream));
            && (d.totalRead + k < d.messageSize && d.messageSize - (d.totalRead + k) <= |tail| ==>
                  Future(d) == (chunk + tail[..d.messageSize - (d.totalRead + k)], None))
            && (!(d.totalRead + k < d.messageSize && d.messageSize - (d.totalRead + k) <= |tail|) ==>
                  Future(d) == (chunk + tail, if |d.stream| % 16 != 0 then Some(DataCorruption) else None)))
  {
    var blk := d.nextBlock.value;
    var tail := CbcDecrypt(d.cipher, d.key, d.chain, FullBlocks(d.stream));
    var avail := blk[d.blockPos..] + tail;
    var chunk := blk[d.blockPos..d.blockPos + k];
    assert avail == chunk + (blk[d.blockPos + k..] + tail);
    if d.totalRead < d.messageSize && d.messageSize - d.totalRead == k {
      assert avail[..k] == chunk;
    }
    if d.totalRead + k < d.messageSize {
      var m := d.messageSize - d.totalRead;
      if m <= |avail| {
        assert avail[..m] == chunk + (blk[d.blockPos + k..] + tail)[..m - k];
      }
    }
  }

  /** The outcome of one `Read` call: the bytes written, the error returned, and the new state. */
  datatype ReadResult = ReadResult(data: seq<bv8>, err: Option<IoError>, next: Decrypter)

  /**
   One `Read` into a buffer of `n` bytes, as the library implements it. A
   block load that comes with `io.EOF` makes the call return `io.EOF`, even
   when the buffer filled before that block was used up. A call that writes
   nothing drops the loaded block, so a later call reports the "read 0 bytes
   with no EOF" error.
   */
  function Read(d: Decrypter, n: nat): (r: ReadResult)
    requires Valid(d)
    ensures Valid(r.next) && r.next.eofWithData == d.eofWithData
    ensures n > 0 && r.err == None ==>
              r.data != [] && Future(d) == (r.data + Future(r.next).0, Future(r.next).1)
    ensures n > 0 && r.err == Some(EOF) ==> Future(d).0 == r.data + Future(r.next).0
    ensures n > 0 && r.err == Some(EOF) && !d.eofWithData ==> Future(d) == (r.data, None)
    ensures n > 0 && r.err.Some? && r.err.value.Error? ==> Future(d) == (r.data, Some(r.err.value.error))
    ensures r.data == [] ==> r.next.nextBlock.None?
  {
    var drained := Drain(d, n);
    var out := drained.0;
    match drained.2
    case SizeReached => ReadResult(out, Some(EOF), drained.1)
    case Exhausted => ReadResult(out, Some(EOF), drained.1)
    case Corrupted => ReadResult(out, Some(Error(DataCorruption)), drained.1)
    case Running(eofSeen) =>
      var next := if |out| == 0 then drained.1.(nextBlock := None) else drained.1;
      var err := if eofSeen then Some(EOF) else if |out| == 0 then Some(Error(DecrypterWeirdEOF)) else None;
      ReadResult(out, err, next)
  }

  /** The first `Read` on a reader with nothing to hand out reports the library's "read 0 bytes" error. */
  lemma NothingLoadedIsWeirdEof(d: Decrypter, n: nat)
    requires Valid(d) && d.nextBlock.None?
    ensures Read(d, n) == ReadResult([], Some(Error(DecrypterWeirdEOF)), d)
  {
  }

  /**
   Builds the reader from an envelope: checks that a 17-byte header is there
   and that its padding length matches the announced message size, sets up
   the cipher, and loads the first block. An `io.EOF` that comes with the
   first block is ignored.
   */
  function NewDecrypter(c: BlockCipher, src: seq<bv8>, messageSize: nat, key: seq<bv8>, eofWithData: bool): (r: Result<Decrypter, StreamError>)
    ensures |src| < 17 ==> r == Failure(UnexpectedEOF)
    ensures |src| >= 17 && src[0] as nat != Encrypter.PaddingLen(messageSize) ==> r == Failure(DataCorruption)
    ensures r.Success? <==>
              && |src| >= 17 && src[0] as nat == Encrypter.PaddingLen(messageSize) && ValidKeyLength(|key|)
              && (|src| == 17 || |src| >= 33)
    ensures r.Success? ==> Valid(r.value) && r.value.totalRead == 0 && r.value.messageSize == messageSize
    ensures r.Success? ==> r.value.eofWithData == eofWithData && r.value.blockPos == 0
    ensures r.Success? && r.value.nextBlock.Some? ==>
              && r.value.nextBlock.value + CbcDecrypt(c, key, r.value.chain, FullBlocks(r.value.stream))
                 == CbcDecrypt(c, key, src[1..17], FullBlocks(src[17..]))
              && r.value.stream == src[33..]
    ensures r.Success? ==> (r.value.nextBlock.None? <==> |src| == 17) && (|src| == 17 ==> r.value.stream == [])
  {
    var pad := Encrypter.PaddingLen(messageSize);
    if |src| < 17 then Failure(UnexpectedEOF)
    else if src[0] != pad as bv8 then Failure(DataCorruption)
    else if !ValidKeyLength(|key|) then Failure(KeySize)
    else
      var loaded := ReadBlock(Decrypter(c, key, src[17..], eofWithData, pad as bv8, src[1..17], None, 0, messageSize, 0));
      if loaded.1 == Truncated then Failure(DataCorruption) else Success(loaded.0)
  }

  /**
   What `NewDecrypter` followed by reading to the end yields when every
   block is handed out before the end is reported, in closed form: the
   decrypted whole blocks after the header, cut at the announced size, with
   the error the library reports.
   */
  function DecryptSpec(c: BlockCipher, src: seq<bv8>, messageSize: nat, key: seq<bv8>): (seq<bv8>, Option<StreamError>) {
    if |src| < 17 then ([], Some(UnexpectedEOF))
    else if src[0] as nat != Encrypter.PaddingLen(messageSize) then ([], Some(DataCorruption))
    else if !ValidKeyLength(|key|) then ([], Some(KeySize))
    else if 17 < |src| < 33 then ([], Some(DataCorruption))
    else
      var plain := CbcDecrypt(c, key, src[1..17], FullBlocks(src[17..]));
      if |plain| == 0 then ([], Some(DecrypterWeirdEOF))
      else if 0 < messageSize <= |plain| then (plain[..messageSize], None)
      else if |src[17..]| % 16 != 0 then (plain, Some(DataCorruption))
      else (plain, None)
  }

  /** A fresh reader's future is the closed form. */
  lemma FutureOfNewDecrypter(c: BlockCipher, src: seq<bv8>, messageSize: nat, key: seq<bv8>, eofWithData: bool)
    requires NewDecrypter(c, src, messageSize, key, eofWithData).Success?
    ensures Future(NewDecrypter(c, src, messageSize, key, eofWithData).value) == DecryptSpec(c, src, messageSize, key)
  {
  }

  /**
   Where the block that comes with `io.EOF` starts among the bytes still
   ahead of the reader: the last block of a source that reports `io.EOF` with
   its last bytes and holds whole blocks. `None` when no such load is ahead.
   */
  function LoadAt(d: Decrypter): Option<nat>
    requires Valid(d)
  {
    if d.eofWithData && |d.stream| >= 16 && |d.stream| % 16 == 0 then Some(|d.stream| - d.blockPos) else None
  }

  /**
   The counting facts of the copying loop, in terms of `Copying.Copied`: it
   hands out `room` bytes or all that is ahead; it returns with the `io.EOF`
   of a block load exactly when that load starts within `room` and the
   output stops short of the end; and a loop that ran out of room leaves
   the `io.EOF` load that much nearer.
   */
  predicate DrainCounts(d: Decrypter, room: nat, r: (seq<bv8>, Decrypter, Stop))
    requires Valid(d) && Valid(r.1)
  {
    var total := |Future(d).0|;
    var early := LoadAt(d);
    && |r.0| == Encrypter.Min(room, total)
    && (r.2 == Running(true) <==> early.Some? && early.value <= room < total)
    && (r.2 == Running(false) && d.nextBlock.Some? ==>
          |r.0| == room && Copying.ShiftedEarly(total, room, |Future(r.1).0|, early, LoadAt(r.1), room))
  }

  /** The copying loop keeps the counting facts. */
  lemma {:induction false} DrainCount(d: Decrypter, room: nat)
    requires Valid(d)
    ensures DrainCounts(d, room, Drain(d, room))
    decreases room, 1
  {
    if room == 0 || d.nextBlock.None? {
      DrainCountIdle(d, room);
    } else {
      var k0 := Encrypter.Min(room, 16 - d.blockPos);
      if d.totalRead < d.messageSize && d.messageSize - d.totalRead <= k0 {
        DrainCountLimited(d, room);
      } else if d.blockPos + k0 == 16 {
        DrainAcrossCount(d, room, k0);
      } else {
        DrainCountWithin(d, room);
      }
    }
  }

  /** The counting facts when the loop starts crossing a block boundary. */
  lemma {:induction false} DrainAcrossCount(d: Decrypter, room: nat, k: nat)
    requires Valid(d) && d.nextBlock.Some? && 0 < k <= room && d.blockPos + k == 16
    requires !(d.totalRead < d.messageSize && d.messageSize - d.totalRead <= k)
    ensures DrainCounts(d, room, DrainAcross(d, room, k))
    decreases room, 0
  {
    var loaded := ReadBlock(d.(blockPos := d.blockPos + k, totalRead := d.totalRead + k));
    if loaded.1.Loaded? {
      DrainCount(loaded.0, room - k);
      DrainLoadedCount(d, room, k);
    } else {
      DrainEndCount(d, room, k);
    }
  }

  /** No room or no block: nothing is handed out. */
  lemma DrainCountIdle(d: Decrypter, room: nat)
    requires Valid(d) && (room == 0 || d.nextBlock.None?)
    ensures DrainCounts(d, room, Drain(d, room))
  {
  }

  /** The announced size is reached in the current block: everything ahead is handed out. */
  lemma DrainCountLimited(d: Decrypter, room: nat)
    requires Valid(d) && room > 0 && d.nextBlock.Some?
    requires d.totalRead < d.messageSize && d.messageSize - d.totalRead <= Encrypter.Min(room, 16 - d.blockPos)
    ensures DrainCounts(d, room, Drain(d, room))
  {
  }

  /** The room ends inside the current block, short of the announced size. */
  lemma DrainCountWithin(d: Decrypter, room: nat)
    requires Valid(d) && room > 0 && d.nextBlock.Some? && d.blockPos + room < 16
    requires !(d.totalRead < d.messageSize && d.messageSize - d.totalRead <= room)
    ensures DrainCounts(d, room, Drain(d, room))
  {
    var r := Drain(d, room);
    FutureNonEmpty(r.1);
  }

  /**
   The block after the boundary loads and the counting facts hold for the
   rest of the loop.
   */
  predicate LoadedAcross(d: Decrypter, room: nat, k: nat)
  {
    && Valid(d) && d.nextBlock.Some? && 0 < k <= room && d.blockPos + k == 16
    && !(d.totalRead < d.messageSize && d.messageSize - d.totalRead <= k)
    && var d2 := ReadBlock(d.(blockPos := d.blockPos + k, totalRead := d.totalRead + k)).0;
       && ReadBlock(d.(blockPos := d.blockPos + k, totalRead := d.totalRead + k)).1.Loaded?
       && DrainCounts(d2, room - k, Drain(d2, room - k))
  }

  /** The block after the boundary loads: the counting facts of the rest carry over. */
  lemma DrainLoadedCount(d: Decrypter, room: nat, k: nat)
    requires LoadedAcross(d, room, k)
    ensures DrainCounts(d, room, DrainAcross(d, room, k))
  {
    if d.eofWithData && |d.stream| == 16 {
      DrainLoadedEofCount(d, room, k);
    } else {
      DrainLoadedPlainCount(d, room, k);
    }
  }

  /** The loaded block is the last one and came with `io.EOF`: it is where the early load starts. */
  lemma DrainLoadedEofCount(d: Decrypter, room: nat, k: nat)
    requires LoadedAcross(d, room, k) && d.eofWithData && |d.stream| == 16
    ensures DrainCounts(d, room, DrainAcross(d, room, k))
  {
    var d2 := ReadBlock(d.(blockPos := d.blockPos + k, totalRead := d.totalRead + k)).0;
    var rest := Drain(d2, room - k);
    FutureAcrossBlock(d, k);
    assert LoadAt(d) == Some(k) && LoadAt(d2) == None;
    if rest.2 == Running(false) {
      FutureNonEmpty(rest.1);
    }
  }

  /** The loaded block came without `io.EOF`: the early load, if any, is `k` bytes nearer. */
  lemma DrainLoadedPlainCount(d: Decrypter, room: nat, k: nat)
    requires LoadedAcross(d, room, k) && !(d.eofWithData && |d.stream| == 16)
    ensures DrainCounts(d, room, DrainAcross(d, room, k))
  {
    var chunk := d.nextBlock.value[d.blockPos..d.blockPos + k];
    var loaded := ReadBlock(d.(blockPos := d.blockPos + k, totalRead := d.totalRead + k));
    var d2 := loaded.0;
    var rest := Drain(d2, room - k);
    assert loaded.1 == Loaded(false);
    assert DrainAcross(d, room, k) == (chunk + rest.0, rest.1, rest.2);
    FutureAcrossBlock(d, k);
    assert LoadAt(d2) == if LoadAt(d).Some? then Some(LoadAt(d).value - k) else None;
    CountsShift(k, room, |Future(d2).0|, LoadAt(d), LoadAt(d2), |Future(rest.1).0|, LoadAt(rest.1));
  }

  /** The counting facts of the rest of a copy, moved back over the `k` bytes handed out before it. */
  lemma CountsShift(k: nat, room: nat, total2: nat, early: Option<nat>, early2: Option<nat>, left: nat, early3: Option<nat>)
    requires 0 < k <= room
    requires early.Some? ==> early.value >= k
    requires early2 == if early.Some? then Some(early.value - k) else None
    ensures k + Encrypter.Min(room - k, total2) == Encrypter.Min(room, k + total2)
    ensures (early2.Some? && early2.value <= room - k < total2) <==> (early.Some? && early.value <= room < k + total2)
    ensures Copying.ShiftedEarly(total2, room - k, left, early2, early3, room - k) ==>
              Copying.ShiftedEarly(k + total2, room, left, early, early3, room)
  {
  }

  /** The envelope ends at the boundary: everything ahead is handed out. */
  lemma DrainEndCount(d: Decrypter, room: nat, k: nat)
    requires Valid(d) && d.nextBlock.Some? && 0 < k <= room && d.blockPos + k == 16
    requires !(d.totalRead < d.messageSize && d.messageSize - d.totalRead <= k)
    requires !ReadBlock(d.(blockPos := d.blockPos + k, totalRead := d.totalRead + k)).1.Loaded?
    ensures DrainCounts(d, room, DrainAcross(d, room, k))
  {
  }

  /** A read that reports nothing takes its share of the count: a full buffer, short of the `io.EOF` load. */
  lemma ReadGoesOn(d: Decrypter, n: nat)
    requires Valid(d) && n > 0 && Read(d, n).err.None?
    ensures var rd := Read(d, n);
            Copying.Copied(|Future(d).0|, LoadAt(d), n) == |rd.data| + Copying.Copied(|Future(rd.next).0|, LoadAt(rd.next), n)
  {
    var rd := Read(d, n);
    DrainCount(d, n);
    assert Copying.ShiftedEarly(|Future(d).0|, |rd.data|, |Future(rd.next).0|, LoadAt(d), LoadAt(rd.next), n);
    Copying.CopiedAfterRead(|Future(d).0|, |rd.data|, |Future(rd.next).0|, LoadAt(d), LoadAt(rd.next), n);
  }

  /** What ends a copy at a read that reports `err`: `None` for `io.EOF`. */
  function EndOf(err: IoError): (r: Option<StreamError>)
    ensures r.None? <==> err == EOF
  {
    if err.Error? then Some(err.error) else None
  }

  /**
   A read that reports `io.EOF` or an error ends the copy with its share of
   the count; unless it delivered everything ahead, it is an `io.EOF` that
   came with a block.
   */
  lemma ReadStops(d: Decrypter, n: nat)
    requires Valid(d) && n > 0 && Read(d, n).err.Some?
    ensures var rd := Read(d, n);
            var got := Copying.Copied(|Future(d).0|, LoadAt(d), n);
            && rd.data == Future(d).0[..got]
            && (got == |Future(d).0| ==> EndOf(rd.err.value) == Future(d).1)
            && (got < |Future(d).0| ==> rd.err == Some(EOF))
  {
    DrainCount(d, n);
  }

  /**
   What a consumer that reads with a buffer of `n` bytes and stops at the
   first read reporting an error or `io.EOF`, as `io.Copy` does, gets from
   this state on: the future up to the count of `Copying.Copied`, and the
   future's error only when it got everything (`None` for `io.EOF`).
   */
  function CopyRest(d: Decrypter, n: nat): (r: (seq<bv8>, Option<StreamError>))
    requires Valid(d) && n > 0
    ensures r == Future(d) || (r.1 == None && |r.0| < |Future(d).0| && r.0 == Future(d).0[..|r.0|])
  {
    var got := Copying.Copied(|Future(d).0|, LoadAt(d), n);
    assert Future(d).0[..|Future(d).0|] == Future(d).0;
    (Future(d).0[..got], if got == |Future(d).0| then Future(d).1 else None)
  }

  /** A read that reports nothing hands out the first part of what the consumer gets. */
  lemma CopyRestStep(d: Decrypter, n: nat)
    requires Valid(d) && n > 0 && Read(d, n).err.None?
    ensures var rd := Read(d, n);
            CopyRest(d, n) == (rd.data + CopyRest(rd.next, n).0, CopyRest(rd.next, n).1)
  {
    var rd := Read(d, n);
    ReadGoesOn(d, n);
    CountedAfter(rd.data, Future(rd.next), CopyRest(rd.next, n), Copying.Copied(|Future(rd.next).0|, LoadAt(rd.next), n));
  }

  /** A read that reports `io.EOF` or an error hands out all the consumer gets, and ends it. */
  lemma CopyRestStop(d: Decrypter, n: nat)
    requires Valid(d) && n > 0 && Read(d, n).err.Some?
    ensures var rd := Read(d, n);
            CopyRest(d, n) == (rd.data, EndOf(rd.err.value))
  {
    ReadStops(d, n);
  }

  /** Bytes delivered in front of a counted rest are counted with it. */
  lemma CountedAfter(data: seq<bv8>, rest: (seq<bv8>, Option<StreamError>), copied: (seq<bv8>, Option<StreamError>), got: nat)
    requires got <= |rest.0| && copied == (rest.0[..got], if got == |rest.0| then rest.1 else None)
    ensures (data + copied.0, copied.1)
            == ((data + rest.0)[..|data| + got], if |data| + got == |data + rest.0| then rest.1 else None)
  {
    assert (data + rest.0)[..|data| + got] == data + rest.0[..got];
  }

  /**
   What `NewDecrypter` followed by copying to the first error or `io.EOF`
   with a buffer of `n` bytes yields, in closed form: `DecryptSpec`, or,
   when a block load's `io.EOF` ends the copy early, a strict prefix of its
   bytes with a clean end.
   */
  function CopySpec(c: BlockCipher, src: seq<bv8>, messageSize: nat, key: seq<bv8>, eofWithData: bool, n: nat)
    : (r: (seq<bv8>, Option<StreamError>))
    requires n > 0
    ensures !eofWithData ==> r == DecryptSpec(c, src, messageSize, key)
    ensures var spec := DecryptSpec(c, src, messageSize, key);
            r == spec || (r.1 == None && |r.0| < |spec.0| && r.0 == spec.0[..|r.0|])
  {
    var spec := DecryptSpec(c, src, messageSize, key);
    var early := if eofWithData && |src| >= 49 && (|src| - 17) % 16 == 0 then Some(|src| - 33) else None;
    var got := Copying.Copied(|spec.0|, early, n);
    assert spec.0[..|spec.0|] == spec.0;
    (spec.0[..got], if got == |spec.0| then spec.1 else None)
  }

  /** Copying a fresh reader to the end yields the closed form. */
  lemma CopyOfNewDecrypter(c: BlockCipher, src: seq<bv8>, messageSize: nat, key: seq<bv8>, eofWithData: bool, n: nat)
    requires n > 0 && NewDecrypter(c, src, messageSize, key, eofWithData).Success?
    ensures CopyRest(NewDecrypter(c, src, messageSize, key, eofWithData).value, n)
            == CopySpec(c, src, messageSize, key, eofWithData, n)
  {
    var d := NewDecrypter(c, src, messageSize, key, eofWithData).value;
    FutureOfNewDecrypter(c, src, messageSize, key, eofWithData);
    assert LoadAt(d) == (if eofWithData && |src| >= 49 && (|src| - 17) % 16 == 0 then Some(|src| - 33) else None);
  }

  /**
   Builds a reader for the envelope and reads it to the end with a buffer of
   `bufSize` bytes, stopping at the first error or `io.EOF`, as `io.Copy`
   and `ioutil.ReadAll` do.
   */
  method DecryptAll(c: BlockCipher, src: seq<bv8>, messageSize: nat, key: seq<bv8>, eofWithData: bool, bufSize: nat)
    returns (out: seq<bv8>, err: Option<StreamError>)
    requires bufSize > 0
    ensures (out, err) == CopySpec(c, src, messageSize, key, eofWithData, bufSize)
  {
    var made := OpenForCopy(c, src, messageSize, key, eofWithData, bufSize);
    if made.Failure? {
      return [], Some(made.error);
    }
    var d := made.value;
    out := [];
    assert out + CopyRest(d, bufSize).0 == CopyRest(d, bufSize).0;
    while true
      invariant Valid(d)
      invariant (out + CopyRest(d, bufSize).0, CopyRest(d, bufSize).1) == CopySpec(c, src, messageSize, key, eofWithData, bufSize)
      decreases |Future(d).0|
    {
      var data, next, done, end := CopyStep(d, bufSize);
      var before := out;
      out := out + data;
      if done {
        err := end;
        return;
      }
      assert out + CopyRest(next, bufSize).0 == before + (data + CopyRest(next, bufSize).0);
      d := next;
    }
  }

  /**
   Builds the reader a copy starts from: a failure is the whole result of
   the copy, and a reader yields the closed form.
   */
  method OpenForCopy(c: BlockCipher, src: seq<bv8>, messageSize: nat, key: seq<bv8>, eofWithData: bool, n: nat)
    returns (made: Result<Decrypter, StreamError>)
    requires n > 0
    ensures made.Failure? ==> CopySpec(c, src, messageSize, key, eofWithData, n) == ([], Some(made.error))
    ensures made.Success? ==> Valid(made.value) && CopyRest(made.value, n) == CopySpec(c, src, messageSize, key, eofWithData, n)
  {
    made := NewDecrypter(c, src, messageSize, key, eofWithData);
    if made.Success? {
      CopyOfNewDecrypter(c, src, messageSize, key, eofWithData, n);
    }
  }

  /**
   One read of a copy with a buffer of `n` bytes: the bytes it hands out,
   the state after it, and whether it ends the copy, with the end the copy
   reports. A read that does not end the copy leaves less ahead.
   */
  method CopyStep(d: Decrypter, n: nat) returns (data: seq<bv8>, next: Decrypter, done: bool, end: Option<StreamError>)
    requires Valid(d) && n > 0
    ensures Valid(next)
    ensures done ==> CopyRest(d, n) == (data, end)
    ensures !done ==> CopyRest(d, n) == (data + CopyRest(next, n).0, CopyRest(next, n).1)
                      && |Future(next).0| < |Future(d).0|
  {
    var r := Read(d, n);
    data, next := r.data, r.next;
    if r.err.Some? {
      CopyRestStop(d, n);
      return data, next, true, EndOf(r.err.value);
    }
    CopyRestStep(d, n);
    return data, next, false, None;
  }

  /**
   Decrypting the envelope of a non-empty message with the same key gives
   back exactly the message, with a clean end of stream.
   */
  lemma RoundTrip(c: BlockCipher, key: seq<bv8>, iv: Block, data: seq<bv8>)
    requires ValidKeyLength(|key|) && |data| > 0
    ensures DecryptSpec(c, Encrypter.Envelope(c, key, iv, data), |data|, key) == (data, None)
  {
    var pad := Encrypter.PaddingLen(|data|) as bv8;
    var env := Encrypter.Envelope(c, key, iv, data);
    var body := CbcEncrypt(c, key, iv, Encrypter.Fill(data, pad));
    assert env[1..17] == iv && env[17..] == body;
    assert FullBlocks(body) == body;
    CbcRoundTrip(c, key, iv, Encrypter.Fill(data, pad));
  }

  /** The envelope of an empty message cannot be read back: the first read reports the "read 0 bytes" error. */
  lemma EmptyMessageFails(c: BlockCipher, key: seq<bv8>, iv: Block)
    requires ValidKeyLength(|key|)
    ensures DecryptSpec(c, Encrypter.Envelope(c, key, iv, []), 0, key) == ([], Some(DecrypterWeirdEOF))
  {
    var env := Encrypter.Envelope(c, key, iv, []);
    assert env[17..] == [];
  }

  /**
   `Read` as the `io.Reader` contract intends it: an `io.EOF` that comes
   with a block is kept until that block has been handed out, and a reader
   with nothing loaded that has already delivered the announced size reports
   `io.EOF` instead of the "read 0 bytes" error. Otherwise it behaves as the
   library.
   */
  function ReadFixed(d: Decrypter, n: nat): (r: ReadResult)
    requires Valid(d)
    ensures Valid(r.next)
    ensures d.nextBlock.None? && d.totalRead >= d.messageSize ==> r == ReadResult([], Some(EOF), d)
    ensures n > 0 && r.err == None ==>
              r.data != [] && FutureFixed(d) == (r.data + FutureFixed(r.next).0, FutureFixed(r.next).1)
    ensures n > 0 && r.err == Some(EOF) ==> FutureFixed(d) == (r.data, None)
    ensures n > 0 && r.err.Some? && r.err.value.Error? ==> FutureFixed(d) == (r.data, Some(r.err.value.error))
  {
    if d.nextBlock.None? && d.totalRead >= d.messageSize then ReadResult([], Some(EOF), d)
    else
      var drained := Drain(d, n);
      var out := drained.0;
      match drained.2
      case SizeReached => ReadResult(out, Some(EOF), drained.1)
      case Exhausted => ReadResult(out, Some(EOF), drained.1)
      case Corrupted => ReadResult(out, Some(Error(DataCorruption)), drained.1)
      case Running(_) =>
        var next := if |out| == 0 then drained.1.(nextBlock := None) else drained.1;
        ReadResult(out, if |out| == 0 then Some(Error(DecrypterWeirdEOF)) else None, next)
  }

  /** `Future` for a caller of `ReadFixed`. */
  function FutureFixed(d: Decrypter): (seq<bv8>, Option<StreamError>)
    requires Valid(d)
  {
    if d.nextBlock.None? && d.totalRead >= d.messageSize then ([], None) else Future(d)
  }

  /** The closed form of reading to the end with `ReadFixed`: an empty message now reads back cleanly. */
  function DecryptSpecFixed(c: BlockCipher, src: seq<bv8>, messageSize: nat, key: seq<bv8>): (seq<bv8>, Option<StreamError>) {
    var spec := DecryptSpec(c, src, messageSize, key);
    if spec.1 == Some(DecrypterWeirdEOF) && messageSize == 0 then ([], None) else spec
  }

  /**
   Reads an envelope to the end with `ReadFixed`: whichever way the source
   reports its end, nothing is lost.
   */
  method DecryptAllFixed(c: BlockCipher, src: seq<bv8>, messageSize: nat, key: seq<bv8>, eofWithData: bool, bufSize: nat)
    returns (out: seq<bv8>, err: Option<StreamError>)
    requires bufSize > 0
    ensures (out, err) == DecryptSpecFixed(c, src, messageSize, key)
  {
    var made := OpenFixed(c, src, messageSize, key, eofWithData);
    if made.Failure? {
      return [], Some(made.error);
    }
    var d := made.value;
    out := [];
    assert out + FutureFixed(d).0 == FutureFixed(d).0;
    while true
      invariant Valid(d)
      invariant (out + FutureFixed(d).0, FutureFixed(d).1) == DecryptSpecFixed(c, src, messageSize, key)
      decreases |FutureFixed(d).0|
    {
      var data, next, done, end := StepFixed(d, bufSize);
      var before := out;
      out := out + data;
      if done {
        err := end;
        return;
      }
      assert out + FutureFixed(next).0 == before + (data + FutureFixed(next).0);
      d := next;
    }
  }

  /** Builds the reader for `DecryptAllFixed`: a failure is the whole result, and a reader's future is the closed form. */
  method OpenFixed(c: BlockCipher, src: seq<bv8>, messageSize: nat, key: seq<bv8>, eofWithData: bool)
    returns (made: Result<Decrypter, StreamError>)
    ensures made.Failure? ==> DecryptSpecFixed(c, src, messageSize, key) == ([], Some(made.error))
    ensures made.Success? ==> Valid(made.value) && FutureFixed(made.value) == DecryptSpecFixed(c, src, messageSize, key)
  {
    made := NewDecrypter(c, src, messageSize, key, eofWithData);
    if made.Success? {
      FutureOfNewDecrypter(c, src, messageSize, key, eofWithData);
    }
  }

  /**
   One `ReadFixed` of a copy with a buffer of `n` bytes: the bytes it hands
   out, the state after it, and whether it ends the copy, with the end the
   copy reports. A read that does not end the copy leaves less ahead.
   */
  method StepFixed(d: Decrypter, n: nat) returns (data: seq<bv8>, next: Decrypter, done: bool, end: Option<StreamError>)
    requires Valid(d) && n > 0
    ensures Valid(next)
    ensures done ==> FutureFixed(d) == (data, end)
    ensures !done ==> FutureFixed(d) == (data + FutureFixed(next).0, FutureFixed(next).1)
                      && |FutureFixed(next).0| < |FutureFixed(d).0|
  {
    var r := ReadFixed(d, n);
    data, next := r.data, r.next;
    if r.err.Some? {
      return data, next, true, EndOf(r.err.value);
    }
    return data, next, false, None;
  }

  /**
   With the intended end-of-stream report, decrypting the envelope of any
   message, the empty one included, gives back exactly the message.
   */
  lemma RoundTripFixed(c: BlockCipher, key: seq<bv8>, iv: Block, data: seq<bv8>)
    requires ValidKeyLength(|key|)
    ensures DecryptSpecFixed(c, Encrypter.Envelope(c, key, iv, data), |data|, key) == (data, None)
  {
    if |data| == 0 {
      EmptyMessageFails(c, key, iv);
    } else {
      RoundTrip(c, key, iv, data);
    }
  }

  /** The intended reader differs from the library's only on an envelope whose body is empty. */
  lemma FixedDiffersOnlyWhenEmpty(c: BlockCipher, src: seq<bv8>, messageSize: nat, key: seq<bv8>)
    requires DecryptSpecFixed(c, src, messageSize, key) != DecryptSpec(c, src, messageSize, key)
    ensures |src| == 17 && messageSize == 0
  {
  }
}

=== FILE: encrypter.dfy ===
/**
 The streaming encrypter (commonlib/encrypter.go): a reader that yields the
 secretshare envelope of a plaintext source,

   [padding length] ++ IV (16 bytes) ++ CBC ciphertext of the padded plaintext,

 a block at a time. The padding length is derived from the announced message
 size; the final partial block is filled with copies of that length byte.

 The plaintext source is the sequence of bytes it has not yet delivered, read
 the way `bytes.Buffer` and files are read: a read returns as many bytes as fit
 and remain, and reports end of input only on a read that returns nothing.
 */
module Encrypter {
  import opened Wrappers
  import opened Common
  import opened Cipher
  import Copying

  function Min(a: nat, b: nat): nat {
    if a < b then a else b
  }

  /** The number of padding bytes that completes the last block of a `messageSize`-byte message. */
  function PaddingLen(messageSize: nat): (r: nat)
    ensures r < 16 && (messageSize + r) % 16 == 0
    ensures r == 0 <==> messageSize % 16 == 0
  {
    if messageSize % 16 > 0 then 16 - messageSize % 16 else 0
  }

  /** The plaintext as the cipher sees it: the message followed by the fill of its last block. */
  function Fill(data: seq<bv8>, pad: bv8): (r: seq<bv8>)
    ensures |r| % 16 == 0 && |data| <= |r| < |data| + 16
    ensures r[..|data|] == data
    ensures forall i :: |data| <= i < |r| ==> r[i] == pad
  {
    data + seq(PaddingLen(|data|), _ => pad)
  }

  /** Filling only ever touches the last block. */
  lemma FillFirstBlock(data: seq<bv8>, pad: bv8)
    requires |data| >= 16
    ensures Fill(data, pad) == data[..16] + Fill(data[16..], pad)
  {
    assert PaddingLen(|data|) == PaddingLen(|data| - 16);
  }

  /** The reader's state. */
  datatype Encrypter = Encrypter(
    cipher: BlockCipher,
    key: seq<bv8>,
    stream: seq<bv8>,           // plaintext not yet read from the source
    headerWritten: bool,
    header: seq<bv8>,
    paddingLen: bv8,
    nextBlock: Option<Block>,   // the ciphertext block being handed out
    blockPos: nat,              // bytes of `nextBlock` already handed out
    chain: Block,               // the CBC chaining value: the IV, then the last ciphertext block
    totalSize: int)

  /** Consistency of a reachable state. */
  predicate Valid(e: Encrypter) {
    && |e.header| == 17
    && e.blockPos <= 16
    && (e.nextBlock.Some? ==> e.blockPos < 16)
    && (!e.headerWritten ==> e.nextBlock.None?)
    && (e.headerWritten && e.nextBlock.None? ==> e.stream == [])
  }

  /**
   Everything the reader still has to deliver: the header if it is still
   unwritten, the rest of the current block, and the encryption of the rest
   of the source.
   */
  function Pending(e: Encrypter): seq<bv8> {
    (if e.headerWritten then [] else e.header)
    + (if e.nextBlock.Some? && e.blockPos <= 16 then e.nextBlock.value[e.blockPos..] else [])
    + CbcEncrypt(e.cipher, e.key, e.chain, Fill(e.stream, e.paddingLen))
  }

  /** The stream is exhausted exactly when no block is loaded after the header went out. */
  lemma PendingEmpty(e: Encrypter)
    requires Valid(e)
    ensures Pending(e) == [] <==> e.headerWritten && e.nextBlock.None?
  {
  }

  /**
   Builds the reader. `random` is what the system's random source gave for
   the IV (at most the 16 bytes asked for), or `None` if it failed.
   */
  function NewEncrypter(c: BlockCipher, stream: seq<bv8>, messageSize: nat, key: seq<bv8>, random: Option<seq<bv8>>)
    : (r: Result<Encrypter, StreamError>)
    requires random.Some? ==> |random.value| <= 16
    ensures random.None? ==> r == Failure(RandomSourceFailed)
    ensures random.Some? && |random.value| < 16 ==> r == Failure(NotEnoughIVRandomness)
    ensures random.Some? && |random.value| == 16 && !ValidKeyLength(|key|) ==> r == Failure(KeySize)
    ensures r.Success? <==> random.Some? && |random.value| == 16 && ValidKeyLength(|key|)
    ensures r.Success? ==>
              && Valid(r.value)
              && r.value.totalSize == messageSize + 17 + PaddingLen(messageSize)
              && Pending(r.value) ==
                 [PaddingLen(messageSize) as bv8] + random.value
                 + CbcEncrypt(c, key, random.value, Fill(stream, PaddingLen(messageSize) as bv8))
  {
    var pad := PaddingLen(messageSize);
    if random.None? then Failure(RandomSourceFailed)
    else if |random.value| < 16 then Failure(NotEnoughIVRandomness)
    else if !ValidKeyLength(|key|) then Failure(KeySize)
    else
      var iv: Block := random.value;
      Success(Encrypter(c, key, stream, false, [pad as bv8] + iv, pad as bv8, None, 0, iv, messageSize + 17 + pad))
  }

  /** `NewEncrypter` never reports a bad block size: the padding length always fits a byte. */
  lemma NeverBadBlockSize(c: BlockCipher, stream: seq<bv8>, messageSize: nat, key: seq<bv8>, random: Option<seq<bv8>>)
    requires random.Some? ==> |random.value| <= 16
    ensures NewEncrypter(c, stream, messageSize, key, random) != Failure(BadBlockSize)
  {
  }

  /** When the source holds exactly the announced bytes, the announced total size is the stream length. */
  lemma TotalSizeIsStreamLength(c: BlockCipher, stream: seq<bv8>, key: seq<bv8>, random: Option<seq<bv8>>)
    requires random.Some? ==> |random.value| <= 16
    requires NewEncrypter(c, stream, |stream|, key, random).Success?
    ensures var e := NewEncrypter(c, stream, |stream|, key, random).value;
            |Pending(e)| == e.totalSize
  {
  }

  /**
   Loads and encrypts the next block of the source. The flag is set when the
   source hit its end: either nothing was left (no block is loaded) or a
   partial block was filled with padding.
   */
  function ReadBlock(e: Encrypter): (r: (Encrypter, bool))
    requires e.headerWritten
    ensures r.0.headerWritten && r.0.blockPos == 0 && r.0.header == e.header
    ensures r.1 <==> |e.stream| < 16
    ensures r.0.nextBlock.None? <==> e.stream == []
    ensures r.0.nextBlock.None? ==> r.0.stream == []
    ensures r.1 ==> r.0.stream == []
    ensures |e.stream| >= 16 ==> r.0.stream == e.stream[16..]
    ensures Pending(r.0) == CbcEncrypt(e.cipher, e.key, e.chain, Fill(e.stream, e.paddingLen))
  {
    var s := e.stream;
    if |s| == 0 then
      (e.(nextBlock := None, blockPos := 0), true)
    else
      var plain: Block := if |s| >= 16 then s[..16] else s + seq(16 - |s|, _ => e.paddingLen);
      var rest := if |s| >= 16 then s[16..] else [];
      var x := e.cipher.encrypt(e.key, Xor(e.chain, plain));
      var e' := e.(nextBlock := Some(x), blockPos := 0, chain := x, stream := rest);
      assert Fill(s, e.paddingLen) == plain + Fill(rest, e.paddingLen) by {
        if |s| >= 16 { FillFirstBlock(s, e.paddingLen); }
      }
      (e', |s| < 16)
  }

  /**
   The copying loop of `Read` once the header is out: hands out up to `room`
   bytes, loading the next block whenever the current one is used up. The
   flag records whether any block load hit the end of the source.
   */
  function Drain(e: Encrypter, room: nat): (r: (seq<bv8>, Encrypter, bool))
    requires Valid(e) && e.headerWritten
    ensures Valid(r.1) && r.1.headerWritten && r.1.header == e.header
    ensures r.1.nextBlock.None? ==> r.2 || (e.nextBlock.None? && r.0 == [])
    ensures r.2 ==> r.1.stream == [] && |Pending(r.1)| <= 16
    ensures e.stream == [] ==> r.1.stream == []
    decreases room
  {
    if room == 0 || e.nextBlock.None? then ([], e, false)
    else
      var blk := e.nextBlock.value;
      var k := Min(room, 16 - e.blockPos);
      var chunk := blk[e.blockPos..e.blockPos + k];
      if e.blockPos + k == 16 then
        var (e2, eof1) := ReadBlock(e.(blockPos := 16));
        var (rest, e3, eof2) := Drain(e2, room - k);
        (chunk + rest, e3, eof1 || eof2)
      else
        (chunk, e.(blockPos := e.blockPos + k), false)
  }

  /** Handing out part of the current block leaves the rest of the block and the rest of the stream. */
  lemma PendingWithinBlock(e: Encrypter, k: nat)
    requires Valid(e) && e.headerWritten && e.nextBlock.Some? && e.blockPos + k < 16
    ensures Pending(e) == e.nextBlock.value[e.blockPos..e.blockPos + k] + Pending(e.(blockPos := e.blockPos + k))
  {
    var tail := CbcEncrypt(e.cipher, e.key, e.chain, Fill(e.stream, e.paddingLen));
    SliceSplit(e.nextBlock.value, e.blockPos, e.blockPos + k, tail);
  }

  /** Handing out the rest of the current block leaves what the next block load makes pending. */
  lemma PendingAcrossBlock(e: Encrypter, k: nat)
    requires Valid(e) && e.headerWritten && e.nextBlock.Some? && e.blockPos + k == 16
    ensures Pending(e) == e.nextBlock.value[e.blockPos..e.blockPos + k] + Pending(ReadBlock(e.(blockPos := 16)).0)
  {
    var blk := e.nextBlock.value;
    assert blk[e.blockPos..] == blk[e.blockPos..e.blockPos + k];
  }

  lemma SliceSplit(s: seq<bv8>, i: nat, j: nat, tail: seq<bv8>)
    requires i <= j <= |s|
    ensures s[i..] + tail == s[i..j] + (s[j..] + tail)
  {
    assert s[i..] == s[i..j] + s[j..];
  }

  /**
   The copying loop delivers the pending bytes in order: min(room, pending)
   of them come out, and what is still pending afterwards is the rest.
   */
  lemma {:induction false} DrainDelivers(e: Encrypter, room: nat)
    requires Valid(e) && e.headerWritten
    ensures Drain(e, room).0 + Pending(Drain(e, room).1) == Pending(e)
    ensures |Drain(e, room).0| == Min(room, |Pending(e)|)
    decreases room, 1
  {
    if room == 0 || e.nextBlock.None? || e.blockPos + room < 16 {
      DrainDeliversWithin(e, room);
    } else {
      DrainDeliversAcross(e, room);
    }
  }

  /** `DrainDelivers` when the loop stays within the current block. */
  lemma DrainDeliversWithin(e: Encrypter, room: nat)
    requires Valid(e) && e.headerWritten
    requires room == 0 || e.nextBlock.None? || e.blockPos + room < 16
    ensures Drain(e, room).0 + Pending(Drain(e, room).1) == Pending(e)
    ensures |Drain(e, room).0| == Min(room, |Pending(e)|)
  {
    if room == 0 || e.nextBlock.None? {
      PendingEmpty(e);
      assert |Drain(e, room).0| == Min(room, |Pending(e)|);
    } else {
      PendingWithinBlock(e, room);
      assert Drain(e, room).0 == e.nextBlock.value[e.blockPos..e.blockPos + room];
      assert |Drain(e, room).0| == Min(room, |Pending(e)|);
    }
  }

  /** The step of `DrainDelivers` that finishes the current block and goes on with the next. */
  lemma {:induction false} DrainDeliversAcross(e: Encrypter, room: nat)
    requires Valid(e) && e.headerWritten && e.nextBlock.Some? && e.blockPos + room >= 16
    ensures Drain(e, room).0 + Pending(Drain(e, room).1) == Pending(e)
    ensures |Drain(e, room).0| == Min(room, |Pending(e)|)
    decreases room, 0
  {
    var k := 16 - e.blockPos;
    var chunk := e.nextBlock.value[e.blockPos..e.blockPos + k];
    var e2 := ReadBlock(e.(blockPos := 16)).0;
    DrainDelivers(e2, room - k);
    PendingAcrossBlock(e, k);
    var d := Drain(e2, room - k);
    assert Drain(e, room).0 == chunk + d.0 && Drain(e, room).1 == d.1;
    assert |Pending(e)| == k + |Pending(e2)|;
    AppendAssoc(chunk, d.0, Pending(d.1), Pending(e2), Pending(e));
    MinShift(k, room, |Pending(e2)|);
  }

  lemma MinShift(k: nat, room: nat, p: nat)
    requires k <= room
    ensures k + Min(room - k, p) == Min(room, k + p)
  {
  }

  /** The outcome of one `Read` call: the bytes written, the error returned, and the new state. */
  datatype ReadResult = ReadResult(data: seq<bv8>, err: Option<IoError>, next: Encrypter)

  /**
   One `Read` into a buffer of `n` bytes, as the library implements it. The
   first call needs room for the whole 17-byte header. The call reports
   `io.EOF` as soon as one of its block loads hit the end of the source, even
   when the filled-in last block did not fit in the buffer.
   */
  function Read(e: Encrypter, n: nat): (r: ReadResult)
    requires Valid(e)
    ensures Valid(r.next)
    ensures r.err == Some(Error(ShortBuffer)) <==> !e.headerWritten && n < 17
    ensures r.err == Some(Error(ShortBuffer)) ==> r.data == [] && r.next == e
    ensures r.data + Pending(r.next) == Pending(e)
    ensures r.err != Some(Error(ShortBuffer)) ==> |r.data| == Min(n, |Pending(e)|)
    ensures r.err == Some(EOF) ==> r.next.stream == [] && |Pending(r.next)| <= 16
    ensures r.err == None ==> r.data != []
  {
    if !e.headerWritten && n < |e.header| then ReadResult([], Some(Error(ShortBuffer)), e)
    else
      var head := if e.headerWritten then [] else e.header;
      var loaded := LoadFirstBlock(e);
      var drained := Drain(loaded.0, n - |head|);
      DrainDelivers(loaded.0, n - |head|);
      var data := head + drained.0;
      AppendAssoc(head, drained.0, Pending(drained.1), Pending(loaded.0), Pending(e));
      assert loaded.1 ==> drained.1.stream == [] && |Pending(drained.1)| <= 16;
      var err := if loaded.1 || drained.2 then Some(EOF) else if |data| == 0 then Some(Error(EncrypterWeirdEOF)) else None;
      ReadResult(data, err, drained.1)
  }

  lemma AppendAssoc(a: seq<bv8>, b: seq<bv8>, c: seq<bv8>, bc: seq<bv8>, abc: seq<bv8>)
    requires b + c == bc && a + bc == abc
    ensures (a + b) + c == abc
  {
  }

  /** The header part of `Read`: once the header is handed out, the first block is loaded. */
  function LoadFirstBlock(e: Encrypter): (r: (Encrypter, bool))
    requires Valid(e)
    ensures Valid(r.0) && r.0.headerWritten
    ensures (if e.headerWritten then [] else e.header) + Pending(r.0) == Pending(e)
    ensures r.1 ==> r.0.stream == [] && |Pending(r.0)| <= 16
    ensures !r.1 && r.0.nextBlock.None? ==> e.nextBlock.None?
  {
    if e.headerWritten then (e, false)
    else ReadBlock(e.(headerWritten := true))
  }

  /**
   One `Read` as the `io.Reader` contract intends it: the same bytes and
   state, but `io.EOF` is reported exactly when nothing is left to deliver.
   */
  function ReadFixed(e: Encrypter, n: nat): (r: ReadResult)
    requires Valid(e)
    ensures Valid(r.next)
    ensures r.err == Some(Error(ShortBuffer)) <==> !e.headerWritten && n < 17
    ensures r.err == Some(Error(ShortBuffer)) ==> r.data == [] && r.next == e
    ensures r.data + Pending(r.next) == Pending(e)
    ensures r.err != Some(Error(ShortBuffer)) ==> |r.data| == Min(n, |Pending(e)|)
    ensures r.err != Some(Error(ShortBuffer)) ==> (r.err == Some(EOF) <==> Pending(r.next) == [])
    ensures r.err == None || r.err == Some(EOF) || r.err == Some(Error(ShortBuffer))
  {
    var r := Read(e, n);
    if r.err == Some(Error(ShortBuffer)) then r
    else
      PendingEmpty(r.next);
      ReadResult(r.data, if r.next.nextBlock.None? then Some(EOF) else None, r.next)
  }

  /**
   The library's `Read` and the intended one hand out the same bytes; the
   library's reports no error only when the intended one does not either,
   and it can only be early with `io.EOF`, never late.
   */
  lemma ReadAgreesWithFixed(e: Encrypter, n: nat)
    requires Valid(e)
    ensures Read(e, n).data == ReadFixed(e, n).data && Read(e, n).next == ReadFixed(e, n).next
    ensures Read(e, n).err == None ==> ReadFixed(e, n).err == None
    ensures ReadFixed(e, n).err == Some(EOF) ==>
              Read(e, n).err == Some(EOF) || (Read(e, n).err == Some(Error(EncrypterWeirdEOF)) && Read(e, n).data == [])
  {
    PendingEmpty(Read(e, n).next);
    PendingEmpty(e);
  }

  /**
   The library's `Read` can report `io.EOF` while the whole filled-in last
   block is still undelivered: for any message shorter than a block, the
   first read into a 17-byte buffer returns the header with `io.EOF`, while
   the envelope is 33 bytes long.
   */
  lemma EarlyEof(c: BlockCipher, data: seq<bv8>, key: seq<bv8>, iv: Block)
    requires 0 < |data| < 16 && ValidKeyLength(|key|)
    ensures var e := NewEncrypter(c, data, |data|, key, Some(iv)).value;
            && |Pending(e)| == 33
            && Read(e, 17).data == e.header
            && Read(e, 17).err == Some(EOF)
            && |Pending(Read(e, 17).next)| == 16
  {
  }

  // ---------------------------------------------------------------------------
  // Consumers that stop at the first io.EOF
  // ---------------------------------------------------------------------------

  /** How much is pending: the header, the rest of the current block, and the filled-in rest of the source. */
  lemma PendingLength(e: Encrypter)
    requires Valid(e)
    ensures |Pending(e)| == (if e.headerWritten then 0 else 17) + (if e.nextBlock.Some? then 16 - e.blockPos else 0)
                            + |e.stream| + PaddingLen(|e.stream|)
  {
  }

  /**
   Where, among the pending bytes, the read that reports `io.EOF` early
   reaches: the start of the filled-in last block, when the source ends with
   a partial block. A source that ends on a block boundary reports `io.EOF`
   only once everything has been delivered.
   */
  function EarlyEofAt(e: Encrypter): Option<nat> {
    if |e.stream| % 16 != 0 && |Pending(e)| >= 16 then Some(|Pending(e)| - 16) else None
  }

  /** A source ending in a partial block makes the reader report `io.EOF` early, 16 bytes before its end. */
  lemma EarlyEofOfPartial(e: Encrypter)
    requires Valid(e) && |e.stream| % 16 != 0
    ensures |Pending(e)| >= 17 && EarlyEofAt(e) == Some(|Pending(e)| - 16)
  {
    PendingLength(e);
  }

  /**
   When the copying loop reports the end of the source: for a source ending
   in a partial block, exactly when the room reaches the start of the last
   block; for one ending on a block boundary, only once nothing is left.
   */
  lemma {:induction false} DrainEof(e: Encrypter, room: nat)
    requires Valid(e) && e.headerWritten
    ensures !Drain(e, room).2 ==> |Drain(e, room).1.stream| % 16 == |e.stream| % 16
    ensures |e.stream| % 16 == 0 ==> |Drain(e, room).1.stream| % 16 == 0
    ensures |e.stream| % 16 != 0 ==> (Drain(e, room).2 <==> |Pending(e)| - 16 <= room)
    ensures |e.stream| % 16 == 0 && Drain(e, room).2 ==> Pending(Drain(e, room).1) == []
    decreases room
  {
    PendingLength(e);
    if room == 0 || e.nextBlock.None? {
    } else {
      var k := Min(room, 16 - e.blockPos);
      if e.blockPos + k == 16 {
        var (e2, eof1) := ReadBlock(e.(blockPos := 16));
        PendingAcrossBlock(e, k);
        PendingLength(e2);
        DrainEof(e2, room - k);
        assert Drain(e, room).1 == Drain(e2, room - k).1;
        assert Drain(e, room).2 == (eof1 || Drain(e2, room - k).2);
        assert |e.stream| >= 16 ==> |e2.stream| % 16 == |e.stream| % 16;
      }
    }
  }

  /** `DrainEof` for a whole `Read` with room for the header. */
  lemma ReadEof(e: Encrypter, n: nat)
    requires Valid(e) && n >= 17
    ensures Read(e, n).err != Some(EOF) ==> |Read(e, n).next.stream| % 16 == |e.stream| % 16
    ensures |e.stream| % 16 == 0 ==> |Read(e, n).next.stream| % 16 == 0
    ensures |e.stream| % 16 != 0 ==> (Read(e, n).err == Some(EOF) <==> |Pending(e)| - 16 <= n)
    ensures |e.stream| % 16 == 0 && Read(e, n).err == Some(EOF) ==> Pending(Read(e, n).next) == []
  {
    if e.headerWritten {
      ReadEofWritten(e, n);
    } else {
      ReadEofFresh(e, n);
    }
  }

  /** `ReadEof` once the header is out: the read is the copying loop alone. */
  lemma ReadEofWritten(e: Encrypter, n: nat)
    requires Valid(e) && n >= 17 && e.headerWritten
    ensures Read(e, n).err != Some(EOF) ==> |Read(e, n).next.stream| % 16 == |e.stream| % 16
    ensures |e.stream| % 16 == 0 ==> |Read(e, n).next.stream| % 16 == 0
    ensures |e.stream| % 16 != 0 ==> (Read(e, n).err == Some(EOF) <==> |Pending(e)| - 16 <= n)
    ensures |e.stream| % 16 == 0 && Read(e, n).err == Some(EOF) ==> Pending(Read(e, n).next) == []
  {
    ReadParts(e, n);
    var drained := Drain(e, n);
    assert Read(e, n).next == drained.1;
    assert Read(e, n).err == Some(EOF) <==> drained.2;
    DrainEof(e, n);
  }

  /** `ReadEof` for the first read: the header, the first block load, then the copying loop. */
  lemma ReadEofFresh(e: Encrypter, n: nat)
    requires Valid(e) && n >= 17 && !e.headerWritten
    ensures Read(e, n).err != Some(EOF) ==> |Read(e, n).next.stream| % 16 == |e.stream| % 16
    ensures |e.stream| % 16 == 0 ==> |Read(e, n).next.stream| % 16 == 0
    ensures |e.stream| % 16 != 0 ==> (Read(e, n).err == Some(EOF) <==> |Pending(e)| - 16 <= n)
    ensures |e.stream| % 16 == 0 && Read(e, n).err == Some(EOF) ==> Pending(Read(e, n).next) == []
  {
    if |e.stream| < 16 {
      ReadEofShort(e, n);
    } else {
      ReadEofLong(e, n);
    }
  }

  /** `ReadEofFresh` for a source shorter than a block: the first block load reports the end. */
  lemma ReadEofShort(e: Encrypter, n: nat)
    requires Valid(e) && n >= 17 && !e.headerWritten && |e.stream| < 16
    ensures |e.stream| % 16 == 0 ==> |Read(e, n).next.stream| % 16 == 0
    ensures |e.stream| % 16 != 0 ==> (Read(e, n).err == Some(EOF) <==> |Pending(e)| - 16 <= n)
    ensures |e.stream| % 16 == 0 && Read(e, n).err == Some(EOF) ==> Pending(Read(e, n).next) == []
    ensures Read(e, n).err == Some(EOF)
  {
    ReadParts(e, n);
    FirstBlockEof(e);
    var loaded := LoadFirstBlock(e);
    var drained := Drain(loaded.0, n - 17);
    assert loaded.0.stream == [];
    assert Read(e, n).next == drained.1;
    DrainDelivers(loaded.0, n - 17);
  }

  /** `ReadEofFresh` for a source of a block or more: the copying loop decides. */
  lemma ReadEofLong(e: Encrypter, n: nat)
    requires Valid(e) && n >= 17 && !e.headerWritten && |e.stream| >= 16
    ensures Read(e, n).err != Some(EOF) ==> |Read(e, n).next.stream| % 16 == |e.stream| % 16
    ensures |e.stream| % 16 == 0 ==> |Read(e, n).next.stream| % 16 == 0
    ensures |e.stream| % 16 != 0 ==> (Read(e, n).err == Some(EOF) <==> |Pending(e)| - 16 <= n)
    ensures |e.stream| % 16 == 0 && Read(e, n).err == Some(EOF) ==> Pending(Read(e, n).next) == []
  {
    ReadParts(e, n);
    FirstBlockEof(e);
    DrainEof(LoadFirstBlock(e).0, n - 17);
  }

  /** `Read` with room for the header is the first block load followed by the copying loop. */
  lemma ReadParts(e: Encrypter, n: nat)
    requires Valid(e) && n >= 17
    ensures var head := if e.headerWritten then [] else e.header;
            var loaded := LoadFirstBlock(e);
            var drained := Drain(loaded.0, n - |head|);
            && |head| == (if e.headerWritten then 0 else 17)
            && (e.headerWritten ==> loaded == (e, false))
            && Read(e, n).next == drained.1
            && (Read(e, n).err == Some(EOF) <==> loaded.1 || drained.2)
  {
  }

  /** The first block load: it reports the end of the source exactly for a source shorter than a block. */
  lemma FirstBlockEof(e: Encrypter)
    requires Valid(e) && !e.headerWritten
    ensures LoadFirstBlock(e).1 <==> |e.stream| < 16
    ensures |Pending(e)| == 17 + |Pending(LoadFirstBlock(e).0)|
    ensures !LoadFirstBlock(e).1 ==> |LoadFirstBlock(e).0.stream| % 16 == |e.stream| % 16
    ensures |e.stream| % 16 == 0 && LoadFirstBlock(e).1 ==> Pending(LoadFirstBlock(e).0) == []
    ensures |e.stream| % 16 != 0 && LoadFirstBlock(e).1 ==> |Pending(e)| == 33
  {
    PendingLength(e);
    PendingLength(LoadFirstBlock(e).0);
  }

  /**
   What a consumer that reads with a buffer of `n` bytes and stops at the
   first read that reports an error or `io.EOF` gets from the reader.
   */
  function ReadToEof(e: Encrypter, n: nat): (r: seq<bv8>)
    requires Valid(e)
    ensures |r| <= |Pending(e)|
    decreases |Pending(e)|
  {
    var rd := Read(e, n);
    if rd.err.Some? then rd.data
    else rd.data + ReadToEof(rd.next, n)
  }

  /** What the consumer gets comes out in order: it is a prefix of the pending bytes. */
  lemma {:induction false} ReadToEofPrefix(e: Encrypter, n: nat)
    requires Valid(e)
    ensures ReadToEof(e, n) == Pending(e)[..|ReadToEof(e, n)|]
    decreases |Pending(e)|
  {
    var rd := Read(e, n);
    if rd.err.None? {
      ReadToEofPrefix(rd.next, n);
      PrefixAppend(rd.data, ReadToEof(rd.next, n), Pending(rd.next), Pending(e));
    }
  }

  lemma PrefixAppend(a: seq<bv8>, b: seq<bv8>, p: seq<bv8>, whole: seq<bv8>)
    requires a + p == whole && |b| <= |p| && b == p[..|b|]
    ensures |a + b| <= |whole| && a + b == whole[..|a + b|]
  {
  }

  /**
   Such a consumer gets the pending bytes up to the end of the read that
   reports `io.EOF` early, and everything when there is no early report.
   */
  lemma {:induction false} ReadToEofLength(e: Encrypter, n: nat)
    requires Valid(e) && n >= 17
    ensures |ReadToEof(e, n)| == Copying.Copied(|Pending(e)|, EarlyEofAt(e), n)
    decreases |Pending(e)|
  {
    var rd := Read(e, n);
    if rd.err.None? {
      ReadToEofLength(rd.next, n);
      ReadGoesOn(e, n);
    } else {
      ReadStops(e, n);
    }
  }

  /** What such a consumer gets, in closed form: the pending bytes up to where the copy stops. */
  function CopiedPrefix(e: Encrypter, n: nat): (r: seq<bv8>)
    requires n > 0
    ensures |r| <= |Pending(e)| && r == Pending(e)[..|r|]
  {
    Pending(e)[..Copying.Copied(|Pending(e)|, EarlyEofAt(e), n)]
  }

  /** The consumer that stops at the first `io.EOF` gets exactly the closed form. */
  lemma ReadToEofIsCopiedPrefix(e: Encrypter, n: nat)
    requires Valid(e) && n >= 17
    ensures ReadToEof(e, n) == CopiedPrefix(e, n)
  {
    ReadToEofPrefix(e, n);
    ReadToEofLength(e, n);
  }

  /** The step of `ReadToEofLength` for a read that reports nothing: it takes its share of the count. */
  lemma ReadGoesOn(e: Encrypter, n: nat)
    requires Valid(e) && n >= 17 && Read(e, n).err.None?
    ensures var rd := Read(e, n);
            Copying.Copied(|Pending(e)|, EarlyEofAt(e), n)
            == |rd.data| + Copying.Copied(|Pending(rd.next)|, EarlyEofAt(rd.next), n)
  {
    var rd := Read(e, n);
    EarlyEofAfterRead(e, n);
    Copying.CopiedAfterRead(|Pending(e)|, |rd.data|, |Pending(rd.next)|, EarlyEofAt(e), EarlyEofAt(rd.next), n);
  }

  /** A read that reports nothing moves the early `io.EOF` offset back by what it delivered. */
  lemma EarlyEofAfterRead(e: Encrypter, n: nat)
    requires Valid(e) && n >= 17 && Read(e, n).err.None?
    ensures var rd := Read(e, n);
            Copying.ShiftedEarly(|Pending(e)|, |rd.data|, |Pending(rd.next)|, EarlyEofAt(e), EarlyEofAt(rd.next), n)
  {
    var rd := Read(e, n);
    ReadEof(e, n);
    if |e.stream| % 16 != 0 {
      EarlyEofOfPartial(e);
      EarlyEofOfPartial(rd.next);
    }
  }

  /** The last step of `ReadToEofLength`: a read that reports `io.EOF` or an error. */
  lemma ReadStops(e: Encrypter, n: nat)
    requires Valid(e) && n >= 17 && Read(e, n).err.Some?
    ensures |Read(e, n).data| == Copying.Copied(|Pending(e)|, EarlyEofAt(e), n)
  {
    var rd := Read(e, n);
    ReadEof(e, n);
    var total := |Pending(e)|;
    assert |rd.data| == Min(n, total);
    if |e.stream| % 16 != 0 {
      EarlyEofOfPartial(e);
      assert rd.err == Some(EOF);
    } else {
      assert EarlyEofAt(e) == None;
      assert rd.err == Some(EOF) ==> rd.data == Pending(e);
    }
  }

  /**
   Reads the whole envelope with the intended `Read` and a buffer of
   `bufSize` bytes, stopping at `io.EOF`, as `io.Copy` does.
   */
  method ReadAllFixed(e0: Encrypter, bufSize: nat) returns (out: seq<bv8>)
    requires Valid(e0) && bufSize >= 17
    ensures out == Pending(e0)
  {
    var e := e0;
    out := [];
    while true
      invariant Valid(e)
      invariant out + Pending(e) == Pending(e0)
      decreases |Pending(e)|
    {
      var r := ReadFixed(e, bufSize);
      Regroup(out, r.data, Pending(r.next));
      out := out + r.data;
      if r.err.Some? {
        assert Pending(r.next) == [];
        return;
      }
      assert |r.data| > 0;
      e := r.next;
    }
  }

  /**
   Reads with the library's `Read` and a buffer of `bufSize` bytes, going on
   past `io.EOF` until a read returns nothing: the bytes of all calls
   together are the whole envelope, whatever the buffer size.
   */
  method ReadAllIgnoringEof(e0: Encrypter, bufSize: nat) returns (out: seq<bv8>)
    requires Valid(e0) && bufSize >= 17
    ensures out == Pending(e0)
  {
    var e := e0;
    out := [];
    while true
      invariant Valid(e)
      invariant out + Pending(e) == Pending(e0)
      decreases |Pending(e)|
    {
      var r := Read(e, bufSize);
      Regroup(out, r.data, Pending(r.next));
      out := out + r.data;
      if r.data == [] {
        assert Pending(e) == [];
        return;
      }
      e := r.next;
    }
  }

  /** Moving a read's bytes from the pending part to the output keeps the whole. */
  lemma Regroup(a: seq<bv8>, b: seq<bv8>, c: seq<bv8>)
    ensures (a + b) + c == a + (b + c)
  {
  }

  /** The complete envelope the reader yields for a message, a key and an IV. */
  function Envelope(c: BlockCipher, key: seq<bv8>, iv: Block, data: seq<bv8>): (r: seq<bv8>)
    ensures |r| == 17 + |data| + PaddingLen(|data|)
    ensures r[0] as nat == PaddingLen(|data|) && r[1..17] == iv
  {
    var pad := PaddingLen(|data|) as bv8;
    [pad] + iv + CbcEncrypt(c, key, iv, Fill(data, pad))
  }

  /**
   Reading a fresh reader with the library's `Read` until a read returns
   nothing yields the envelope of the source.
   */
  method EncryptAll(c: BlockCipher, data: seq<bv8>, key: seq<bv8>, iv: Block, bufSize: nat)
    returns (out: Result<seq<bv8>, StreamError>)
    requires bufSize >= 17
    ensures out.Success? <==> ValidKeyLength(|key|)
    ensures out.Success? ==> out.value == Envelope(c, key, iv, data)
  {
    var e := NewEncrypter(c, data, |data|, key, Some(iv));
    if e.Failure? {
      return Failure(e.error);
    }
    var s := ReadAllIgnoringEof(e.value, bufSize);
    return Success(s);
  }

  /**
   A consumer that stops at the first `io.EOF` gets the envelope of a message
   up to the end of the read that reaches the start of its last block, when
   the message ends in a partial block; all of it otherwise. So it gets the
   whole envelope exactly when the message ends on a block boundary, the
   envelope fits in one read, or the last read starts past the first byte of
   the last block.
   */
  lemma EnvelopeReadToEof(c: BlockCipher, data: seq<bv8>, key: seq<bv8>, iv: Block, n: nat)
    requires ValidKeyLength(|key|) && n >= 17
    ensures var env := Envelope(c, key, iv, data);
            ReadToEof(NewEncrypter(c, data, |data|, key, Some(iv)).value, n)
            == env[..Copying.Copied(|env|, if |data| % 16 != 0 then Some(|env| - 16) else None, n)]
    ensures var env := Envelope(c, key, iv, data);
            ReadToEof(NewEncrypter(c, data, |data|, key, Some(iv)).value, n) == env
            <==> |data| % 16 == 0 || |env| <= n || (|env| - 1) % n >= 16
  {
    ReadToEofIsCopiedPrefix(NewEncrypter(c, data, |data|, key, Some(iv)).value, n);
    EnvelopeCopiedPrefix(c, data, key, iv, n);
  }

  /** `EnvelopeReadToEof` for the closed form `CopiedPrefix`. */
  lemma EnvelopeCopiedPrefix(c: BlockCipher, data: seq<bv8>, key: seq<bv8>, iv: Block, n: nat)
    requires ValidKeyLength(|key|) && n >= 17
    ensures var env := Envelope(c, key, iv, data);
            CopiedPrefix(NewEncrypter(c, data, |data|, key, Some(iv)).value, n)
            == env[..Copying.Copied(|env|, if |data| % 16 != 0 then Some(|env| - 16) else None, n)]
    ensures var env := Envelope(c, key, iv, data);
            CopiedPrefix(NewEncrypter(c, data, |data|, key, Some(iv)).value, n) == env
            <==> |data| % 16 == 0 || |env| <= n || (|env| - 1) % n >= 16
  {
    var env := Envelope(c, key, iv, data);
    var e := NewEncrypter(c, data, |data|, key, Some(iv)).value;
    assert Pending(e) == env && e.stream == data;
    var early := if |data| % 16 != 0 then Some(|env| - 16) else None;
    if |data| % 16 != 0 {
      EarlyEofOfPartial(e);
    }
    assert EarlyEofAt(e) == early;
    assert CopiedPrefix(e, n) == env[..Copying.Copied(|env|, early, n)];
    PrefixCopiedWhole(env, CopiedPrefix(e, n), |data| % 16 != 0, n);
  }

  /** A prefix cut where a stop-at-`io.EOF` copy stops is the whole sequence exactly when nothing is lost. */
  lemma PrefixCopiedWhole(env: seq<bv8>, got: seq<bv8>, partial: bool, n: nat)
    requires n >= 17 && |env| >= 16
    requires got == env[..Copying.Copied(|env|, if partial then Some(|env| - 16) else None, n)]
    ensures got == env <==> !partial || |env| <= n || (|env| - 1) % n >= 16
  {
    var k := Copying.Copied(|env|, if partial then Some(|env| - 16) else None, n);
    assert got == env <==> k == |env| by {
      assert |got| == k;
    }
    if partial {
      Copying.CopiedAll(|env|, |env| - 16, n);
    }
  }
}

=== FILE: gui.dfy ===
/**
 The desktop client (guiclient/main.go): the configuration checks that gate
 its send and receive screens, and how those screens call the library's
 `SendSecret` and `RecvSecret`.

 Windows, dialogs, progress bars and the goroutines that feed them are not
 modelled: the chosen file and the save location are inputs, and a run
 reports what the screen shows at its end.
 */
module Gui {
  import opened Wrappers
  import opened Common
  import opened Cipher
  import Api
  import opened Clients

  // ---------------------------------------------------------------------------
  // Configuration
  // ---------------------------------------------------------------------------

  /** `.secretsharerc` as the desktop client loads it: a missing file leaves every setting empty. */
  function LoadConfig(file: ConfigFile, unmarshal: seq<bv8> -> Option<JsonConfig>): (r: Result<ClientConfig, ConfigError>)
    ensures file.NoConfigFile? ==> r == Success(Unset)
    ensures forall defaults :: !file.NoConfigFile? ==> r == Clients.LoadConfig(file, defaults, unmarshal)
  {
    Clients.LoadConfig(file, Unset, unmarshal)
  }

  /** The option names a screen can require. */
  const KnownOptions: set<string> := {"endpoint", "bucket", "bucket-region"}

  /** The setting behind an option name. */
  function OptionValue(config: ClientConfig, name: string): string
    requires name in KnownOptions
  {
    if name == "endpoint" then config.endpointBaseUrl
    else if name == "bucket" then config.bucket
    else config.bucketRegion
  }

  /** Whether every name is one the client knows; any other name panics. */
  predicate AllKnown(names: seq<string>) {
    forall i :: 0 <= i < |names| ==> names[i] in KnownOptions
  }

  /** The required options whose setting is empty, in the order they were asked for. */
  function RequireConfigs(config: ClientConfig, names: seq<string>): (missing: seq<string>)
    requires AllKnown(names)
    ensures forall n :: n in missing <==> n in names && OptionValue(config, n) == ""
    ensures |missing| <= |names|
  {
    if names == [] then []
    else
      var rest := RequireConfigs(config, names[1..]);
      assert forall n :: n in names <==> n == names[0] || n in names[1..];
      if OptionValue(config, names[0]) == "" then [names[0]] + rest else rest
  }

  /** The report keeps the order of the request: checking two lists in turn lists their gaps in turn. */
  lemma {:induction false} RequireConfigsConcat(config: ClientConfig, a: seq<string>, b: seq<string>)
    requires AllKnown(a) && AllKnown(b)
    ensures AllKnown(a + b)
    ensures RequireConfigs(config, a + b) == RequireConfigs(config, a) + RequireConfigs(config, b)
  {
    if a == [] {
      assert a + b == b;
    } else {
      assert (a + b)[0] == a[0];
      assert (a + b)[1..] == a[1..] + b;
      RequireConfigsConcat(config, a[1..], b);
    }
  }

  /** What the send screen requires. */
  const SendOptions: seq<string> := ["endpoint", "bucket", "bucket-region"]

  /** What the receive screen requires: the endpoint is not used to receive. */
  const RecvOptions: seq<string> := ["bucket", "bucket-region"]

  /** The receive screen reports the bucket before the region, each only when it is empty. */
  lemma RecvOptionsMissing(config: ClientConfig)
    ensures RequireConfigs(config, RecvOptions)
            == (if config.bucket == "" then ["bucket"] else []) + (if config.bucketRegion == "" then ["bucket-region"] else [])
  {
    assert RecvOptions[1..] == ["bucket-region"];
    assert RecvOptions[1..][1..] == [];
  }

  /** The object lifetime the send screen asks for, in minutes. */
  const GuiTtl: int := 4 * 60

  /** Why a screen stopped before calling the library. */
  datatype GuiError = MissingOptions(names: seq<string>) | NoSecretKey | BadKey

  // ---------------------------------------------------------------------------
  // Send screen
  // ---------------------------------------------------------------------------

  /**
   What the send screen ends with: nothing (no file chosen), an error box, the
   key to pass on, or no screen at all because the library's upload panicked
   and took the program down.
   */
  datatype SendReport =
    | NothingChosen | SendRefused(error: GuiError) | SendFailed(code: Api.SendErrorCode) | KeyShown(keystr: string)
    | SendCrashed

  /** The send screen's report and the library's external actions. */
  datatype GuiSendRun = GuiSendRun(report: SendReport, actions: seq<Api.SendAction>)

  /** Whether the send screen lets a send start: a file, the three settings, and a non-empty secret. */
  predicate SendAllowed(config: ClientConfig, env: string, keyFile: Option<string>, filePath: string) {
    && filePath != ""
    && RequireConfigs(config, SendOptions) == []
    && LoadSecretKey(env, keyFile).Success? && LoadSecretKey(env, keyFile).value != ""
  }

  /**
   The send screen: with no file chosen it ends quietly; with a setting
   missing, or no usable secret, it shows an error without sending;
   otherwise it calls the library's `SendSecret` with the configured endpoint
   and a four-hour lifetime and shows the key it returns, unless that call
   panics and takes the program down.
   */
  function SendUi(c: BlockCipher, w: Api.SendWorld, sha256: seq<bv8> -> Api.Digest, marshal: FileMetadata -> seq<bv8>,
                  config: ClientConfig, env: string, keyFile: Option<string>, filePath: string): (r: GuiSendRun)
    requires Api.WellFormedSendWorld(w)
    ensures filePath == "" ==> r == GuiSendRun(NothingChosen, [])
    ensures filePath != "" && RequireConfigs(config, SendOptions) != [] ==>
              r == GuiSendRun(SendRefused(MissingOptions(RequireConfigs(config, SendOptions))), [])
    ensures r.report == SendRefused(NoSecretKey) <==>
              filePath != "" && RequireConfigs(config, SendOptions) == []
              && (LoadSecretKey(env, keyFile).Failure? || LoadSecretKey(env, keyFile).value == "")
    ensures !SendAllowed(config, env, keyFile, filePath) ==> r.actions == [] && !r.report.KeyShown?
    ensures r.report.KeyShown? ==> w.keyRandom.Some? && DecodeForHuman(r.report.keystr) == Success(w.keyRandom.value)
  {
    if filePath == "" then GuiSendRun(NothingChosen, [])
    else
      var missing := RequireConfigs(config, SendOptions);
      if missing != [] then GuiSendRun(SendRefused(MissingOptions(missing)), [])
      else
        match LoadSecretKey(env, keyFile)
        case Failure(_) => GuiSendRun(SendRefused(NoSecretKey), [])
        case Success(secretKey) =>
          if secretKey == "" then GuiSendRun(SendRefused(NoSecretKey), [])
          else
            var sent := Api.SendSecret(c, w, sha256, marshal, config.endpointBaseUrl, secretKey, filePath, GuiTtl);
            match sent
            case SendPanicked(actions) => GuiSendRun(SendCrashed, actions)
            case SendOutcome(Failure(code), actions) => GuiSendRun(SendFailed(code), actions)
            case SendOutcome(Success(ids), actions) => GuiSendRun(KeyShown(ids.0), actions)
  }

  /**
   Once the screen lets the send start, it is the library's send: the same
   actions, the key shown exactly when the library succeeds, and the program
   gone exactly when the library panics.
   */
  lemma SendUiIsLibrarySend(c: BlockCipher, w: Api.SendWorld, sha256: seq<bv8> -> Api.Digest,
                            marshal: FileMetadata -> seq<bv8>, config: ClientConfig, env: string,
                            keyFile: Option<string>, filePath: string)
    requires Api.WellFormedSendWorld(w)
    requires SendAllowed(config, env, keyFile, filePath)
    ensures var run := SendUi(c, w, sha256, marshal, config, env, keyFile, filePath);
            var lib := Api.SendSecret(c, w, sha256, marshal, config.endpointBaseUrl,
                                      LoadSecretKey(env, keyFile).value, filePath, GuiTtl);
            && run.actions == lib.actions
            && (run.report.KeyShown? <==> Api.Succeeded(lib))
            && (run.report.KeyShown? ==> run.report.keystr == lib.result.value.0)
            && (run.report.SendCrashed? <==> lib.SendPanicked?)
  {
  }

  /**
   Since the library ignores how the uploads went, the screen shows the key
   as a success even when the content upload was refused and the metadata
   upload never reached the storage service, unless an upload panicked.
   */
  lemma KeyShownAfterFailedUploads(c: BlockCipher, w: Api.SendWorld, sha256: seq<bv8> -> Api.Digest,
                                   marshal: FileMetadata -> seq<bv8>, config: ClientConfig, env: string,
                                   keyFile: Option<string>, filePath: string)
    requires Api.WellFormedSendWorld(w)
    requires SendAllowed(config, env, keyFile, filePath)
    requires Api.SendPrefixSteps(w, sha256, config.endpointBaseUrl, LoadSecretKey(env, keyFile).value, GuiTtl).Ready?
    requires w.dataOutcome == Api.Status(403) && w.metaOutcome == Api.TransportError
    ensures var p := Api.SendPrefixSteps(w, sha256, config.endpointBaseUrl, LoadSecretKey(env, keyFile).value, GuiTtl);
            !Api.SendPanics(w, p) ==> SendUi(c, w, sha256, marshal, config, env, keyFile, filePath).report.KeyShown?
  {
    Api.SendIgnoresUploadOutcomes(c, w, sha256, marshal, config.endpointBaseUrl, LoadSecretKey(env, keyFile).value,
                                  filePath, GuiTtl);
  }

  // ---------------------------------------------------------------------------
  // Save location
  // ---------------------------------------------------------------------------

  /**
   The directory part of a path, as Go's `filepath.Dir` gives it for paths
   without `.`/`..` elements or doubled slashes: everything before the last
   `/` without trailing slashes, `/` for a file in the root, `.` for a bare
   file name.
   */
  function DirName(path: string): (r: string)
    ensures r != ""
    ensures (forall i :: 0 <= i < |path| ==> path[i] != '/') ==> r == "."
  {
    var prefix := path[..|path| - |Api.LastSegment(path)|];
    if prefix == [] then "."
    else
      var trimmed := Api.TrimTrailingSlashes(prefix);
      if trimmed == [] then "/" else trimmed
  }

  /** The part of `path` after its last `/`, for a name without `/` placed after a slash. */
  lemma {:induction false} LastSegmentOfJoin(dir: string, name: string)
    requires forall i :: 0 <= i < |name| ==> name[i] != '/'
    ensures Api.LastSegment(dir + "/" + name) == name
    decreases |name|
  {
    var p := dir + "/" + name;
    if name == [] {
      assert p[|p| - 1] == '/';
    } else {
      assert p[|p| - 1] == name[|name| - 1];
      assert p[..|p| - 1] == dir + "/" + name[..|name| - 1];
      LastSegmentOfJoin(dir, name[..|name| - 1]);
      assert name == name[..|name| - 1] + [name[|name| - 1]];
    }
  }

  /** A save location chosen as a directory and a file name splits back into the two. */
  lemma SavePathSplits(dir: string, name: string)
    requires dir != "" && dir[|dir| - 1] != '/'
    requires name != "" && forall i :: 0 <= i < |name| ==> name[i] != '/'
    ensures DirName(dir + "/" + name) == dir
    ensures Api.BaseName(dir + "/" + name) == name
  {
    var p := dir + "/" + name;
    LastSegmentOfJoin(dir, name);
    assert p[..|p| - |name|] == dir + "/";
    assert Api.TrimTrailingSlashes(dir + "/") == dir by {
      assert (dir + "/")[..|dir|] == dir;
    }
    assert p[|p| - 1] == name[|name| - 1];
  }

  // ---------------------------------------------------------------------------
  // Receive screen
  // ---------------------------------------------------------------------------

  /** What the receive screen ends with: an error box, a crash of the whole program, or the saved file. */
  datatype RecvReport = RecvRefused(error: GuiError) | RecvFailed(code: Api.RecvErrorCode) | Crashed | Saved(path: string)

  /** The receive screen's report, whether the save dialog opened, and the library's external actions. */
  datatype GuiRecvRun = GuiRecvRun(report: RecvReport, dialogShown: bool, actions: seq<Api.RecvAction>)

  /** How the receive screen reports what the library's receive ended with. */
  function ReportReceive(got: Api.RecvOutcome, savePath: string): (r: GuiRecvRun)
    ensures r.dialogShown && r.actions == got.actions
    ensures r.report == Crashed <==> got.Panicked?
    ensures r.report.RecvFailed? <==> got.Finished? && got.error.Some?
    ensures r.report.RecvFailed? ==> r.report.code == got.error.value
    ensures r.report.Saved? <==> got.Finished? && got.error.None?
    ensures r.report.Saved? ==> r.report.path == savePath
  {
    match got
    case Panicked(actions) => GuiRecvRun(Crashed, true, actions)
    case Finished(_, error, actions) =>
      if error.Some? then GuiRecvRun(RecvFailed(error.value), true, actions)
      else GuiRecvRun(Saved(savePath), true, actions)
  }

  /** The receive screen once its checks pass: the library's receive into the chosen location, overwriting. */
  function ReceiveAt(c: BlockCipher, w: Api.RecvWorld, sha256: seq<bv8> -> Api.Digest,
                     unmarshal: seq<bv8> -> Option<FileMetadata>, bucket: string, region: string, key: seq<bv8>,
                     savePath: string): (r: GuiRecvRun)
    ensures r.dialogShown && |r.actions| > 0
    ensures r.actions[0] == Api.Get(Api.ObjectName(region, bucket, "meta/" + Api.DeriveId(sha256, key)))
    ensures r.report.RecvFailed? ==> r.report.code != Api.RecvFileExists
    ensures r.report.Saved? ==>
              && r.report.path == savePath && |r.actions| > 0
              && r.actions[|r.actions| - 1].WriteFile?
              && r.actions[|r.actions| - 1].path == Api.FilePath(DirName(savePath), Api.BaseName(savePath))
  {
    ReportReceive(Api.RecvSecret(c, w, sha256, unmarshal, bucket, region, key,
                                 DirName(savePath), Some(Api.BaseName(savePath)), true), savePath)
  }

  /**
   The receive screen: with the bucket or region missing, or a key that does
   not decode, it shows an error before the save dialog opens; otherwise it
   calls the library's `RecvSecret` for the chosen location, overwriting an
   existing file.
   */
  function RecvUi(c: BlockCipher, w: Api.RecvWorld, sha256: seq<bv8> -> Api.Digest,
                  unmarshal: seq<bv8> -> Option<FileMetadata>, config: ClientConfig, keystr: string,
                  savePath: string): (r: GuiRecvRun)
    ensures r.dialogShown <==> config.bucket != "" && config.bucketRegion != "" && DecodeForHuman(keystr).Success?
    ensures !r.dialogShown ==> r.actions == [] && r.report.RecvRefused?
    ensures r.dialogShown ==>
              r == ReceiveAt(c, w, sha256, unmarshal, config.bucket, config.bucketRegion, DecodeForHuman(keystr).value, savePath)
  {
    var missing := RequireConfigs(config, RecvOptions);
    RecvOptionsMissing(config);
    if missing != [] then GuiRecvRun(RecvRefused(MissingOptions(missing)), false, [])
    else
      match DecodeForHuman(keystr)
      case Failure(_) => GuiRecvRun(RecvRefused(BadKey), false, [])
      case Success(key) =>
        ReceiveAt(c, w, sha256, unmarshal, config.bucket, config.bucketRegion, key, savePath)
  }

  /** The receive screen does not depend on the endpoint setting. */
  lemma RecvUiIgnoresEndpoint(c: BlockCipher, w: Api.RecvWorld, sha256: seq<bv8> -> Api.Digest,
                              unmarshal: seq<bv8> -> Option<FileMetadata>, config: ClientConfig, endpoint: string,
                              keystr: string, savePath: string)
    ensures RecvUi(c, w, sha256, unmarshal, config.(endpointBaseUrl := endpoint), keystr, savePath)
            == RecvUi(c, w, sha256, unmarshal, config, keystr, savePath)
  {
    RecvOptionsMissing(config);
    RecvOptionsMissing(config.(endpointBaseUrl := endpoint));
  }

  /**
   A file saved as `dir/name` is written to that directory under that name
   (the receive screen is `ReceiveAt` once its dialog opens, by `RecvUi`'s contract).
   */
  lemma ReceiveAtSavesWhereChosen(c: BlockCipher, w: Api.RecvWorld, sha256: seq<bv8> -> Api.Digest,
                                  unmarshal: seq<bv8> -> Option<FileMetadata>, bucket: string, region: string,
                                  key: seq<bv8>, dir: string, name: string)
    requires dir != "" && dir[|dir| - 1] != '/'
    requires name != "" && forall i :: 0 <= i < |name| ==> name[i] != '/'
    requires ReceiveAt(c, w, sha256, unmarshal, bucket, region, key, dir + "/" + name).report.Saved?
    ensures var run := ReceiveAt(c, w, sha256, unmarshal, bucket, region, key, dir + "/" + name);
            && |run.actions| > 0
            && run.actions[|run.actions| - 1].WriteFile? && run.actions[|run.actions| - 1].path == Api.FilePath(dir, name)
  {
    SavePathSplits(dir, name);
  }
}

=== FILE: handoff.dfy ===
/**
 The hand-off between a sender and a recipient: the `secretshare receive`
 line a sender's client prints, pasted into a shell, becomes the arguments
 of the command-line client's `receive`.

 The shell's word splitting is modelled as splitting at single spaces,
 which is what it does on a line of space-free words separated by one
 space each (no quoting, no runs of white space).
 */
module Handoff {
  import opened Wrappers
  import opened Common
  import opened Cipher
  import Api
  import Web
  import Cli

  /** The arguments `receive` gets from a pasted line, if the line runs `secretshare receive`. */
  function ReceiveArgs(line: string): (r: Option<seq<string>>)
    ensures r.Some? ==> Web.JoinSpaces(["secretshare", "receive"] + r.value) == line
    ensures r.Some? ==> forall i :: 0 <= i < |r.value| ==> ' ' !in r.value[i]
  {
    var words := Web.SplitSpaces(line);
    if |words| >= 2 && words[0] == "secretshare" && words[1] == "receive" then
      Web.JoinSplit(line);
      assert words == ["secretshare", "receive"] + words[2..];
      Some(words[2..])
    else None
  }

  /** Text the human decoding accepts has no space in it. */
  lemma DecodableHasNoSpace(s: string)
    requires DecodeForHuman(s).Success?
    ensures ' ' !in s
  {
    assert SymbolValue(' ').None?;
  }

  /** A line with the program, the subcommand and space-free words gives those words back as arguments. */
  lemma {:induction false} LineArgs(words: seq<string>)
    requires |words| >= 1 && forall i :: 0 <= i < |words| ==> ' ' !in words[i]
    ensures ReceiveArgs(Web.JoinSpaces(["secretshare", "receive"] + words)) == Some(words)
  {
    var all := ["secretshare", "receive"] + words;
    assert forall i :: 2 <= i < |all| ==> all[i] == words[i - 2];
    Web.SplitJoin(all);
    assert Web.SplitSpaces(Web.JoinSpaces(all))[2..] == words;
  }

  /** Joining the program and the subcommand in front of words puts `secretshare receive ` before them. */
  lemma CommandPrefix(words: seq<string>)
    requires |words| >= 1
    ensures Web.JoinSpaces(["secretshare", "receive"] + words) == "secretshare receive " + Web.JoinSpaces(words)
  {
    var all := ["secretshare", "receive"] + words;
    var rest := Web.JoinSpaces(words);
    assert Web.JoinSpaces(all) == "secretshare" + " " + ("receive" + " " + rest) by {
      assert all[1..] == ["receive"] + words;
      assert all[1..][1..] == words;
    }
    PrefixSpelling(rest);
  }

  /** The two words and their separators spell the command prefix. */
  lemma PrefixSpelling(rest: string)
    ensures "secretshare" + " " + ("receive" + " " + rest) == "secretshare receive " + rest
  {
    assert "secretshare" + " " + "receive" + " " == "secretshare receive ";
  }

  /** The command-line client's instructions split back into the id and the key. */
  lemma ReceiveCommandArgs(id: string, keystr: string)
    requires ' ' !in id && ' ' !in keystr
    ensures ReceiveArgs(Cli.ReceiveCommand(id, keystr)) == Some([id, keystr])
  {
    var words := [id, keystr];
    assert words[1..] == [keystr];
    assert Web.JoinSpaces(words) == id + " " + keystr;
    CommandPrefix(words);
    assert "secretshare receive " + (id + " " + keystr) == Cli.ReceiveCommand(id, keystr);
    LineArgs(words);
  }

  /**
   The hand-off works between two command-line clients: the line a
   successful send prints, pasted by the recipient, makes `receive` take the
   library's receive steps for the key that was sent.
   */
  lemma CliHandoff(c: BlockCipher, w: Api.SendWorld, env: string, keyFile: Option<string>,
                   sha256: seq<bv8> -> Api.Digest, marshal: FileMetadata -> seq<bv8>, endpointFlag: string,
                   filePath: string, ttl: int, rw: Api.RecvWorld, answer: Option<string>,
                   unmarshal: seq<bv8> -> Option<FileMetadata>, bucket: string, region: string)
    requires Api.WellFormedSendWorld(w)
    requires Cli.Send(c, w, env, keyFile, sha256, marshal, endpointFlag, filePath, ttl).end.Sent?
    ensures var sent := Cli.Send(c, w, env, keyFile, sha256, marshal, endpointFlag, filePath, ttl);
            var key := w.keyRandom.value;
            && ReceiveArgs(sent.instructions.value) == Some([Api.DeriveId(sha256, key), EncodeForHuman(key)])
            && Cli.Receive(c, rw, answer, unmarshal, bucket, region, ReceiveArgs(sent.instructions.value).value).actions
               == Api.RecvSecret(c, rw, sha256, unmarshal, bucket, region, key, Cli.WorkingDir, None, Cli.Confirms(answer)).actions
  {
    var key := w.keyRandom.value;
    var id := Api.DeriveId(sha256, key);
    var keystr := EncodeForHuman(key);
    DecodableHasNoSpace(id);
    DecodableHasNoSpace(keystr);
    ReceiveCommandArgs(id, keystr);
    Cli.ReceiveAgreesWithLibrary(c, rw, answer, sha256, unmarshal, bucket, region, key, keystr);
  }

  /** The browser's encoding of a key has no space in it. */
  lemma JsKeyHasNoSpace(key: seq<bv8>)
    ensures ' ' !in Web.JsEncodeForHuman(key)
  {
    var go := EncodeForHuman(key);
    DecodeEncode(key);
    DecodableHasNoSpace(go);
    Web.JsEncodingSwapsYZ(key);
    forall i | 0 <= i < |go| ensures Web.JsEncodeForHuman(key)[i] != ' ' {
      assert go[i] in go;
    }
  }

  /**
   The browser's instructions carry the key alone: pasted into a shell they
   give `receive` a single argument, and the command-line client then stops
   with an index panic before it fetches anything.
   */
  lemma JsLineCrashesCli(c: BlockCipher, config: Web.JsConfig, sha256: seq<bv8> -> Api.Digest,
                         marshal: FileMetadata -> seq<bv8>, fileName: string, contents: seq<bv8>,
                         keyRandom: Option<seq<bv8>>, api: Web.ApiReply, w: Web.UploadWorld,
                         rw: Api.RecvWorld, answer: Option<string>, unmarshal: seq<bv8> -> Option<FileMetadata>,
                         bucket: string, region: string)
    requires keyRandom.Some? ==> |keyRandom.value| == 32
    requires Web.UploadFile(c, config, sha256, marshal, fileName, contents, keyRandom, api, w).0.JsSucceeded?
    ensures var line := Web.UploadFile(c, config, sha256, marshal, fileName, contents, keyRandom, api, w).0.line;
            && ReceiveArgs(line) == Some([Web.JsEncodeForHuman(keyRandom.value)])
            && Cli.Receive(c, rw, answer, unmarshal, bucket, region, ReceiveArgs(line).value) == Cli.RecvRun(Cli.RecvPanicked, [])
  {
    var keystr := Web.JsEncodeForHuman(keyRandom.value);
    JsKeyHasNoSpace(keyRandom.value);
    CommandPrefix([keystr]);
    LineArgs([keystr]);
  }

  /**
   The line the browser should print: the id and the key, as the
   command-line client prints them. It splits into the two arguments
   `receive` reads.
   */
  function JsReceiveLineFixed(sha256: seq<bv8> -> Api.Digest, key: seq<bv8>): (line: string)
    requires |key| == 32
    ensures ReceiveArgs(line) == Some([Web.DeriveId(sha256, key), Web.JsEncodeForHuman(key)])
  {
    var id := Web.DeriveId(sha256, key);
    var keystr := Web.JsEncodeForHuman(key);
    JsKeyHasNoSpace(key);
    JsKeyHasNoSpace(sha256(Web.KeyView(key)));
    ReceiveCommandArgs(id, keystr);
    Cli.ReceiveCommand(id, keystr)
  }
}

=== FILE: interop.dfy ===
/**
 How the parts of secretshare work together: the browser's envelopes read
 by the Go library, and a send followed by a receive through the server
 and the storage service.

 The storage service is a map from object names to contents. A presigned
 URL names one object: `objectOf` gives back the object a URL was presigned
 for, and an upload to the URL replaces that object's content. A download
 of an object that is not stored gives the reply `missing`, whatever status
 the service uses for that.
 */
module Interop {
  import opened Wrappers
  import opened Common
  import opened Cipher
  import Encrypter
  import Decrypter
  import Api
  import Web
  import Server

  // ---------------------------------------------------------------------------
  // Browser envelopes read by the Go library
  // ---------------------------------------------------------------------------

  /** For a plaintext that does not fill its last block, the browser and the Go library build the same envelope. */
  lemma JsEnvelopeUnaligned(c: BlockCipher, key: seq<bv8>, iv: Block, data: seq<bv8>)
    requires |data| % 16 != 0
    ensures Web.JsEnvelope(c, key, iv, data) == Encrypter.Envelope(c, key, iv, data)
  {
    var k := Encrypter.PaddingLen(|data|);
    assert k == Web.PadLen(|data|);
    assert Pkcs7Pad(data) == Encrypter.Fill(data, k as bv8);
  }

  /**
   A browser upload of a non-empty file that does not fill its last block
   reads back through the Go streaming decrypter unchanged, and a Go
   download of it receives what a download of a Go upload would.
   */
  lemma JsContentReadable(c: BlockCipher, key: seq<bv8>, iv: Block, data: seq<bv8>)
    requires |data| % 16 != 0 && ValidKeyLength(|key|)
    ensures Decrypter.DecryptSpec(c, Web.JsEnvelope(c, key, iv, data), |data|, key) == (data, None)
    ensures Api.Download(c, Web.JsEnvelope(c, key, iv, data), |data|, key) == (data[..Api.Received(|data|)], None)
  {
    JsEnvelopeUnaligned(c, key, iv, data);
    Decrypter.RoundTrip(c, key, iv, data);
    Api.DownloadOfFile(c, key, iv, data);
  }

  /**
   A browser upload of a file that fills its last block exactly is refused
   by the Go receiver: the browser writes 16 into the padding byte where
   the Go decrypter expects 0, so nothing is written and the receive reports
   `DecryptionFailed`.
   */
  lemma JsAlignedContentRejected(c: BlockCipher, key: seq<bv8>, iv: Block, data: seq<bv8>)
    requires |data| % 16 == 0
    ensures Decrypter.NewDecrypter(c, Web.JsEnvelope(c, key, iv, data), |data|, key, true) == Failure(DataCorruption)
    ensures Api.OpenContent(c, Api.GetReply(200, Some(Web.JsEnvelope(c, key, iv, data))), |data|, key)
            == Api.ContentStage(None, Some(Api.DecryptionFailed))
  {
    assert Web.JsEnvelope(c, key, iv, data)[0] == 16;
  }

  /**
   The Go one-shot decryption, which the receiver uses for the metadata,
   reads every browser envelope back, aligned or not: it drops as many
   trailing bytes as the padding byte says.
   */
  lemma JsMetadataReadable(c: BlockCipher, key: seq<bv8>, iv: Block, data: seq<bv8>)
    requires ValidKeyLength(|key|)
    ensures Api.DecryptDefined(Web.JsEnvelope(c, key, iv, data), key)
    ensures Api.Decrypt(c, Web.JsEnvelope(c, key, iv, data), key) == Success(data)
  {
    var env := Web.JsEnvelope(c, key, iv, data);
    var padded := Pkcs7Pad(data);
    JsEnvelopeParts(c, key, iv, data);
    CbcRoundTrip(c, key, iv, padded);
    assert CbcDecrypt(c, key, iv, env[17..])[..|env| - 17 - env[0] as int] == data;
  }

  /** The fields of a browser envelope: the padding length, the IV and the padded plaintext in CBC mode. */
  lemma JsEnvelopeParts(c: BlockCipher, key: seq<bv8>, iv: Block, data: seq<bv8>)
    ensures var env := Web.JsEnvelope(c, key, iv, data);
            && env[0] as int == |Pkcs7Pad(data)| - |data|
            && env[1..17] == iv
            && env[17..] == CbcEncrypt(c, key, iv, Pkcs7Pad(data))
  {
    Web.PadLenIsPkcs7(data);
  }

  /** The two padding rules differ exactly on aligned sizes, by one whole block. */
  lemma PaddingRulesDiffer(n: nat)
    ensures Web.PadLen(n) == Encrypter.PaddingLen(n) <==> n % 16 != 0
    ensures n % 16 == 0 ==> Web.PadLen(n) == Encrypter.PaddingLen(n) + 16
  {
  }

  // ---------------------------------------------------------------------------
  // Storage
  // ---------------------------------------------------------------------------

  /** The storage service's objects. */
  type Store = map<string, seq<bv8>>

  /** Whether an action uploads to a URL presigned for object `name`. */
  predicate PutsTo(a: Api.SendAction, objectOf: string -> Option<string>, name: string) {
    a.Put? && objectOf(a.put.url) == Some(name)
  }

  /** Whether some action of a list uploads to object `name`. */
  predicate PutsAny(actions: seq<Api.SendAction>, objectOf: string -> Option<string>, name: string) {
    exists i :: 0 <= i < |actions| && PutsTo(actions[i], objectOf, name)
  }

  /** A list uploads to `name` exactly when its first action or one of the rest does. */
  lemma PutsAnyCons(actions: seq<Api.SendAction>, objectOf: string -> Option<string>, name: string)
    requires |actions| > 0
    ensures PutsAny(actions, objectOf, name) <==> PutsTo(actions[0], objectOf, name) || PutsAny(actions[1..], objectOf, name)
  {
    if PutsAny(actions, objectOf, name) {
      var i :| 0 <= i < |actions| && PutsTo(actions[i], objectOf, name);
      if i > 0 { assert actions[1..][i - 1] == actions[i]; }
    }
    if PutsAny(actions[1..], objectOf, name) {
      var i :| 0 <= i < |actions[1..]| && PutsTo(actions[1..][i], objectOf, name);
      assert actions[i + 1] == actions[1..][i];
    }
  }

  /**
   The store after the uploads of a send, each accepted: an upload replaces
   the object its URL was presigned for; other actions change nothing.
   */
  function ApplyPuts(store: Store, actions: seq<Api.SendAction>, objectOf: string -> Option<string>): (r: Store)
    ensures forall name :: name in r <==> name in store || PutsAny(actions, objectOf, name)
    decreases |actions|
  {
    if actions == [] then store
    else
      var a := actions[0];
      var next := if a.Put? && objectOf(a.put.url).Some? then store[objectOf(a.put.url).value := a.put.body] else store;
      forall name ensures PutsAny(actions, objectOf, name) <==> PutsTo(a, objectOf, name) || PutsAny(actions[1..], objectOf, name) {
        PutsAnyCons(actions, objectOf, name);
      }
      ApplyPuts(next, actions[1..], objectOf)
  }

  /** The three actions of a successful send store the two uploaded bodies under the names their URLs were presigned for. */
  lemma ApplySend(store: Store, post: Api.SendAction, data: Api.PutRequest, meta: Api.PutRequest,
                  objectOf: string -> Option<string>, dataName: string, metaName: string)
    requires post.PostUpload?
    requires objectOf(data.url) == Some(dataName) && objectOf(meta.url) == Some(metaName)
    ensures ApplyPuts(store, [post, Api.Put(data), Api.Put(meta)], objectOf) == store[dataName := data.body][metaName := meta.body]
  {
    var actions := [post, Api.Put(data), Api.Put(meta)];
    var s1 := store[dataName := data.body];
    var s2 := s1[metaName := meta.body];
    assert actions[1..] == [Api.Put(data), Api.Put(meta)];
    assert actions[1..][1..] == [Api.Put(meta)];
    assert actions[1..][1..][1..] == [];
    assert ApplyPuts(s2, [], objectOf) == s2;
    assert ApplyPuts(s1, [Api.Put(meta)], objectOf) == s2;
    assert ApplyPuts(store, [Api.Put(data), Api.Put(meta)], objectOf) == s2;
  }

  /** A download from the store. */
  function Fetch(store: Store, name: string, missing: Api.GetReply): (r: Api.GetReply)
    ensures name in store ==> r == Api.GetReply(200, Some(store[name]))
    ensures name !in store ==> r == missing
  {
    if name in store then Api.GetReply(200, Some(store[name])) else missing
  }

  /** The server's reply as the client reads it: an error body is not parsed, because the client stops at the status. */
  function AsReply(run: Server.HandlerRun): (r: Api.ServerReply)
    ensures r.Reply? && r.status == run.status
    ensures r.body.Parsed? <==> run.body.Uploaded?
    ensures r.body.Parsed? ==> r.body.response == run.body.response
  {
    Api.Reply(run.status, if run.body.Uploaded? then Api.Parsed(run.body.response) else Api.Malformed)
  }

  /** A presigning function whose URLs each name the object they were presigned for. */
  ghost predicate Traceable(presign: Server.Presign, objectOf: string -> Option<string>) {
    forall name, ttl :: presign(name, ttl).Some? ==> objectOf(presign(name, ttl).value.0) == Some(name)
  }

  /** The upload request a sending client posts, given the bytes its random source gave for the key. */
  function SentRequest(sha256: seq<bv8> -> Api.Digest, keyBytes: seq<bv8>, secretKey: string, ttl: int): (r: UploadRequest)
    ensures r.objectId == Api.DeriveId(sha256, keyBytes)
    ensures r.ttl == ttl && r.secretKey == secretKey
  {
    UploadRequest(ttl, secretKey, Api.DeriveId(sha256, keyBytes))
  }

  // ---------------------------------------------------------------------------
  // A send followed by a receive
  // ---------------------------------------------------------------------------

  /** A successful send posts once and then uploads to the two URLs of the server's reply, in order. */
  lemma SendLayout(c: BlockCipher, sw: Api.SendWorld, sha256: seq<bv8> -> Api.Digest, marshal: FileMetadata -> seq<bv8>,
                   endpoint: string, secretKey: string, filePath: string, ttl: int, response: UploadResponse)
    requires Api.WellFormedSendWorld(sw)
    requires Api.Succeeded(Api.SendSecretFixed(c, sw, sha256, marshal, endpoint, secretKey, filePath, ttl))
    requires sw.reply.Reply? && sw.reply.body == Api.Parsed(response)
    ensures var sent := Api.SendSecretFixed(c, sw, sha256, marshal, endpoint, secretKey, filePath, ttl);
            && |sent.actions| == 3 && sent.actions[0].PostUpload?
            && sent.actions == [sent.actions[0], Api.Put(sent.actions[1].put), Api.Put(sent.actions[2].put)]
            && sent.actions[1].put.url == response.putUrl && sent.actions[2].put.url == response.metaPutUrl
            && sw.keyRandom.Some?
            && sent.result.value.1 == Api.DeriveId(sha256, sw.keyRandom.value)
            && DecodeForHuman(sent.result.value.0) == Success(sw.keyRandom.value)
  {
    var sent := Api.SendSecretFixed(c, sw, sha256, marshal, endpoint, secretKey, filePath, ttl);
    var p := Api.SendPrefixSteps(sw, sha256, endpoint, secretKey, ttl);
    assert p.Ready? && p.response == response;
    ThreeActions(sent.actions);
    SentKey(c, sw, sha256, marshal, endpoint, secretKey, filePath, ttl);
  }

  /** A list of three actions whose last two are uploads, written out. */
  lemma ThreeActions(actions: seq<Api.SendAction>)
    requires |actions| == 3 && actions[1].Put? && actions[2].Put?
    ensures actions == [actions[0], Api.Put(actions[1].put), Api.Put(actions[2].put)]
  {
  }

  /** A successful send prints the human encoding of the key it drew, and asked for the id derived from it. */
  lemma SentKey(c: BlockCipher, sw: Api.SendWorld, sha256: seq<bv8> -> Api.Digest, marshal: FileMetadata -> seq<bv8>,
                endpoint: string, secretKey: string, filePath: string, ttl: int)
    requires Api.WellFormedSendWorld(sw)
    requires Api.Succeeded(Api.SendSecretFixed(c, sw, sha256, marshal, endpoint, secretKey, filePath, ttl))
    ensures var sent := Api.SendSecretFixed(c, sw, sha256, marshal, endpoint, secretKey, filePath, ttl);
            && sw.keyRandom.Some?
            && sent.result.value.1 == Api.DeriveId(sha256, sw.keyRandom.value)
            && DecodeForHuman(sent.result.value.0) == Success(sw.keyRandom.value)
  {
    assert Api.SendPrefixSteps(sw, sha256, endpoint, secretKey, ttl).Ready?;
  }

  /** With the fixed server, a successful send stores the content and the metadata under the id derived from the key. */
  lemma FixedServerStores(c: BlockCipher, sw: Api.SendWorld, sha256: seq<bv8> -> Api.Digest,
                          marshal: FileMetadata -> seq<bv8>, endpoint: string, secretKey: string, filePath: string,
                          ttl: int, serverSecret: string, presign: Server.Presign, objectOf: string -> Option<string>,
                          store0: Store, missing: Api.GetReply)
    requires Api.WellFormedSendWorld(sw) && sw.keyRandom.Some?
    requires sw.reply == AsReply(Server.UploadHandlerFixed(serverSecret,
                                   Some(SentRequest(sha256, sw.keyRandom.value, secretKey, ttl)), presign))
    requires Api.Succeeded(Api.SendSecretFixed(c, sw, sha256, marshal, endpoint, secretKey, filePath, ttl))
    requires Traceable(presign, objectOf)
    ensures var sent := Api.SendSecretFixed(c, sw, sha256, marshal, endpoint, secretKey, filePath, ttl);
            var id := Api.DeriveId(sha256, sw.keyRandom.value);
            var store := ApplyPuts(store0, sent.actions, objectOf);
            && sent.result.value.1 == id
            && store == store0[Server.ContentKey(id) := sent.actions[1].put.body][Server.MetaKey(id) := sent.actions[2].put.body]
            && Fetch(store, Server.ContentKey(id), missing) == Api.GetReply(200, Some(sent.actions[1].put.body))
            && Fetch(store, Server.MetaKey(id), missing) == Api.GetReply(200, Some(sent.actions[2].put.body))
  {
    var sent := Api.SendSecretFixed(c, sw, sha256, marshal, endpoint, secretKey, filePath, ttl);
    var id := Api.DeriveId(sha256, sw.keyRandom.value);
    var run := Server.UploadHandlerFixed(serverSecret, Some(SentRequest(sha256, sw.keyRandom.value, secretKey, ttl)), presign);
    var t := Server.TtlMinutes(ttl);
    assert run.status == 200;
    var response := run.body.response;
    SendLayout(c, sw, sha256, marshal, endpoint, secretKey, filePath, ttl, response);
    assert response.putUrl == presign(Server.ContentKey(id), t).value.0;
    assert response.metaPutUrl == presign(Server.MetaKey(id), t).value.0;
    ApplySend(store0, sent.actions[0], sent.actions[1].put, sent.actions[2].put, objectOf,
              Server.ContentKey(id), Server.MetaKey(id));
    Server.ObjectKeysDistinct(id, id);
  }

  /**
   With a server that presigns the objects of the id the client derived, a
   file sent and then received with the printed key comes back as far as
   `Api.Received` says, which is all of it unless its size is 1 to 16 more
   than a non-zero multiple of 32768: the receiver, knowing only the key,
   finds both objects.
   */
  lemma FixedServerRoundTrip(c: BlockCipher, sw: Api.SendWorld, sha256: seq<bv8> -> Api.Digest,
                             marshal: FileMetadata -> seq<bv8>, unmarshal: seq<bv8> -> Option<FileMetadata>,
                             endpoint: string, secretKey: string, filePath: string, ttl: int,
                             serverSecret: string, presign: Server.Presign, objectOf: string -> Option<string>,
                             store0: Store, missing: Api.GetReply, rw: Api.RecvWorld,
                             bucket: string, region: string, destDir: string, newName: Option<string>, overwrite: bool)
    requires Api.WellFormedSendWorld(sw) && sw.keyRandom.Some?
    requires sw.reply == AsReply(Server.UploadHandlerFixed(serverSecret,
                                   Some(SentRequest(sha256, sw.keyRandom.value, secretKey, ttl)), presign))
    requires Traceable(presign, objectOf)
    requires Api.Succeeded(Api.SendSecretFixed(c, sw, sha256, marshal, endpoint, secretKey, filePath, ttl))
    requires sw.fileContents.Some? && sw.fileSize == Some(|sw.fileContents.value|) && |sw.fileContents.value| > 0
    requires var meta := FileMetadata(Api.BaseName(filePath), |sw.fileContents.value|); unmarshal(marshal(meta)) == Some(meta)
    requires var sent := Api.SendSecretFixed(c, sw, sha256, marshal, endpoint, secretKey, filePath, ttl);
             var store := ApplyPuts(store0, sent.actions, objectOf);
             var id := Api.DeriveId(sha256, sw.keyRandom.value);
             && rw.metaGet == Fetch(store, Server.MetaKey(id), missing)
             && rw.dataGet == Fetch(store, Server.ContentKey(id), missing)
             && rw.createOk && (!rw.fileExists || overwrite)
    ensures var sent := Api.SendSecretFixed(c, sw, sha256, marshal, endpoint, secretKey, filePath, ttl);
            && DecodeForHuman(sent.result.value.0) == Success(sw.keyRandom.value)
            && var got := Api.RecvSecret(c, rw, sha256, unmarshal, bucket, region, sw.keyRandom.value, destDir, newName, overwrite);
            && got.Finished? && got.error == None
            && got.actions[|got.actions| - 1] ==
               Api.WriteFile(Api.FilePath(destDir, if newName.Some? then newName.value else Api.BaseName(filePath)),
                             sw.fileContents.value[..Api.Received(|sw.fileContents.value|)])
  {
    FixedServerStores(c, sw, sha256, marshal, endpoint, secretKey, filePath, ttl, serverSecret, presign, objectOf,
                      store0, missing);
    Api.SendThenReceive(c, sw, sha256, marshal, unmarshal, endpoint, secretKey, filePath, ttl,
                        rw, bucket, region, destDir, newName, overwrite);
  }

  /** With the server as implemented, a successful send stores the content and the metadata under the server's random id. */
  lemma RandomIdStores(c: BlockCipher, sw: Api.SendWorld, sha256: seq<bv8> -> Api.Digest,
                       marshal: FileMetadata -> seq<bv8>, endpoint: string, secretKey: string, filePath: string,
                       ttl: int, serverSecret: string, idRandom: seq<bv8>, presign: Server.Presign,
                       objectOf: string -> Option<string>, store0: Store)
    requires Api.WellFormedSendWorld(sw) && sw.keyRandom.Some? && |idRandom| == 32
    requires sw.reply == AsReply(Server.UploadHandler(serverSecret,
                                   Some(SentRequest(sha256, sw.keyRandom.value, secretKey, ttl)), Some(idRandom), presign))
    requires Api.Succeeded(Api.SendSecretFixed(c, sw, sha256, marshal, endpoint, secretKey, filePath, ttl))
    requires Traceable(presign, objectOf)
    ensures var sent := Api.SendSecretFixed(c, sw, sha256, marshal, endpoint, secretKey, filePath, ttl);
            var rid := Server.GenerateId(Some(idRandom)).value;
            ApplyPuts(store0, sent.actions, objectOf)
            == store0[Server.ContentKey(rid) := sent.actions[1].put.body][Server.MetaKey(rid) := sent.actions[2].put.body]
  {
    var sent := Api.SendSecretFixed(c, sw, sha256, marshal, endpoint, secretKey, filePath, ttl);
    var run := Server.UploadHandler(serverSecret, Some(SentRequest(sha256, sw.keyRandom.value, secretKey, ttl)),
                                    Some(idRandom), presign);
    var rid := Server.GenerateId(Some(idRandom)).value;
    var t := Server.TtlMinutes(ttl);
    assert run.status == 200;
    var response := run.body.response;
    SendLayout(c, sw, sha256, marshal, endpoint, secretKey, filePath, ttl, response);
    assert run == Server.PresignBoth(presign, rid, t);
    assert response.putUrl == presign(Server.ContentKey(rid), t).value.0;
    assert response.metaPutUrl == presign(Server.MetaKey(rid), t).value.0;
    ApplySend(store0, sent.actions[0], sent.actions[1].put, sent.actions[2].put, objectOf,
              Server.ContentKey(rid), Server.MetaKey(rid));
  }

  /**
   With the server as implemented, the objects are stored under an id drawn
   from the server's random source, while the receiver looks under the id
   derived from the key. Unless the random bytes happen to equal the key's
   digest, the receive fails with `MetadataDownloadFailed`, even though the
   send reported success.
   */
  lemma ServerIdMismatch(c: BlockCipher, sw: Api.SendWorld, sha256: seq<bv8> -> Api.Digest,
                         marshal: FileMetadata -> seq<bv8>, unmarshal: seq<bv8> -> Option<FileMetadata>,
                         endpoint: string, secretKey: string, filePath: string, ttl: int,
                         serverSecret: string, idRandom: seq<bv8>, presign: Server.Presign,
                         objectOf: string -> Option<string>, store0: Store, missing: Api.GetReply,
                         rw: Api.RecvWorld, bucket: string, region: string, destDir: string, newName: Option<string>, overwrite: bool)
    requires Api.WellFormedSendWorld(sw) && sw.keyRandom.Some?
    requires |idRandom| == 32 && idRandom != sha256(sw.keyRandom.value)
    requires sw.reply == AsReply(Server.UploadHandler(serverSecret,
                                   Some(SentRequest(sha256, sw.keyRandom.value, secretKey, ttl)), Some(idRandom), presign))
    requires Api.Succeeded(Api.SendSecretFixed(c, sw, sha256, marshal, endpoint, secretKey, filePath, ttl))
    requires Traceable(presign, objectOf)
    requires !Api.Downloaded(missing)
    requires Server.MetaKey(Api.DeriveId(sha256, sw.keyRandom.value)) !in store0
    requires var sent := Api.SendSecretFixed(c, sw, sha256, marshal, endpoint, secretKey, filePath, ttl);
             var store := ApplyPuts(store0, sent.actions, objectOf);
             rw.metaGet == Fetch(store, Server.MetaKey(Api.DeriveId(sha256, sw.keyRandom.value)), missing)
    ensures var sent := Api.SendSecretFixed(c, sw, sha256, marshal, endpoint, secretKey, filePath, ttl);
            && DecodeForHuman(sent.result.value.0) == Success(sw.keyRandom.value)
            && Api.RecvSecret(c, rw, sha256, unmarshal, bucket, region, sw.keyRandom.value, destDir, newName, overwrite)
               == Api.Finished(None, Some(Api.MetadataDownloadFailed),
                               [Api.Get(Api.ObjectName(region, bucket, Server.MetaKey(Api.DeriveId(sha256, sw.keyRandom.value))))])
  {
    RandomIdMissesDerived(c, sw, sha256, marshal, endpoint, secretKey, filePath, ttl, serverSecret, idRandom, presign,
                          objectOf, store0);
    var key := sw.keyRandom.value;
    assert rw.metaGet == missing;
    var r := Api.RecvSecret(c, rw, sha256, unmarshal, bucket, region, key, destDir, newName, overwrite);
    assert r.actions == [r.actions[0]];
  }

  /**
   The send half of `ServerIdMismatch`: the server stores the objects under its
   random id, so the metadata name the key leads to is still absent afterwards.
   */
  lemma RandomIdMissesDerived(c: BlockCipher, sw: Api.SendWorld, sha256: seq<bv8> -> Api.Digest,
                              marshal: FileMetadata -> seq<bv8>, endpoint: string, secretKey: string, filePath: string,
                              ttl: int, serverSecret: string, idRandom: seq<bv8>, presign: Server.Presign,
                              objectOf: string -> Option<string>, store0: Store)
    requires Api.WellFormedSendWorld(sw) && sw.keyRandom.Some?
    requires |idRandom| == 32 && idRandom != sha256(sw.keyRandom.value)
    requires sw.reply == AsReply(Server.UploadHandler(serverSecret,
                                   Some(SentRequest(sha256, sw.keyRandom.value, secretKey, ttl)), Some(idRandom), presign))
    requires Api.Succeeded(Api.SendSecretFixed(c, sw, sha256, marshal, endpoint, secretKey, filePath, ttl))
    requires Traceable(presign, objectOf)
    requires Server.MetaKey(Api.DeriveId(sha256, sw.keyRandom.value)) !in store0
    ensures var sent := Api.SendSecretFixed(c, sw, sha256, marshal, endpoint, secretKey, filePath, ttl);
            && DecodeForHuman(sent.result.value.0) == Success(sw.keyRandom.value)
            && Server.MetaKey(Api.DeriveId(sha256, sw.keyRandom.value)) !in ApplyPuts(store0, sent.actions, objectOf)
  {
    var sent := Api.SendSecretFixed(c, sw, sha256, marshal, endpoint, secretKey, filePath, ttl);
    var id := Api.DeriveId(sha256, sw.keyRandom.value);
    var rid := Server.GenerateId(Some(idRandom)).value;
    var run := Server.UploadHandler(serverSecret, Some(SentRequest(sha256, sw.keyRandom.value, secretKey, ttl)),
                                    Some(idRandom), presign);
    assert run.status == 200;
    SendLayout(c, sw, sha256, marshal, endpoint, secretKey, filePath, ttl, run.body.response);
    RandomIdStores(c, sw, sha256, marshal, endpoint, secretKey, filePath, ttl, serverSecret, idRandom, presign,
                   objectOf, store0);
    assert rid != id by {
      assert DecodeForHuman(rid) == Success(idRandom);
      assert DecodeForHuman(id) == Success(sha256(sw.keyRandom.value));
    }
    Server.ObjectKeysDistinct(rid, id);
    var store := ApplyPuts(store0, sent.actions, objectOf);
    assert Server.MetaKey(id) !in store;
  }

  // ---------------------------------------------------------------------------
  // Browser configuration against this server
  // ---------------------------------------------------------------------------

  /**
   The browser checks a configuration by posting to `/ping`, a route this
   server does not have: the call fails, so a pasted `secretshare config`
   command is never stored and the previous configuration stays.
   */
  lemma BrowserConfigNeverAccepted(command: string, previous: Option<Web.JsConfig>)
    ensures Server.RouteOf("POST", "/ping") == Server.NotFound
    ensures var r := Web.SetConfig(command, previous, Web.PingFailed);
            r.error.Some? && r.held == previous
  {
  }
}

=== FILE: server.dfy ===
/**
 The secretshare server (server/main.go): its configuration defaults, the
 object ids it generates, and the `/upload` handler that checks the shared
 secret and hands out presigned upload URLs for the content object and the
 metadata object.

 The random source and the storage service's URL presigning are inputs: the
 handler is given what `rand.Read` returned and a presigning function from
 an object name and a lifetime in minutes to a URL and its headers (`None`
 when presigning failed).
 */
module Server {
  import opened Wrappers
  import opened Common

  /** The server's own copy of the human-encoding alphabet. */
  const ServerAlphabet: string := "ABCDEFGHIJKLMNOPQRSTUVWXYZ" + "abcdefghijklmnopqrstuvwx" + "zy0123456789+_"

  /** The server spells ids with the same alphabet the clients decode with. */
  lemma SameAlphabet()
    ensures ServerAlphabet == Alphabet
  {
    UpperRange();
    LowerRange();
    DigitRange();
    assert "zy0123456789+_" == "zy" + "0123456789" + "+_";
  }

  lemma UpperRange()
    ensures CharRange('A', 26) == "ABCDEFGHIJKLMNOPQRSTUVWXYZ"
  {
  }

  lemma LowerRange()
    ensures CharRange('a', 24) == "abcdefghijklmnopqrstuvwx"
  {
  }

  lemma DigitRange()
    ensures CharRange('0', 10) == "0123456789"
  {
  }

  /** The configuration file used when the `--config` flag is empty. */
  const DefaultConfigPath: string := "/etc/secretshare-server.json"

  /** The configuration file the server reads: the flag's value, or the default when it is empty. */
  function ConfigPath(flag: string): (r: string)
    ensures r != ""
    ensures flag != "" ==> r == flag
  {
    if |flag| == 0 then DefaultConfigPath else flag
  }

  /** The server configuration file: listen address and port, and the secret clients must present. */
  datatype ServerConfig = ServerConfig(listenAddr: string, listenPort: int, secretKey: string)

  /** The configuration as the server uses it: an empty listen address means all interfaces. */
  function EffectiveConfig(config: ServerConfig): (r: ServerConfig)
    ensures r.listenAddr != ""
    ensures r.listenPort == config.listenPort && r.secretKey == config.secretKey
    ensures config.listenAddr != "" ==> r == config
  {
    if |config.listenAddr| == 0 then config.(listenAddr := "0.0.0.0") else config
  }

  /**
   Filling in the default is idempotent, and the listen address ends up as
   "0.0.0.0" exactly when it was empty or already "0.0.0.0".
   */
  lemma EffectiveConfigSettles(config: ServerConfig)
    ensures EffectiveConfig(EffectiveConfig(config)) == EffectiveConfig(config)
    ensures EffectiveConfig(config).listenAddr == "0.0.0.0" <==> config.listenAddr in {"", "0.0.0.0"}
  {
  }

  /** Why id generation failed. */
  datatype IdError = IdGenFailed | IdTooShort

  /**
   A fresh object id from the 32 bytes the random source was asked for: the
   human encoding of those bytes, 43 symbols without `/`.
   */
  function GenerateId(random: Option<seq<bv8>>): (r: Result<string, IdError>)
    requires random.Some? ==> |random.value| <= 32
    ensures random.None? ==> r == Failure(IdGenFailed)
    ensures random.Some? && |random.value| < 32 ==> r == Failure(IdTooShort)
    ensures r.Success? <==> random.Some? && |random.value| == 32
    ensures r.Success? ==>
              && |r.value| == 43
              && (forall i :: 0 <= i < |r.value| ==> r.value[i] != '/')
              && DecodeForHuman(r.value) == Success(random.value)
  {
    if random.None? then Failure(IdGenFailed)
    else if |random.value| < 32 then Failure(IdTooShort)
    else
      DecodeEncode(random.value);
      DigestEncodingLength(random.value);
      Success(EncodeForHuman(random.value))
  }

  /** The storage object holding the content of id `id`. */
  function ContentKey(id: string): string {
    "" + id
  }

  /** The storage object holding the metadata of id `id`. */
  function MetaKey(id: string): string {
    "meta/" + id
  }

  /**
   For ids without `/`, no content object is a metadata object, and distinct
   ids name distinct objects of each kind.
   */
  lemma ObjectKeysDistinct(a: string, b: string)
    requires forall i :: 0 <= i < |a| ==> a[i] != '/'
    ensures ContentKey(a) != MetaKey(b)
    ensures MetaKey(a) == MetaKey(b) <==> a == b
    ensures ContentKey(a) == ContentKey(b) <==> a == b
  {
    assert ContentKey(a) == a && ContentKey(b) == b;
    assert MetaKey(b)[4] == '/';
    if MetaKey(a) == MetaKey(b) {
      assert a == MetaKey(a)[5..] == MetaKey(b)[5..] == b;
    }
  }

  /** The lifetime of the presigned URLs' objects in minutes: the requested TTL if positive, else four hours. */
  function TtlMinutes(ttl: int): (r: int)
    ensures r > 0
    ensures ttl > 0 <==> r == ttl
    ensures ttl <= 0 ==> r == 4 * 60
  {
    if ttl > 0 then ttl else 60 * 4
  }

  /** A presigned upload: the URL and the headers the upload must carry. */
  type Presign = (string, int) -> Option<(string, Header)>

  /** Why the handler refused. */
  datatype HandlerError = BadRequest | IncorrectSecretKey | IdFailed(error: IdError) | PresignFailed

  /** The JSON body of the handler's reply. */
  datatype HandlerBody = ErrorMessage(error: HandlerError) | Uploaded(response: UploadResponse)

  /** The handler's reply, and the object names it presigned, in order. */
  datatype HandlerRun = HandlerRun(status: int, body: HandlerBody, presigned: seq<string>)

  /**
   The HTTP status the handler gives each of its errors: 400 for an
   unreadable request, 401 for a wrong secret, 500 for the rest.
   */
  function StatusOf(e: HandlerError): (r: int)
    ensures r == 400 <==> e == BadRequest
    ensures r == 401 <==> e == IncorrectSecretKey
    ensures r == 400 || r == 401 || r == 500
  {
    match e
    case BadRequest => 400
    case IncorrectSecretKey => 401
    case _ => 500
  }

  /** Presigns the content object and then the metadata object of `id`, stopping at the first failure. */
  function PresignBoth(presign: Presign, id: string, ttl: int): (r: HandlerRun)
    ensures r.status == 200 <==> presign(ContentKey(id), ttl).Some? && presign(MetaKey(id), ttl).Some?
    ensures r.status != 200 ==> r.body == ErrorMessage(PresignFailed) && r.status == 500
    ensures r.presigned == if presign(ContentKey(id), ttl).None? then [ContentKey(id)] else [ContentKey(id), MetaKey(id)]
    ensures r.status == 200 ==>
              r.body == Uploaded(UploadResponse(id, presign(ContentKey(id), ttl).value.0, presign(ContentKey(id), ttl).value.1,
                                                presign(MetaKey(id), ttl).value.0, presign(MetaKey(id), ttl).value.1))
  {
    match presign(ContentKey(id), ttl)
    case None => HandlerRun(StatusOf(PresignFailed), ErrorMessage(PresignFailed), [ContentKey(id)])
    case Some(content) =>
      match presign(MetaKey(id), ttl)
      case None => HandlerRun(StatusOf(PresignFailed), ErrorMessage(PresignFailed), [ContentKey(id), MetaKey(id)])
      case Some(meta) => HandlerRun(200, Uploaded(UploadResponse(id, content.0, content.1, meta.0, meta.1)),
                                    [ContentKey(id), MetaKey(id)])
  }

  /**
   The `/upload` handler as the server implements it: after the request is
   read and the secret checked, it generates a random id and presigns the
   content and metadata objects of that id. The object id the client sent
   is not read.
   */
  function UploadHandler(secret: string, request: Option<UploadRequest>, random: Option<seq<bv8>>,
                         presign: Presign): (r: HandlerRun)
    requires random.Some? ==> |random.value| <= 32
    ensures request.None? ==> r == HandlerRun(400, ErrorMessage(BadRequest), [])
    ensures request.Some? && request.value.secretKey != secret ==> r == HandlerRun(401, ErrorMessage(IncorrectSecretKey), [])
    ensures r.status == 200 <==>
              && request.Some? && request.value.secretKey == secret && GenerateId(random).Success?
              && var id := GenerateId(random).value;
              && presign(ContentKey(id), TtlMinutes(request.value.ttl)).Some?
              && presign(MetaKey(id), TtlMinutes(request.value.ttl)).Some?
    ensures r.status == 200 ==>
              && r.body.Uploaded? && r.body.response.id == GenerateId(random).value
              && r.presigned == [ContentKey(r.body.response.id), MetaKey(r.body.response.id)]
    ensures r.status != 200 ==> r.body.ErrorMessage? && r.status == StatusOf(r.body.error)
  {
    if request.None? then HandlerRun(StatusOf(BadRequest), ErrorMessage(BadRequest), [])
    else if request.value.secretKey != secret then HandlerRun(StatusOf(IncorrectSecretKey), ErrorMessage(IncorrectSecretKey), [])
    else
      var ttl := TtlMinutes(request.value.ttl);
      match GenerateId(random)
      case Failure(e) => HandlerRun(StatusOf(IdFailed(e)), ErrorMessage(IdFailed(e)), [])
      case Success(id) => PresignBoth(presign, id, ttl)
  }

  /**
   The `/upload` handler as the clients expect it: after the same checks, it
   presigns the content and metadata objects of the object id the client
   derived from its key, so that a receiver holding the key can find them.
   */
  function UploadHandlerFixed(secret: string, request: Option<UploadRequest>, presign: Presign): (r: HandlerRun)
    ensures request.None? ==> r == HandlerRun(400, ErrorMessage(BadRequest), [])
    ensures request.Some? && request.value.secretKey != secret ==> r == HandlerRun(401, ErrorMessage(IncorrectSecretKey), [])
    ensures r.status == 200 <==>
              && request.Some? && request.value.secretKey == secret
              && presign(ContentKey(request.value.objectId), TtlMinutes(request.value.ttl)).Some?
              && presign(MetaKey(request.value.objectId), TtlMinutes(request.value.ttl)).Some?
    ensures r.status == 200 ==>
              var ttl := TtlMinutes(request.value.ttl);
              var id := request.value.objectId;
              && r.body == Uploaded(UploadResponse(id, presign(ContentKey(id), ttl).value.0, presign(ContentKey(id), ttl).value.1,
                                                   presign(MetaKey(id), ttl).value.0, presign(MetaKey(id), ttl).value.1))
              && r.presigned == [ContentKey(id), MetaKey(id)]
    ensures r.status != 200 ==> r.body.ErrorMessage? && r.status == StatusOf(r.body.error)
  {
    if request.None? then HandlerRun(StatusOf(BadRequest), ErrorMessage(BadRequest), [])
    else if request.value.secretKey != secret then HandlerRun(StatusOf(IncorrectSecretKey), ErrorMessage(IncorrectSecretKey), [])
    else PresignBoth(presign, request.value.objectId, TtlMinutes(request.value.ttl))
  }

  /** The server's reply does not depend on the object id the client sent. */
  lemma UploadIgnoresObjectId(secret: string, ttl: int, secretKey: string, id1: string, id2: string,
                              random: Option<seq<bv8>>, presign: Presign)
    requires random.Some? ==> |random.value| <= 32
    ensures UploadHandler(secret, Some(UploadRequest(ttl, secretKey, id1)), random, presign)
            == UploadHandler(secret, Some(UploadRequest(ttl, secretKey, id2)), random, presign)
  {
  }

  /** Both handlers agree except on which id they presign: they refuse the same requests with the same status. */
  lemma HandlersAgreeOnRefusals(secret: string, request: Option<UploadRequest>, random: Option<seq<bv8>>, presign: Presign)
    requires random.Some? ==> |random.value| <= 32
    requires request.None? || request.value.secretKey != secret
    ensures UploadHandler(secret, request, random, presign) == UploadHandlerFixed(secret, request, presign)
  {
  }

  /**
   What the server does with a request: report its version, run the upload
   handler, redirect to the same path without its trailing slash (the
   router's default), or answer "not found".
   */
  datatype Route = VersionRoute | UploadRoute | Redirected(status: int, location: string) | NotFound

  /** The server's routing table: `GET /version` and `POST /upload`, nothing else. */
  predicate Handles(verb: string, path: string) {
    (verb == "GET" && path == "/version") || (verb == "POST" && path == "/upload")
  }

  /**
   Routes a request as `gin.Default()` does with the two registered routes:
   a path that misses a route only by one trailing slash is redirected
   there, with 301 for `GET` and 307 for every other verb.
   */
  function RouteOf(verb: string, path: string): (r: Route)
    ensures r == VersionRoute <==> verb == "GET" && path == "/version"
    ensures r == UploadRoute <==> verb == "POST" && path == "/upload"
    ensures r.Redirected? ==> && r.location + "/" == path && Handles(verb, r.location)
                              && (r.status == 301 <==> verb == "GET") && (r.status == 307 <==> verb != "GET")
    ensures r.NotFound? <==> !Handles(verb, path) && !exists p :: p + "/" == path && Handles(verb, p)
  {
    if Handles(verb, path) then (if verb == "GET" then VersionRoute else UploadRoute)
    else if |path| > 1 && path[|path| - 1] == '/' && Handles(verb, path[..|path| - 1]) then
      Redirected(if verb == "GET" then 301 else 307, path[..|path| - 1])
    else NotFound
  }

  /** One redirect is all it takes: the redirected request reaches one of the two handlers. */
  lemma RedirectReachesHandler(verb: string, path: string)
    ensures var r := RouteOf(verb, path);
            r.Redirected? ==> RouteOf(verb, r.location) in {VersionRoute, UploadRoute}
  {
  }

  /** The trailing-slash variants of the two routes are redirected; a route under the other verb is not found. */
  lemma TrailingSlashRoutes()
    ensures RouteOf("GET", "/version/") == Redirected(301, "/version")
    ensures RouteOf("POST", "/upload/") == Redirected(307, "/upload")
    ensures RouteOf("POST", "/version/") == NotFound
    ensures RouteOf("GET", "/upload") == NotFound
  {
  }
}

=== FILE: web.dfy ===
/**
 The browser client (web/js/secretshare.js): its key encoding, key and id
 generation, the envelope it builds around the browser's AES-CBC output, the
 parser of the pasted `secretshare config` command, the configuration check,
 and the callback chain of an upload.

 The browser's crypto, XMLHttpRequest and `$.ajax` calls are inputs: what the
 random source and the hash gave, and the status each request ended with.
 Callbacks are followed as the explicit data flow the code intends, with the
 configuration passed along as a value.
 */
module Web {
  import opened Wrappers
  import opened Common
  import opened Cipher
  import Base64
  import Api

  /** The AES block length the client pads to. */
  const AesBlockLen: nat := 16

  /**
   The padding length the client writes into byte 0 of an envelope: the
   browser's AES-CBC always pads, with a whole block when the plaintext is
   already aligned.
   */
  function PadLen(byteLength: nat): (r: nat)
    ensures 1 <= r <= AesBlockLen
    ensures (byteLength + r) % AesBlockLen == 0
    ensures r == AesBlockLen <==> byteLength % AesBlockLen == 0
  {
    if byteLength % AesBlockLen == 0 then AesBlockLen else AesBlockLen - byteLength % AesBlockLen
  }

  /** The header byte is exactly the number of bytes PKCS #7 padding adds. */
  lemma PadLenIsPkcs7(p: seq<bv8>)
    ensures |Pkcs7Pad(p)| == |p| + PadLen(|p|)
    ensures forall i :: |p| <= i < |Pkcs7Pad(p)| ==> Pkcs7Pad(p)[i] as int == PadLen(|p|)
  {
  }

  /** What the browser's AES-CBC encryption returns: the PKCS #7 padded plaintext in CBC mode. */
  function SubtleEncrypt(c: BlockCipher, key: seq<bv8>, iv: Block, plaintext: seq<bv8>): (r: seq<bv8>)
    ensures |r| == |plaintext| + PadLen(|plaintext|)
  {
    CbcEncrypt(c, key, iv, Pkcs7Pad(plaintext))
  }

  /** Storing into a typed byte array: a store past the end is dropped. */
  function TypedStore(view: seq<bv8>, index: nat, value: bv8): (r: seq<bv8>)
    ensures |r| == |view|
    ensures index < |view| ==> r[index] == value
    ensures forall k :: 0 <= k < |view| && k != index ==> r[k] == view[k]
  {
    if index < |view| then view[index := value] else view
  }

  /**
   Lays out the result buffer as the encryption callback does: a zeroed
   buffer of `|enctext| + 17` bytes, the padding length at byte 0, the IV at
   bytes 1..16, and the ciphertext copied by a loop that runs over the whole
   buffer length, its stores past the end dropped by the typed array.
   */
  method AssembleResult(padLen: nat, iv: Block, enctext: seq<bv8>) returns (rslt: seq<bv8>)
    requires padLen <= AesBlockLen
    ensures |rslt| == |enctext| + AesBlockLen + 1
    ensures rslt[0] as int == padLen
    ensures rslt[1..17] == iv
    ensures rslt[17..] == enctext
  {
    rslt := seq(|enctext| + AesBlockLen + 1, _ => 0);
    rslt := TypedStore(rslt, 0, padLen as bv8);
    var i := 0;
    while i < |iv|
      invariant 0 <= i <= 16 && |rslt| == |enctext| + 17
      invariant rslt[0] as int == padLen
      invariant forall k :: 0 <= k < i ==> rslt[k + 1] == iv[k]
    {
      rslt := TypedStore(rslt, i + 1, iv[i]);
      i := i + 1;
    }
    i := 0;
    while i < |rslt|
      invariant 0 <= i <= |rslt| && |rslt| == |enctext| + 17
      invariant rslt[0] as int == padLen
      invariant forall k :: 0 <= k < 16 ==> rslt[k + 1] == iv[k]
      invariant forall k :: 0 <= k < i && k < |enctext| ==> rslt[k + 17] == enctext[k]
    {
      var value := if i < |enctext| then enctext[i] else 0;
      rslt := TypedStore(rslt, i + AesBlockLen + 1, value);
      i := i + 1;
    }
  }

  /** The envelope the browser uploads: padding length, IV, then the browser's ciphertext. */
  function JsEnvelope(c: BlockCipher, key: seq<bv8>, iv: Block, plaintext: seq<bv8>): (r: seq<bv8>)
    ensures |r| == 17 + |plaintext| + PadLen(|plaintext|)
  {
    [PadLen(|plaintext|) as bv8] + iv + SubtleEncrypt(c, key, iv, plaintext)
  }

  /**
   Encrypts as the client's `encrypt` does: the key import fails for a key
   that is not 16, 24 or 32 bytes long, and then the callback never runs.
   */
  method Encrypt(c: BlockCipher, plaintext: seq<bv8>, key: seq<bv8>, iv: Block) returns (r: Option<seq<bv8>>)
    ensures r.Some? <==> ValidKeyLength(|key|)
    ensures r.Some? ==> r.value == JsEnvelope(c, key, iv, plaintext)
  {
    if !ValidKeyLength(|key|) {
      return None;
    }
    var enctext := SubtleEncrypt(c, key, iv, plaintext);
    var rslt := AssembleResult(PadLen(|plaintext|), iv, enctext);
    assert rslt == rslt[..1] + rslt[1..17] + rslt[17..];
    return Some(rslt);
  }

  /** The standard base64 alphabet of section 4 of RFC 4648, which `btoa` uses. */
  const StdAlphabet: seq<char> := CharRange('A', 26) + CharRange('a', 26) + CharRange('0', 10) + "+/"

  /** Maps a symbol of the Go alphabet to the standard symbol of the same index. */
  function GoToStd(ch: char): char {
    if ch == 'y' then 'z' else if ch == 'z' then 'y' else if ch == '_' then '/' else ch
  }

  /** Exchanges `y` and `z`, leaving every other character alone. */
  function SwapYZ(ch: char): char {
    if ch == 'y' then 'z' else if ch == 'z' then 'y' else ch
  }

  /** The standard alphabet is the Go alphabet with `y` and `z` exchanged and `/` in place of `_`. */
  lemma StdFromGo(i: nat)
    requires i < 64
    ensures |StdAlphabet| == 64 && |Alphabet| == 64
    ensures StdAlphabet[i] == GoToStd(Alphabet[i])
  {
    var u, l, d := CharRange('A', 26), CharRange('a', 26), CharRange('0', 10);
    assert StdAlphabet == u + l + d + "+/";
    SymbolAt(i);
    if i < 26 { assert StdAlphabet[i] == u[i]; }
    else if i < 52 { assert StdAlphabet[i] == l[i - 26]; }
    else if i < 62 { assert StdAlphabet[i] == d[i - 52]; }
    else { assert StdAlphabet[i] == "+/"[i - 62]; }
  }

  /** A run of `n` padding characters. */
  function Equals(n: nat): (r: string)
    ensures |r| == n && forall i :: 0 <= i < n ==> r[i] == '='
  {
    seq(n, _ => '=')
  }

  /** What `btoa` returns for a string of byte-valued characters: standard base64 with `=` padding. */
  function Btoa(data: seq<bv8>): (r: string)
    ensures |r| % 4 == 0
    ensures |r| >= Base64.EncodedLength(|data|)
  {
    var s := Base64.Sextets(data);
    StdFromGo(0);
    seq(|s|, i requires 0 <= i < |s| => StdAlphabet[s[i] as int]) + Equals((4 - |s| % 4) % 4)
  }

  /** The global replacement `s.replace(new RegExp(from, "g"), to)` for a one-character `to`. */
  function ReplaceAll(s: string, from: char, to: char): (r: string)
    ensures |r| == |s|
    ensures forall i :: 0 <= i < |s| ==> r[i] == if s[i] == from then to else s[i]
  {
    seq(|s|, i requires 0 <= i < |s| => if s[i] == from then to else s[i])
  }

  /** The global removal `s.replace(new RegExp(ch, "g"), "")`. */
  function RemoveAll(s: string, ch: char): (r: string)
    ensures forall i :: 0 <= i < |r| ==> r[i] != ch
    ensures |r| <= |s|
  {
    if |s| == 0 then [] else (if s[0] == ch then [] else [s[0]]) + RemoveAll(s[1..], ch)
  }

  lemma {:induction false} RemoveAllAppend(a: string, b: string, ch: char)
    ensures RemoveAll(a + b, ch) == RemoveAll(a, ch) + RemoveAll(b, ch)
    decreases |a|
  {
    if |a| > 0 {
      assert (a + b)[1..] == a[1..] + b;
      RemoveAllAppend(a[1..], b, ch);
    } else {
      assert a + b == b;
    }
  }

  lemma {:induction false} RemoveAllAbsent(s: string, ch: char)
    requires forall i :: 0 <= i < |s| ==> s[i] != ch
    ensures RemoveAll(s, ch) == s
    decreases |s|
  {
    if |s| > 0 {
      RemoveAllAbsent(s[1..], ch);
    }
  }

  lemma {:induction false} RemoveAllOnly(s: string, ch: char)
    requires forall i :: 0 <= i < |s| ==> s[i] == ch
    ensures RemoveAll(s, ch) == []
    decreases |s|
  {
    if |s| > 0 {
      RemoveAllOnly(s[1..], ch);
    }
  }

  /** The browser's human encoding: `btoa`, then every `/` made `_` and every `=` removed. */
  function JsEncodeForHuman(bytes: seq<bv8>): (r: string) {
    RemoveAll(ReplaceAll(Btoa(bytes), '/', '_'), '=')
  }

  /**
   The browser spells every sextet as the Go client does except that `y` and
   `z` trade places: the two encodings of the same bytes differ exactly there.
   */
  lemma JsEncodingSwapsYZ(bytes: seq<bv8>)
    ensures var go := EncodeForHuman(bytes);
            && |JsEncodeForHuman(bytes)| == |go|
            && forall i :: 0 <= i < |go| ==> JsEncodeForHuman(bytes)[i] == SwapYZ(go[i])
  {
    var s := Base64.Sextets(bytes);
    var spelled := seq(|s|, i requires 0 <= i < |s| => StdAlphabet[s[i] as int]);
    var pad := Equals((4 - |s| % 4) % 4);
    StdFromGo(0);
    AlphabetShape();
    assert Btoa(bytes) == spelled + pad;
    var replaced := ReplaceAll(spelled, '/', '_');
    assert ReplaceAll(spelled + pad, '/', '_') == replaced + pad;
    forall i | 0 <= i < |s| ensures replaced[i] == SwapYZ(Alphabet[s[i] as int]) && replaced[i] != '=' {
      StdFromGo(s[i] as int);
    }
    RemoveAllAppend(replaced, pad, '=');
    RemoveAllAbsent(replaced, '=');
    RemoveAllOnly(pad, '=');
    assert JsEncodeForHuman(bytes) == replaced;
  }

  /** The browser's encoding has neither `/` nor `=`, and is as long as the Go one. */
  lemma JsEncodingSymbols(bytes: seq<bv8>)
    ensures |JsEncodeForHuman(bytes)| == Base64.EncodedLength(|bytes|)
    ensures forall i :: 0 <= i < |JsEncodeForHuman(bytes)| ==>
              JsEncodeForHuman(bytes)[i] != '/' && JsEncodeForHuman(bytes)[i] != '='
  {
    JsEncodingSwapsYZ(bytes);
  }

  /** Where neither `y` nor `z` occurs, the Go client decodes the browser's encoding correctly. */
  lemma GoDecodesJsWithoutYZ(bytes: seq<bv8>)
    requires forall i :: 0 <= i < |JsEncodeForHuman(bytes)| ==>
               JsEncodeForHuman(bytes)[i] != 'y' && JsEncodeForHuman(bytes)[i] != 'z'
    ensures DecodeForHuman(JsEncodeForHuman(bytes)) == Success(bytes)
  {
    JsEncodingSwapsYZ(bytes);
    var go := EncodeForHuman(bytes);
    forall i | 0 <= i < |go| ensures JsEncodeForHuman(bytes)[i] == go[i] {
      assert SwapYZ(go[i]) != 'y' && SwapYZ(go[i]) != 'z';
    }
    assert JsEncodeForHuman(bytes) == go;
    DecodeEncode(bytes);
  }

  lemma GoSpellsCB()
    ensures EncodeForHuman([0xCB]) == "zw"
  {
    var s := Base64.Sextets([0xCB]);
    assert s == Base64.Group1(0xCB);
    assert s == [50, 48];
    SymbolAt(48);
    SymbolAt(50);
    assert Alphabet[48] == 'w' && Alphabet[50] == 'z';
  }

  lemma GoReadsYW()
    ensures DecodeForHuman("yw") == Success([0xCF])
  {
    var h := "yw";
    assert SymbolValue(h[0]) == Some(51) && SymbolValue(h[1]) == Some(48);
    var v := SymbolValues(h);
    assert v.value == [51, 48];
    assert StripLineBreaks(h) == h by {
      StripNothing(h);
    }
    assert Base64.Unsextets([51, 48]) == Base64.Ungroup2(51, 48);
  }

  /**
   The byte 0xCB is spelled "zw" by Go and "yw" by the browser; the Go client
   reads "yw" as 0xCF, so a key pasted from the browser opens a different id.
   */
  lemma GoMisreadsJsKey()
    ensures EncodeForHuman([0xCB]) == "zw"
    ensures JsEncodeForHuman([0xCB]) == "yw"
    ensures DecodeForHuman(JsEncodeForHuman([0xCB])) == Success([0xCF])
  {
    GoSpellsCB();
    JsEncodingSwapsYZ([0xCB]);
    assert JsEncodeForHuman([0xCB]) == "yw";
    GoReadsYW();
  }

  /**
   The browser's encoding with `y` and `z` exchanged back, which is what the
   Go alphabet spells: the Go client decodes it to the original bytes.
   */
  function JsEncodeForHumanFixed(bytes: seq<bv8>): (r: string)
    ensures DecodeForHuman(r) == Success(bytes)
  {
    var js := JsEncodeForHuman(bytes);
    var go := EncodeForHuman(bytes);
    JsEncodingSwapsYZ(bytes);
    var r := seq(|js|, i requires 0 <= i < |js| => SwapYZ(js[i]));
    assert r == go by {
      forall i | 0 <= i < |go| ensures r[i] == go[i] {
        assert js[i] == SwapYZ(go[i]);
      }
    }
    DecodeEncode(bytes);
    r
  }

  /**
   The key the client generates: the 32 bytes the random source filled in, and
   their encoding; `None` when the random source threw.
   */
  function GenerateKey(random: Option<seq<bv8>>): (r: Option<(seq<bv8>, string)>)
    requires random.Some? ==> |random.value| == 32
    ensures r.Some? <==> random.Some?
    ensures r.Some? ==> r.value.0 == random.value && |r.value.1| == 43
    ensures r.Some? ==> forall i :: 0 <= i < |r.value.1| ==> r.value.1[i] != '/' && r.value.1[i] != '='
  {
    if random.None? then None
    else
      JsEncodingSymbols(random.value);
      Some((random.value, JsEncodeForHuman(random.value)))
  }

  /** The 32-byte buffer `deriveId` hashes: the key copied in, missing entries stored as 0. */
  function KeyView(key: seq<bv8>): (r: seq<bv8>)
    ensures |r| == 32
    ensures |key| == 32 ==> r == key
  {
    seq(32, i requires 0 <= i < 32 => if i < |key| then key[i] else 0)
  }

  /**
   The object id the browser derives: the browser's encoding of the SHA-256
   digest of the key. For a 32-byte key it is the Go id with `y` and `z`
   exchanged.
   */
  function DeriveId(sha256: seq<bv8> -> Api.Digest, key: seq<bv8>): (r: string)
    ensures |r| == 43
    ensures |key| == 32 ==> forall i :: 0 <= i < 43 ==> r[i] == SwapYZ(Api.DeriveId(sha256, key)[i])
  {
    JsEncodingSwapsYZ(sha256(KeyView(key)));
    JsEncodingSymbols(sha256(KeyView(key)));
    JsEncodeForHuman(sha256(KeyView(key)))
  }

  /** The four settings of the browser client. */
  datatype ConfigKey = EndpointBaseUrl | Bucket | BucketRegion | AuthKey

  /** The browser client's configuration: the settings that are present. */
  type JsConfig = map<ConfigKey, string>

  /** The setting a command-line flag names, if the token is one of the four flags. */
  function FlagKey(token: string): Option<ConfigKey> {
    if token == "--endpoint" then Some(EndpointBaseUrl)
    else if token == "--bucket" then Some(Bucket)
    else if token == "--bucket-region" then Some(BucketRegion)
    else if token == "--auth-key" then Some(AuthKey)
    else None
  }

  /** The state the parser carries from token to token: the setting a flag just named, and the settings so far. */
  datatype ParseState = ParseState(keyToSet: Option<ConfigKey>, config: JsConfig)

  /** One step of the parser: a flag names the next setting; any other token fills it, if one is named. */
  function ParseStep(st: ParseState, token: string): ParseState {
    match FlagKey(token)
    case Some(k) => st.(keyToSet := Some(k))
    case None =>
      ParseState(None, if st.keyToSet.Some? then st.config[st.keyToSet.value := token] else st.config)
  }

  /** The parser run over a token list, as the `reduce` of `setConfig` does from an empty object. */
  function ParseTokens(tokens: seq<string>): (r: ParseState)
    ensures r.keyToSet == if tokens == [] then None else FlagKey(tokens[|tokens| - 1])
    decreases |tokens|
  {
    if tokens == [] then ParseState(None, map[])
    else ParseStep(ParseTokens(tokens[..|tokens| - 1]), tokens[|tokens| - 1])
  }

  /** Token `i` is the value given to setting `k`: it follows `k`'s flag and is not itself a flag. */
  predicate Assigns(tokens: seq<string>, i: int, k: ConfigKey) {
    0 < i < |tokens| && FlagKey(tokens[i - 1]) == Some(k) && FlagKey(tokens[i]).None?
  }

  /** One parser step changes setting `k` exactly when the token is the value for a flag naming `k`. */
  lemma ParseStepConfig(st: ParseState, token: string, k: ConfigKey)
    ensures var after := ParseStep(st, token).config;
            && (k in after <==> k in st.config || (FlagKey(token).None? && st.keyToSet == Some(k)))
            && (k in after ==> after[k] == if FlagKey(token).None? && st.keyToSet == Some(k) then token else st.config[k])
  {
  }

  /** Whether a token assigns `k` does not depend on the tokens after it. */
  lemma AssignsPrefix(tokens: seq<string>, k: ConfigKey)
    requires |tokens| > 0
    ensures forall i :: 0 <= i < |tokens| - 1 ==> (Assigns(tokens, i, k) <==> Assigns(tokens[..|tokens| - 1], i, k))
    ensures Assigns(tokens, |tokens| - 1, k) <==>
              FlagKey(tokens[|tokens| - 1]).None? && ParseTokens(tokens[..|tokens| - 1]).keyToSet == Some(k)
  {
    var prefix := tokens[..|tokens| - 1];
    forall i | 0 <= i < |tokens| - 1 ensures Assigns(tokens, i, k) == Assigns(prefix, i, k) {
      assert tokens[i] == prefix[i];
      if i > 0 { assert tokens[i - 1] == prefix[i - 1]; }
    }
    if |tokens| > 1 { assert prefix[|prefix| - 1] == tokens[|tokens| - 2]; }
  }

  /** A setting is present after parsing exactly when some token was given to it. */
  lemma {:induction false} ParseTokensPresent(tokens: seq<string>, k: ConfigKey)
    ensures k in ParseTokens(tokens).config <==> exists i :: Assigns(tokens, i, k)
    decreases |tokens|
  {
    if tokens != [] {
      var n := |tokens| - 1;
      var prefix := tokens[..n];
      ParseTokensPresent(prefix, k);
      AssignsPrefix(tokens, k);
      ParseStepConfig(ParseTokens(prefix), tokens[n], k);
      if exists i :: Assigns(tokens, i, k) {
        var i :| Assigns(tokens, i, k);
        if i < n { assert Assigns(prefix, i, k); }
      }
      if exists i :: Assigns(prefix, i, k) {
        var i :| Assigns(prefix, i, k);
        assert Assigns(tokens, i, k);
      }
    }
  }

  /** A present setting holds the last token given to it. */
  lemma {:induction false} ParseTokensLast(tokens: seq<string>, k: ConfigKey, i: int)
    requires Assigns(tokens, i, k)
    requires forall j :: i < j < |tokens| ==> !Assigns(tokens, j, k)
    ensures k in ParseTokens(tokens).config && ParseTokens(tokens).config[k] == tokens[i]
    decreases |tokens|
  {
    var n := |tokens| - 1;
    var prefix := tokens[..n];
    AssignsPrefix(tokens, k);
    ParseStepConfig(ParseTokens(prefix), tokens[n], k);
    if i < n {
      assert !Assigns(tokens, n, k);
      assert Assigns(prefix, i, k);
      forall j | i < j < n ensures !Assigns(prefix, j, k) {
        assert !Assigns(tokens, j, k);
      }
      ParseTokensLast(prefix, k, i);
      assert tokens[i] == prefix[i];
    }
  }

  /** The index of the first space in `s`. */
  function FirstSpace(s: string): (r: nat)
    requires ' ' in s
    ensures r < |s| && s[r] == ' ' && ' ' !in s[..r]
  {
    if s[0] == ' ' then 0
    else
      assert ' ' in s[1..] by {
        var j :| 0 <= j < |s| && s[j] == ' ';
        assert s[1..][j - 1] == ' ';
      }
      var r := 1 + FirstSpace(s[1..]);
      assert s[..r] == [s[0]] + s[1..][..r - 1];
      r
  }

  /** `s.split(" ")`: the pieces between single spaces, empty pieces included. */
  function SplitSpaces(s: string): (r: seq<string>)
    ensures |r| >= 1
    ensures forall i :: 0 <= i < |r| ==> ' ' !in r[i]
    decreases |s|
  {
    if ' ' in s then
      var i := FirstSpace(s);
      [s[..i]] + SplitSpaces(s[i + 1..])
    else [s]
  }

  /** Joins pieces with single spaces. */
  function JoinSpaces(pieces: seq<string>): string
    requires |pieces| >= 1
  {
    if |pieces| == 1 then pieces[0] else pieces[0] + " " + JoinSpaces(pieces[1..])
  }

  /** Splitting loses nothing: joining the pieces gives the command back. */
  lemma {:induction false} JoinSplit(s: string)
    ensures JoinSpaces(SplitSpaces(s)) == s
    decreases |s|
  {
    if ' ' in s {
      var i := FirstSpace(s);
      JoinSplit(s[i + 1..]);
      assert SplitSpaces(s)[1..] == SplitSpaces(s[i + 1..]);
      assert s == s[..i] + " " + s[i + 1..];
    }
  }

  /** In a join of a space-free piece with the rest, the first space is the separator. */
  lemma FirstSpaceOfJoin(first: string, rest: string)
    requires ' ' !in first
    ensures ' ' in first + " " + rest
    ensures FirstSpace(first + " " + rest) == |first|
  {
    var s := first + " " + rest;
    assert s[|first|] == ' ';
    var i := FirstSpace(s);
    assert s[..|first|] == first;
  }

  /** Splitting a join of space-free pieces gives the pieces back. */
  lemma {:induction false} SplitJoin(pieces: seq<string>)
    requires |pieces| >= 1
    requires forall i :: 0 <= i < |pieces| ==> ' ' !in pieces[i]
    ensures SplitSpaces(JoinSpaces(pieces)) == pieces
    decreases |pieces|
  {
    if |pieces| > 1 {
      var rest := JoinSpaces(pieces[1..]);
      var s := pieces[0] + " " + rest;
      FirstSpaceOfJoin(pieces[0], rest);
      assert s[..|pieces[0]|] == pieces[0];
      assert s[|pieces[0]| + 1..] == rest;
      SplitJoin(pieces[1..]);
      assert pieces == [pieces[0]] + pieces[1..];
    } else {
      assert ' ' !in pieces[0];
    }
  }

  /** The settings a pasted `secretshare config` command gives. */
  function ParseConfig(command: string): JsConfig {
    ParseTokens(SplitSpaces(command)).config
  }

  /** The settings `checkConfig` requires, in the order it reports them. */
  const RequiredKeys: seq<ConfigKey> := [EndpointBaseUrl, Bucket, BucketRegion, AuthKey]

  /** The position of a setting in `RequiredKeys`. */
  function IndexOfKey(k: ConfigKey): (r: nat)
    ensures r < |RequiredKeys| && RequiredKeys[r] == k
  {
    match k
    case EndpointBaseUrl => 0
    case Bucket => 1
    case BucketRegion => 2
    case AuthKey => 3
  }

  /** The keys of `keys` absent from `config`, in the order of `keys`. */
  function AbsentKeys(keys: seq<ConfigKey>, config: JsConfig): (r: seq<ConfigKey>)
    requires forall i, j :: 0 <= i < j < |keys| ==> IndexOfKey(keys[i]) < IndexOfKey(keys[j])
    ensures forall k :: k in r <==> k in keys && k !in config
    ensures forall i, j :: 0 <= i < j < |r| ==> IndexOfKey(r[i]) < IndexOfKey(r[j])
  {
    if keys == [] then []
    else
      var rest := AbsentKeys(keys[1..], config);
      assert forall i :: 0 <= i < |rest| ==> IndexOfKey(keys[0]) < IndexOfKey(rest[i]) by {
        forall i | 0 <= i < |rest| ensures IndexOfKey(keys[0]) < IndexOfKey(rest[i]) {
          assert rest[i] in keys[1..];
          var j :| 0 <= j < |keys[1..]| && keys[1..][j] == rest[i];
          assert keys[j + 1] == rest[i];
        }
      }
      assert forall k :: k in keys <==> k == keys[0] || k in keys[1..] by {
        assert keys == [keys[0]] + keys[1..];
      }
      if keys[0] in config then rest else [keys[0]] + rest
  }

  /** The required settings absent from `config`, in the order `checkConfig` reports them. */
  function Missing(config: JsConfig): (r: seq<ConfigKey>)
    ensures forall k :: k in r <==> k !in config
    ensures forall i, j :: 0 <= i < j < |r| ==> IndexOfKey(r[i]) < IndexOfKey(r[j])
  {
    forall k ensures k in RequiredKeys { assert RequiredKeys[IndexOfKey(k)] == k; }
    AbsentKeys(RequiredKeys, config)
  }

  /** The URL of a server call: the endpoint and the call name joined with `/` (an absent endpoint joins as empty). */
  function ApiUrl(config: JsConfig, call: string): string {
    (if EndpointBaseUrl in config then config[EndpointBaseUrl] else "") + "/" + call
  }

  /** The browser client's errors. */
  datatype JsError =
    | MissingOptions(keys: seq<ConfigKey>)
    | ImproperPing
    | RequestFailed
    | KeyGenThrew
    | UploadFailed

  /** How the server answered the ping call. */
  datatype PingReply = PingFailed | PingAnswered(pong: bool)

  /** An external action of the browser client. */
  datatype JsAction =
    | PostApi(url: string, secretKey: Option<string>, objectId: Option<string>)
    | PutObject(url: string, headers: seq<(string, string)>, body: seq<bv8>)
    | StoreConfigCookie(config: JsConfig)

  /** The value of a setting, if present. */
  function Lookup(config: JsConfig, k: ConfigKey): Option<string> {
    if k in config then Some(config[k]) else None
  }

  /**
   Checks a configuration: with a required setting missing it fails at once
   without contacting the server; otherwise it pings the server and succeeds
   exactly when the answer says `pong`.
   */
  function CheckConfig(config: JsConfig, ping: PingReply): (r: (Option<JsError>, seq<JsAction>))
    ensures Missing(config) != [] ==> r == (Some(MissingOptions(Missing(config))), [])
    ensures Missing(config) == [] ==> r.1 == [PostApi(ApiUrl(config, "ping"), Some(config[AuthKey]), None)]
    ensures r.0 == None <==> Missing(config) == [] && ping == PingAnswered(true)
  {
    if Missing(config) != [] then (Some(MissingOptions(Missing(config))), [])
    else
      var call := [PostApi(ApiUrl(config, "ping"), Lookup(config, AuthKey), None)];
      match ping
      case PingFailed => (Some(RequestFailed), call)
      case PingAnswered(pong) => (if pong then None else Some(ImproperPing), call)
  }

  /** What `setConfig` leaves behind: the configuration the client holds, the error, and the actions. */
  datatype SetConfigResult = SetConfigResult(held: Option<JsConfig>, error: Option<JsError>, actions: seq<JsAction>)

  /**
   Parses a pasted command, checks the result, and on success stores it in
   the cookie and keeps it; on failure the previous configuration is restored.
   */
  function SetConfig(command: string, previous: Option<JsConfig>, ping: PingReply): (r: SetConfigResult)
    ensures r.error == None <==> Missing(ParseConfig(command)) == [] && ping == PingAnswered(true)
    ensures r.error == None ==>
              && |r.actions| > 0
              && r.held == Some(ParseConfig(command))
              && r.actions[|r.actions| - 1] == StoreConfigCookie(ParseConfig(command))
    ensures r.error != None ==> r.held == previous && forall i :: 0 <= i < |r.actions| ==> !r.actions[i].StoreConfigCookie?
  {
    var config := ParseConfig(command);
    var (error, actions) := CheckConfig(config, ping);
    if error == None then SetConfigResult(Some(config), None, actions + [StoreConfigCookie(config)])
    else SetConfigResult(previous, error, actions)
  }

  /** A flag followed by a value appended to a command sets that setting and nothing else. */
  lemma ParseFlagValue(tokens: seq<string>, flag: string, value: string, k: ConfigKey)
    requires FlagKey(flag) == Some(k) && FlagKey(value).None?
    ensures ParseTokens(tokens + [flag, value]).config == ParseTokens(tokens).config[k := value]
  {
    var t := tokens + [flag, value];
    assert t[..|t| - 1] == tokens + [flag];
    assert (tokens + [flag])[..|tokens|] == tokens;
  }

  /** A command that sets all four settings, each once, yields exactly those four settings. */
  lemma SetConfigAcceptsFullCommand(endpoint: string, bucket: string, region: string, authKey: string)
    requires FlagKey(endpoint).None? && FlagKey(bucket).None? && FlagKey(region).None? && FlagKey(authKey).None?
    ensures ParseTokens(["--endpoint", endpoint, "--bucket", bucket, "--bucket-region", region, "--auth-key", authKey]).config
            == map[EndpointBaseUrl := endpoint, Bucket := bucket, BucketRegion := region, AuthKey := authKey]
  {
    var empty: seq<string> := [];
    ParseFlagValue(empty, "--endpoint", endpoint, EndpointBaseUrl);
    var t1 := empty + ["--endpoint", endpoint];
    ParseFlagValue(t1, "--bucket", bucket, Bucket);
    var t2 := t1 + ["--bucket", bucket];
    ParseFlagValue(t2, "--bucket-region", region, BucketRegion);
    var t3 := t2 + ["--bucket-region", region];
    ParseFlagValue(t3, "--auth-key", authKey, AuthKey);
    assert t3 + ["--auth-key", authKey] == ["--endpoint", endpoint, "--bucket", bucket, "--bucket-region", region, "--auth-key", authKey];
  }

  /** The header list the client sets on a PUT: every name with its first value (`undefined` when it has none). */
  function RequestHeaders(headers: Header): (r: seq<(string, string)>)
    ensures |r| == |headers|
    ensures forall i :: 0 <= i < |headers| ==> r[i].0 == headers[i].0
  {
    seq(|headers|, i requires 0 <= i < |headers| =>
      (headers[i].0, if |headers[i].1| > 0 then headers[i].1[0] else "undefined"))
  }

  /**
   The course of a browser upload: the requests sent, and how it ended
   (`None` when no callback ever runs).
   */
  datatype JsUpload = JsUpload(actions: seq<JsAction>, succeeded: Option<bool>)

  /**
   Encrypts and uploads one object: the PUT goes out with the envelope once
   the encryption finished, and the upload succeeds exactly on status 200.
   */
  function UploadEncrypted(c: BlockCipher, plaintext: seq<bv8>, key: seq<bv8>, iv: Block, putUrl: string,
                           headers: Header, status: int): (r: JsUpload)
    ensures !ValidKeyLength(|key|) ==> r == JsUpload([], None)
    ensures ValidKeyLength(|key|) ==>
              && r.actions == [PutObject(putUrl, RequestHeaders(headers), JsEnvelope(c, key, iv, plaintext))]
              && r.succeeded == Some(status == 200)
  {
    if !ValidKeyLength(|key|) then JsUpload([], None)
    else JsUpload([PutObject(putUrl, RequestHeaders(headers), JsEnvelope(c, key, iv, plaintext))], Some(status == 200))
  }

  /** The outcomes the browser's random source and the storage service give an upload of both objects. */
  datatype UploadWorld = UploadWorld(dataIv: Block, dataStatus: int, metaIv: Block, metaStatus: int)

  /**
   Uploads the content, and only from its success callback the metadata
   record `{filename, filesize}` (serialized by `marshal`).
   */
  function UploadBothEncrypted(c: BlockCipher, w: UploadWorld, marshal: FileMetadata -> seq<bv8>,
                               fileName: string, contents: seq<bv8>, key: seq<bv8>, response: UploadResponse): (r: JsUpload)
    ensures r.succeeded == Some(true) <==> ValidKeyLength(|key|) && w.dataStatus == 200 && w.metaStatus == 200
    ensures ValidKeyLength(|key|) && w.dataStatus != 200 ==> |r.actions| == 1 && r.succeeded == Some(false)
    ensures |r.actions| == 2 ==>
              && w.dataStatus == 200
              && r.actions[0] == PutObject(response.putUrl, RequestHeaders(response.headers), JsEnvelope(c, key, w.dataIv, contents))
              && r.actions[1] == PutObject(response.metaPutUrl, RequestHeaders(response.metaHeaders),
                                           JsEnvelope(c, key, w.metaIv, marshal(FileMetadata(fileName, |contents|))))
  {
    var data := UploadEncrypted(c, contents, key, w.dataIv, response.putUrl, response.headers, w.dataStatus);
    if data.succeeded != Some(true) then data
    else
      var meta := UploadEncrypted(c, marshal(FileMetadata(fileName, |contents|)), key, w.metaIv,
                                  response.metaPutUrl, response.metaHeaders, w.metaStatus);
      JsUpload(data.actions + meta.actions, meta.succeeded)
  }

  /** How the server answered the upload call. */
  datatype ApiReply = ApiFailed | ApiAnswered(response: UploadResponse)

  /** How a browser upload ended: the line to show, an error, or never. */
  datatype JsResult = JsSucceeded(line: string) | JsFailed(error: JsError) | JsNeverFinishes

  /**
   Uploads a file from the browser: generates a key, derives the id, asks
   the server for upload URLs, uploads both objects, and on success gives
   the `secretshare receive` line with the key.
   */
  function UploadFile(c: BlockCipher, config: JsConfig, sha256: seq<bv8> -> Api.Digest, marshal: FileMetadata -> seq<bv8>,
                      fileName: string, contents: seq<bv8>, keyRandom: Option<seq<bv8>>, api: ApiReply,
                      w: UploadWorld): (r: (JsResult, seq<JsAction>))
    requires keyRandom.Some? ==> |keyRandom.value| == 32
    ensures keyRandom.None? ==> r == (JsFailed(KeyGenThrew), [])
    ensures keyRandom.Some? ==>
              |r.1| >= 1 && r.1[0] == PostApi(ApiUrl(config, "upload"), Lookup(config, AuthKey),
                                               Some(DeriveId(sha256, keyRandom.value)))
    ensures api.ApiFailed? ==> r.0 == JsFailed(RequestFailed) || keyRandom.None?
    ensures r.0.JsSucceeded? <==> keyRandom.Some? && api.ApiAnswered? && w.dataStatus == 200 && w.metaStatus == 200
    ensures r.0.JsSucceeded? ==> r.0.line == "secretshare receive " + GenerateKey(keyRandom).value.1 && |r.1| == 3
  {
    match GenerateKey(keyRandom)
    case None => (JsFailed(KeyGenThrew), [])
    case Some(generated) =>
      var post := PostApi(ApiUrl(config, "upload"), Lookup(config, AuthKey), Some(DeriveId(sha256, generated.0)));
      match api
      case ApiFailed => (JsFailed(RequestFailed), [post])
      case ApiAnswered(response) =>
        var up := UploadBothEncrypted(c, w, marshal, fileName, contents, generated.0, response);
        var result := match up.succeeded
          case None => JsNeverFinishes
          case Some(ok) => if ok then JsSucceeded("secretshare receive " + generated.1) else JsFailed(UploadFailed);
        (result, [post] + up.actions)
  }
}

=== FILE: wrappers.dfy ===
/** Failure-compatible wrappers shared by every module of the model. */
module Wrappers {

  /** An optional value: Go's nil-able pointers and JavaScript's `undefined`. */
  datatype Option<+T> = None | Some(value: T)

  /** A value or an error: Go's `(T, error)` return pairs. */
  datatype Result<+T, +E> = Success(value: T) | Failure(error: E) {
    predicate IsFailure() {
      Failure?
    }

    function PropagateFailure<U>(): Result<U, E>
      requires Failure?
    {
      Failure(error)
    }

    function Extract(): T
      requires Success?
    {
      value
    }
  }
}
